=== FILE: README.md ===
# Chart-slide generation core, modelled in Dafny

This project models the deterministic core of a slide-generation backend. The backend takes an uploaded table and asks a
classification oracle which chart kinds suit it and which columns play which role. It then shapes the
data with pandas and renders one PowerPoint slide per chart variant through python-pptx. The model
covers:

- **Data validation** (`fun_validate`): the ordered list of hints about empty or duplicated
  headers, missing cells, mixed-type columns and tables without numbers (module `Validation`).
- **The chart catalogue** (`ChartType`): value strings, the two-column flag and the class-level
  listings (module `Catalogue`).
- **Data shaping**:
  - `Table`: column lookup and projection of the frame onto a category and value columns.
  - `Grouping`: group-by-sum over category keys, in pandas' key order.
  - `Pipeline`: dropping the total row, the ascending sorts by value or row sum, both percentage
    normalisations and the conditional descending sort.
  - `Shapes`: the two-column, wide multi-column, long (pivoted) multi-column and bubble shapes.
- **Rounding precision** (`_determine_rounding_precision`): the order of magnitude of the
  largest column median, clamped at zero, and whether one decimal place is needed (module
  `Precision`). From it come the number-format code and the unit caption (module `Formats`).
- **Layout policy**: every font size, boldness, label position, label format and axis/gridline
  switch of the `create_*` chart factories. This is one pure function of chart kind, category count and
  series count (module `Layout`).
- **The orchestrator** `create_chart` (module `Orchestrator`). It is a fold over the selected chart
  names:
  - shape preparation, where each shape's failure removes that shape's names from the selection;
  - the dispatch `match` that calls one or two renders per name;
  - the per-render `try`/`except` that deletes the last slide;
  - the final "at least one slide" check.

The oracle's answers, the pivot of long-format data and the outcome of each python-pptx render
call are inputs of the model. The iteration order of the Python set of chart names is an input too.

Numbers are `real`. Category keys are `Value = Num(real) | Str(string)`. A pandas frame is a header list
plus rows of `Value`s. Errors that the source catches or raises are `Result`/`Option` values.

## Model

| member | source | states |
|---|---|---|
| Catalogue.GetAll | app/models.py:70-72 | `get_all` lists eight members, pairwise distinct |
| Catalogue.GetAllListsEveryMember | app/models.py:10-72 | every enum member occurs in `get_all` |
| Catalogue.KeepTwoColumnCapableSpec | app/models.py:66-68 | the filter keeps exactly the flagged members, as a subsequence in the original order |
| Catalogue.GetAllWithTwoColumnsInput | app/models.py:66-68 | `get_all_chart_types_with_two_columns_input` returns only flagged members, each once, in declaration order |
| Catalogue.FromValue | app/models.py:10-57 | looking a value string up yields a member whose value is that string |
| Catalogue.FromValueRoundTrip | app/models.py:10-57 | every member is found again from its own value string |
| Catalogue.ValuesDistinct | app/models.py:10-57 | different members have different value strings |
| Catalogue.TwoColumnTypesAreColumnPieLine | app/models.py:10-68 | the two-column-capable members are column, pie and line, in that order |
| Text.NatToString | app/data_validation_service.py:28 | the decimal rendering of `row + 2` consists of digits only, without a leading zero |
| Text.NatToStringRoundTrip | app/data_validation_service.py:28 | reading the rendered digits back gives the number |
| Text.NatToStringInjective | app/data_validation_service.py:28 | different row numbers render differently |
| Text.Lower | app/chart_factory.py:845 | lower-casing keeps the length, turns each ASCII capital into its small letter and keeps every other character |
| Text.Strip | app/data_validation_service.py:12 | `strip()` returns the slice of the header left after removing a whitespace-only prefix and a whitespace-only suffix; the result is empty or begins and ends with a non-space |
| Text.StripEmptyIffBlank | app/data_validation_service.py:12 | `header.strip() == ""` exactly when the header is all whitespace |
| Text.Contains | app/data_validation_service.py:12 | `"_EMPTY" in header` holds exactly when the substring occurs at some position |
| Text.StrLessIrreflexive | app/ppt_service.py:207 | the string key order used by group-by is irreflexive |
| Text.StrLessTransitive | app/ppt_service.py:207 | the string key order is transitive |
| Text.StrLessTotal | app/ppt_service.py:207 | any two different strings are ordered one way |
| Text.StrLessAsymmetric | app/ppt_service.py:207 | the string key order is asymmetric |
| Table.KeyLessIrreflexive | app/ppt_service.py:207 | the group-key order (numbers before strings) is irreflexive |
| Table.KeyLessTransitive | app/ppt_service.py:207 | the group-key order is transitive, including across numbers and strings |
| Table.KeyLessTotal | app/ppt_service.py:244 | any two keys are equal or ordered, so mixed keys never fail to sort |
| Table.Occurrences | app/ppt_service.py:207 | lists as many positions as the header occurs, each holding that header |
| Table.ColumnIndex | app/ppt_service.py:244 | a column is found exactly when its header occurs once; otherwise it is missing (KeyError) or ambiguous |
| Table.ColumnIndices | app/ppt_service.py:207-217 | all named columns are found exactly when each header occurs once, and the indices point at those headers |
| Table.NumbersAt | app/ppt_service.py:207-212 | reading value cells succeeds exactly when every named cell is numeric, and returns their numbers |
| Table.Project | app/ppt_service.py:207 | projection succeeds exactly when the category and every value header occur once and every cell under a value header is a number; row `i` then carries row `i`'s category cell and, as value `k`, the number under the `k`-th value header |
| Table.ProjectRows | app/ppt_service.py:207-212 | reading the rows at fixed positions succeeds exactly when every value cell is a number, and row `i`'s value `k` is the number at the `k`-th position |
| Sorting.InsertAscending | app/ppt_service.py:247-248 | inserting into an ascending list keeps it ascending and adds exactly the element |
| Sorting.SortAscending | app/ppt_service.py:247-248 | the result is ascending by the key and a permutation of the input |
| Sorting.SortDescending | app/ppt_service.py:46-48 | the result is descending by the key and a permutation of the input |
| Sorting.Median | app/ppt_service.py:57 | `Series.median()`: for an odd count the middle order statistic, for an even count the mean of the two middle ones; at least half the values lie on either side of it |
| Sorting.SortedOrderStatistic | app/ppt_service.py:57 | the `k`-th element of the ascending sort is the column's `k`-th order statistic |
| Sorting.CountPermutation | app/ppt_service.py:57 | how many values lie below, at most or at least a bound does not depend on their order |
| Grouping.Insert | app/ppt_service.py:207 | adding a row to grouped rows keeps the width and adds its key to the key set |
| Grouping.Group | app/ppt_service.py:207 | grouping has exactly the input's keys, each once and in ascending key order, and keeps the width |
| Grouping.LookupInsert | app/ppt_service.py:207 | after adding a row, its key's sum grows by the row's values and every other key's sum is unchanged |
| Grouping.InsertKeepsOrder | app/ppt_service.py:207 | adding a row keeps the groups in strictly ascending key order |
| Grouping.GroupIsSumFor | app/ppt_service.py:207 | grouped rows are strictly ascending by key and each key's row is its reference sum |
| Grouping.GroupBySum | app/ppt_service.py:207 | `groupby(category, as_index=False).sum()` has exactly the input's keys, once each, ascending, each with the sum of its rows |
| Pipeline.DropTotalRow | app/ppt_service.py:134-135 | dropping the total row fails exactly on an empty table, and otherwise puts back the last row to give the table |
| Pipeline.TotalScales | app/ppt_service.py:29-41 | scaling every value by `c` scales the total by `c`, which the percentage normalisations rely on |
| Pipeline.RowShares | app/ppt_service.py:29-33 | a row with a non-zero sum becomes shares that total 100, each proportional to its value |
| Pipeline.NormalizeRows | app/ppt_service.py:29-33 | each row keeps its category; its shares exist exactly when its sum is non-zero, total 100 and are proportional to the values |
| Pipeline.NormalizeColumn | app/ppt_service.py:36-41 | a column exists exactly when the values' total is non-zero; it keeps every row and its category |
| Pipeline.NormalizeColumnSumsToOne | app/ppt_service.py:36-41 | the normalised column sums to one |
| Pipeline.NormalizeColumnKeepsShare | app/ppt_service.py:36-41 | each normalised value times the original total gives back the row's value, so every row keeps its proportion |
| Pipeline.SortByValue | app/ppt_service.py:247-248 | `sort_values(by=value)` yields a permutation ascending by value |
| Pipeline.SortByRowTotal | app/ppt_service.py:210-212 | ordering by series row sum yields a permutation ascending by row sum |
| Pipeline.SortDescendingUnlessNatural | app/ppt_service.py:46-48 | naturally ordered data is untouched; otherwise a permutation descending by value |
| Precision.Pow10Monotone | app/ppt_service.py:62 | powers of ten grow with the exponent |
| Precision.ClampedFloorLog10Unique | app/ppt_service.py:62-64 | at most one clamped decade fits a median |
| Precision.FloorLog10Large | app/ppt_service.py:62 | for a magnitude of at least one, the decade `k` satisfies `10^k <= x < 10^(k+1)` |
| Precision.ClampedFloorLog10 | app/ppt_service.py:55-64 | the running magnitude: `floor(log10(abs(median)))`, never below the starting 0 |
| Precision.ColumnDecade | app/ppt_service.py:58-64 | a zero median is skipped (decade 0); otherwise the clamped decade of the median |
| Precision.MaxMagnitudeIsLargestDecade | app/ppt_service.py:55-64 | the magnitude is the largest column decade, and 0 when every decade is below it |
| Precision.ColumnHasFraction | app/ppt_service.py:76-79 | a column needs a decimal exactly when some value divided by the divisor is not whole |
| Precision.AnyColumnHasFraction | app/ppt_service.py:76-79 | the columns need a decimal exactly when one of them does |
| Precision.FirstEmptyColumn | app/ppt_service.py:57 | finds an empty column, whose median pandas cannot turn into an integer, exactly when one exists |
| Precision.ResolvePrecision | app/ppt_service.py:51-85 | fails exactly on an empty column; otherwise the magnitude is the largest clamped decade, and the decimal place is 1 exactly when the magnitude is tested and some value is not whole after division |
| Formats.Commas | app/chart_factory.py:823-830 | `n` commas |
| Formats.NumberFormat | app/chart_factory.py:813-830 | the code reads back as "one decimal iff a decimal place" and one thousands comma per group, capped at three |
| Formats.DivisorMatchesFormatScale | app/chart_factory.py:813-830 | where a decimal is tested, the resolver divides by exactly the factor the code's commas divide by |
| Formats.SuffixMatchesThousandsGroups | app/chart_factory.py:833-843 | the caption's "k"/"mn"/"bn" names the same power of 1000 as the format code's commas |
| Formats.UnitLabel | app/chart_factory.py:833-854 | the caption is empty exactly for a "none" unit below a thousand; otherwise it starts with "in ", carries the magnitude word and ends with a real unit; with both it is "in <word> <unit>" |
| Shapes.PrecisionOf | app/ppt_service.py:214-217 | the precision of a shape's columns, failing exactly for a table with series but no rows |
| Shapes.PermutedGroupsKeepSums | app/ppt_service.py:207-212 | reordering grouped rows keeps every group's sum and the key set |
| Shapes.PrepareTwoColumn | app/ppt_service.py:223-257 | fails exactly on a bad column or an empty table; otherwise one row per key, each with its sum, ascending by key when natural and by value otherwise, with the precision of the value column |
| Shapes.PrepareWide | app/ppt_service.py:188-217 | fails exactly on a bad column or a table with series but no rows; otherwise grouped sums in key order or ascending by row sum, with the series precision |
| Shapes.MappingFromPivot | app/ppt_service.py:173-184 | the first pivoted header is the category and the rest are the series; no headers raises |
| Shapes.PrepareLong | app/ppt_service.py:156-184 | pivoted rows are kept (natural) or a permutation ascending by row sum; the failure cases are exactly no headers, a bad column, or series with no rows |
| Shapes.Repeat | app/ppt_service.py:287-291 | `text * n` is `n` copies of the text: `n` times the length, character `i` being the text's character `i mod length` |
| Shapes.Hundredfold | app/ppt_service.py:287-291 | `*= 100` multiplies a number by 100 and turns text into 100 copies of itself, character by character |
| Shapes.PrepareBubble | app/ppt_service.py:282-291 | fails exactly when a named column is missing or ambiguous; otherwise one row per table row, with x and y scaled when flagged as percentages |
| Shapes.PlottedPoints | app/ppt_service.py:287-291 | every numeric x and y coordinate is plotted at 100 times its cell value, whichever way its axis is flagged: preparation multiplies the flagged axes and plotting the others |
| Layout.Decide | app/chart_factory.py:21-805 | charts with axes have category fonts; labels are bold with standard sizes; value axis hidden iff labels shown; clustered labels only below 20 (column) or 11 (bar) points; fixed formats only for 100% stacked (`0`) and pie/doughnut (`0%`) |
| Layout.FontsNeverGrowWithCounts | app/chart_factory.py:67-79 | more categories or series never make a font larger |
| Layout.ClusteredLabelsOnlyDisappear | app/chart_factory.py:150-165 | growing a clustered chart can only remove its data labels |
| Layout.TwoColumnLabelsDominate | app/chart_factory.py:360-373 | column and bar value labels are at least as large as the category labels |
| Layout.ColumnLayout | app/chart_factory.py:65-79 | column chart: bold 14pt categories below 11 and 12pt from 11; bold data labels 16pt below 11 and 12pt from 11, outside the end, in the precision's format |
| Layout.BarLayout | app/chart_factory.py:360-373 | bar chart: categories 14pt below 16 and 10pt from 16, bold only below 11; bold labels 16/14/12pt with switches at 11 and 16, outside the end, precision format; value axis hidden, gridlines kept |
| Layout.ClusteredLayout | app/chart_factory.py:140-165 | clustered column and bar: bold 12pt categories; bold 12pt labels outside the end in the precision's format exactly below 20 (column) or 11 (bar) entries, otherwise none |
| Layout.StackedLayout | app/chart_factory.py:221-233 | stacked and 100% stacked: bold 14pt categories; bold centred labels 14pt below 4 series and 12pt from 4, in format `0` for 100% stacked and the precision's otherwise |
| Layout.PieLayout | app/chart_factory.py:636-642 | pie and doughnut: bold 16pt labels at the default position in format `0%` |
| Layout.LineBubbleLayout | app/chart_factory.py:739-743 | line and bubble: 12pt category labels whose boldness the factory does not set (recorded as not bold), no data labels, value axis shown |
| Layout.ThresholdEdges | app/chart_factory.py:67-79 | the switch points are exclusive: 10 categories large, 11 small; bar category bold below 11 and 14pt below 16; clustered labels at 16 but not 20 points |
| Validation.SetSizeDetectsDuplicates | app/data_validation_service.py:17 | `len(headers) != len(set(headers))` exactly when some header repeats |
| Validation.NullsInRow | app/data_validation_service.py:22-25 | one location per null cell of the row, in column order |
| Validation.NullLocations | app/data_validation_service.py:22-25 | exactly the null cells, in row-major order |
| Validation.LocationTexts | app/data_validation_service.py:26-28 | one "[row number: r+2, column header: h]" text per location, in order |
| Validation.InconsistentAmong | app/data_validation_service.py:32-43 | exactly the columns with more than one non-null cell type, in column order |
| Validation.HeadersAt | app/data_validation_service.py:43-48 | the headers of the listed columns, in order |
| Validation.ConcatenatedRanks | app/data_validation_service.py:4-59 | the hint kinds appear in the order the checks run |
| Validation.HintParts | app/data_validation_service.py:4-59 | the hints are the five optional parts in check order |
| Validation.HintsOrdered | app/data_validation_service.py:4-59 | each hint kind appears at most once, in check order |
| Validation.InHints | app/data_validation_service.py:4-59 | a hint is present exactly when one of the five parts holds it |
| Validation.HeaderHintsPresent | app/data_validation_service.py:12-19 | the empty-header hint appears iff a header is empty; the duplicate hint appears iff headers repeat and none is empty; never both |
| Validation.MissingHintPresent | app/data_validation_service.py:22-29 | the missing-values hint appears exactly when a cell is null |
| Validation.MissingHintCarriesLocations | app/data_validation_service.py:25-28 | the missing-values hint lists exactly the null cells in row-major order |
| Validation.InconsistentHintPresent | app/data_validation_service.py:45-48 | the formatting hint appears exactly when a column mixes types, and names those columns |
| Validation.NoNumbersHintPresent | app/data_validation_service.py:50-54 | the no-numbers hint appears exactly when no column has an int, float or bool cell |
| Validation.InFiveParts | app/data_validation_service.py:4-59 | membership in the concatenated parts is membership in one of them |
| Validation.HintsWellFormed | app/data_validation_service.py:22-48 | the missing-value hint lists exactly the null cells in row-major order, each naming an existing column, and the formatting hint names exactly the mixed-type columns in column order; neither list is empty |
| Validation.NoHintsIffClean | app/data_validation_service.py:4-59 | no hint exactly when every check passes; at most five hints |
| Validation.Texts | app/data_validation_service.py:14-53 | one message per hint, in order |
| Validation.Validate | app/data_validation_service.py:4-59 | `is_valid` exactly when there are no hints and every check passes; the messages are the hints' texts in check order |
| Orchestrator.CharacterNames | app/ppt_service.py:295 | `set("bubble_chart")` holds exactly the one-character strings of the name's letters |
| Orchestrator.AsWrittenKeepsBubbleName | app/ppt_service.py:295 | removing `set("bubble_chart")` never removes the name `bubble_chart` |
| Orchestrator.Without | app/ppt_service.py:219-221 | `list(set(selected) - names)` keeps exactly the names not removed, each once |
| Orchestrator.Touches | app/ppt_service.py:137-141 | the intersection with a name group is non-empty exactly when a selected name is in the group |
| Orchestrator.AfterShape | app/ppt_service.py:219-257 | after a shape's `try`, the selection loses exactly that shape's names, and only if it failed |
| Orchestrator.PrepareMulti | app/ppt_service.py:153-221 | a prepared multi-column shape is the wide preparation of the oracle's mapping, or the long preparation of the pivoted table |
| Orchestrator.PrepareTwo | app/ppt_service.py:223-257 | a prepared two-column shape is the oracle's mapping and its preparation; the mapping is unbound exactly when the oracle failed |
| Orchestrator.PrepareBubbleShape | app/ppt_service.py:259-296 | a prepared bubble shape is the oracle's mapping and its rows; the mapping is unbound exactly when the oracle failed |
| Orchestrator.PrepareShapes | app/ppt_service.py:137-296 | a shape is prepared iff one of its names was selected (bubble iff still selected); a name survives iff selected and no failed shape removes it |
| Orchestrator.SlideFor | app/chart_factory.py:21-805 | labels carry a format exactly when shown with a fixed code or a precision at hand; a precision-derived format reads back as that precision's decimal place and thousands scale and names the same power of 1000 as the caption; a caption exists only for factories taking a precision and is empty or starts with "in " |
| Orchestrator.MultiData | app/ppt_service.py:331-338 | the 100% stacked column chart gets one row per table row in order, with its category, and shares proportional to the values that total 100 exactly for rows with a non-zero sum; every other multi-column chart gets the table |
| Orchestrator.TwoData | app/ppt_service.py:362-378 | pie and doughnut get a permutation of the value shares, descending unless natural and in table order when natural, or none for a zero total; column and bar get the table |
| Orchestrator.MultiSteps | app/ppt_service.py:298-338 | each multi-column render is called in order, undoomed, with `MultiData`'s table, the layout for the table's categories and the mapping's series, and the unit caption only where a precision is taken |
| Orchestrator.TwoSteps | app/ppt_service.py:352-378 | each two-column render is called in order, undoomed, with `TwoData`'s table, the layout for the table's categories and one series, and the unit caption only where a precision is taken |
| Orchestrator.Steps | app/ppt_service.py:298-385 | each name dispatches its renders in order; it raises exactly when the shape its branch reads is not ready, unless it is a line or bubble branch whose shape failed after its mapping was bound; a ready shape's renders get its table (or points), and such a failed line or bubble branch makes one doomed call with no table |
| Orchestrator.Call | app/chart_factory.py:85-87 | a completed render adds its slide; one that raises after `add_slide` leaves the slides as they were; one whose `add_slide` raises deletes the previous slide, or raises when there is none |
| Orchestrator.Input | app/ppt_service.py:134-135 | the total row is dropped when flagged, which raises exactly on an empty table |
| Orchestrator.CreateCharts | app/ppt_service.py:101-387 | a run that succeeds has at least one slide, and each slide renders a kind some visited name dispatches |
| Orchestrator.ApplyKeeps | app/chart_factory.py:85-87 | a name's render calls leave only earlier slides and their own |
| Orchestrator.DispatchRendersOnlyPlanned | app/ppt_service.py:298-385 | every slide comes from a planned render call |
| Orchestrator.PlannedIsListed | app/ppt_service.py:298-385 | a planned slide's kind is one its name dispatches |
| Orchestrator.ApplyIsolatesFailures | app/chart_factory.py:85-87 | when no `add_slide` raises, a failed render loses only its own slide and every completed slide is kept in order |
| Orchestrator.DispatchIsolatesFailures | app/ppt_service.py:298-385 | with every name bound and no `add_slide` failing, the slides are exactly the completed ones in dispatch order |
| Orchestrator.ApplyFailsOnlyOnDelete | app/chart_factory.py:808-810 | render calls raise out of `create_chart` only from deleting a slide that does not exist |
| Orchestrator.DispatchFailures | app/ppt_service.py:298-385 | the loop raises only from a slide deletion or from a name's unbound argument |
| Orchestrator.UnboundBranchFailsDispatch | app/ppt_service.py:379-385 | a name with an unbound argument makes the loop raise, wherever it comes in the order |
| Orchestrator.StepsBound | app/ppt_service.py:298-385 | a name's arguments are bound once the shape its branch reads is prepared |
| Orchestrator.NameIsBound | app/ppt_service.py:137-385 | with the intended bubble removal, every surviving name has its arguments bound |
| Orchestrator.IntendedNeverUnbound | app/ppt_service.py:295 | with the intended bubble removal, `create_chart` never raises on an unbound argument |
| Orchestrator.ModesAgreeWithoutBubbleFailure | app/ppt_service.py:293-295 | the written and the corrected bubble removal prepare the same shapes and keep the same selection unless the bubble preparation fails |
| Orchestrator.AsWrittenRunKeepsCompletedSlides | app/ppt_service.py:101-387 | as written, when the bubble preparation does not fail and no `add_slide` fails, the result is every completed slide in order, or "Unable to create chart" when none completed |
| Orchestrator.IntendedRunKeepsCompletedSlides | app/ppt_service.py:101-387 | with the intended removal and no `add_slide` failure, the result is every completed slide in order, or "Unable to create chart" when none completed |
| Orchestrator.AsWrittenBubbleStaysSelected | app/ppt_service.py:259-296 | as written, a failed bubble data selection leaves `bubble_chart` selected with no bound mapping |
| Orchestrator.BubbleBranchUnbound | app/ppt_service.py:379-385 | the bubble branch raises when its mapping was never bound |
| Orchestrator.AsWrittenBubbleFailureRaises | app/ppt_service.py:295 | as written, a failed bubble data selection makes `create_chart` raise, whatever the order |
| Orchestrator.SoleBubbleSelection | app/ppt_service.py:259-295 | with only `bubble_chart` chosen and its data selection failing, the name is, as written, all that is left selected |
| Orchestrator.AsWrittenSoleBubbleRaises | app/ppt_service.py:294-385 | on that instance, dispatching the chosen list makes `create_chart` raise, whatever the renderers do |

## Left out

- I/O is outside the model: the Excel upload, the python-pptx object model, saving, the PDF conversion, `uuid` and the clock. Render outcomes are an input (`Outcome` per render kind).
- The oracle requests and prompts are inputs (`Oracle`). The pandas `pivot` of long-format data is also an input: `PrepareLong` starts from the pivoted table. A pivot that raises is a `None` answer.
- The mock-oracle switch is left out; it only replaces the oracle's answers with constants.
- `get_category_chart_names` and `get_multi_category_chart_names` are called by `create_chart` but are not defined in app/models.py. The two name groups are the `Config` parameter. `Covers` states what the dispatch needs of them.
- `create_100_percent_stacked_bar_chart` is never dispatched by `create_chart`, so it has no render kind.
- `_set_label` text placement, colours, chart titles and category-axis tick positions are rendering details without a decision; they are left out.
- Floating point is modelled with exact `real`s. NaN and infinity are not modelled: a zero row or column total gives `None` shares, where pandas yields NaN/inf values. `% 1` is the exact integrality test.
- The chart-side cell type `Value` has no null, so pandas' handling of missing cells in the chart data is outside the model: group-by drops rows with a null key, `sum` and `median` skip NaN, and since `NaN % 1 == 0` is false a null cell forces `decimal_place = 1` (ppt_service.py:76-79). Nulls are modelled only in validation.
- pandas `sort_values` uses an unstable quicksort. The model sorts stably and promises only a permutation in order, so the two agree wherever the contracts speak.
- The pipeline reads only the mapped columns. A non-series column whose cells pandas cannot add (text mixed with numbers) makes the source's group-by raise. The model does not reproduce that failure.
- Table.Project: text in a value column fails at projection (`NonNumeric`). In the source, the same shape fails a step later, when sorting or taking the median of concatenated strings. For a table with no rows, no such cell exists.
- Table.ColumnIndex: a header that occurs twice is an `AmbiguousColumn` failure. pandas may instead return a two-column frame and fail later, or in some cases carry on.
- Validation.Validate: column types are read by position. With a duplicated header, `df[column]` (data_validation_service.py:36) is a DataFrame, and `.apply(type)` yields the Series class for each of its columns. Such columns then count neither as numeric nor as mixed. The source can therefore add the "Could not find any numbers" hint, and leave those columns out of the inconsistency list, where the model reads each column's cells. The duplicate hint is raised either way.
- Orchestrator.Steps: in three corners the model approximates the source. Each needs a config that does not cover the name, or a shape that failed after its mapping was bound.
  - A LINE or BUBBLE branch whose shape failed after its mapping was bound is modelled as a call with no table, which raises after `add_slide` and loses its slide. For BUBBLE this is the source's behaviour: its table is bound only by the step that can fail (ppt_service.py:282-285). For LINE it is the source's behaviour only when the wide group-by raised on the category column (ppt_service.py:207), leaving `multi_column_dataframe` at `None`. Every other failure after the mapping leaves a table bound, which `create_line_chart` is handed and draws when the render completes:
    - on the wide path, a missing or text series column or an empty table fails in the row-sum sort or the median (ppt_service.py:210-217), after the grouped table was bound at line 207;
    - on the long path, the pivoted table is bound at ppt_service.py:167-173, before the mapping is built at 178-184, so every failure after the mapping leaves the pivoted table bound.
  - The 100% stacked column branch normalises a table that is still `None` (ppt_service.py:143): the source raises AttributeError on `dataframe.copy()` (ppt_service.py:30). The pie branch does the same with `dataframe[value]` and raises TypeError (ppt_service.py:37). The model raises the unbound-argument error in both; all escape `create_chart`.
  - A shape whose table was bound before a later step raised (a sort or a median) leaves that half-prepared table in place. The pie and 100% stacked branches then normalise and draw it, where the model raises the unbound-argument error.
- The model starts from an empty slide list: it assumes template.pptx, opened at ppt_service.py:106, holds no slides. A template slide would absorb a deletion by a render whose `add_slide` raises, and would satisfy the "at least one slide" check at ppt_service.py:386.
- Layout.LineBubbleLayout: `categoryBold` is false where the factory leaves boldness unset (chart_factory.py:739 and 794); the template's default is not modelled.
- Text.Lower: lowers ASCII letters only. No non-ASCII character lowercases to `n`, `o`, `e` or `"`, so `IsNoneUnit` agrees with `unit.lower() == "none"` on every string.
- The wording of exceptions and `print` output is left out; errors are constructors of `RunError` and `PrepError`.

The model keeps these properties of the code:

- the pie chart's shares are not re-sorted when the order is natural (ppt_service.py:46-48);
- decimal detection also scans columns whose median is zero;
- the 100% stacked column chart uses the fixed label format `0` (chart_factory.py:297);
- the only failure of the long path before its mapping exists is an empty pivoted header list;
- an empty series list is not an error of its own.

## Findings

| source | as written | input that shows it | evidently intended | confidence | as-written member | corrected member |
|---|---|---|---|---|---|---|
| app/ppt_service.py:295 | a failed bubble preparation subtracts `set(ChartType.BUBBLE.value)`, the set of the name's characters, so `bubble_chart` stays selected | selection `["bubble_chart"]` with a bubble data-selection request that raises: the dispatch then calls `create_bubble_chart` with `bubble_chart_information` unbound, and UnboundLocalError escapes `create_chart` | subtract `{ChartType.BUBBLE.value}`, as lines 219-221 and 255-257 do for the other shapes | high; not executed | Orchestrator.AsWrittenSoleBubbleRaises | Orchestrator.IntendedNeverUnbound |

=== FILE: catalogue.dfy ===
/** The closed enumeration of chart types offered to the classification
    oracle (the `ChartType` enum of app/models.py), with each member's value
    string and its "works with two input columns" flag. */
module Catalogue {
  import opened Results

  datatype ChartType =
    | Column
    | ColumnClustered
    | ColumnStacked
    | ColumnStacked100
    | Pie
    | AreaStacked100
    | Line
    | Bubble

  /** The member's value string, the name the oracle answers with. */
  function Value(t: ChartType): string
  {
    match t
    case Column => "column_chart"
    case ColumnClustered => "clustered_column_chart"
    case ColumnStacked => "stacked_column_chart"
    case ColumnStacked100 => "100_percent_stacked_column_chart"
    case Pie => "pie_chart"
    case AreaStacked100 => "100_percent_stacked_area_chart"
    case Line => "line_chart"
    case Bubble => "bubble_chart"
  }

  /** The second field of each member's tuple. */
  predicate WorksWithTwoInputColumns(t: ChartType)
  {
    t == Column || t == Pie || t == Line
  }

  /** `ChartType.get_all()`: every member, in declaration order. */
  function GetAll(): (all: seq<ChartType>)
    ensures |all| == 8
    ensures forall i, j :: 0 <= i < j < |all| ==> all[i] != all[j]
  {
    [Column, ColumnClustered, ColumnStacked, ColumnStacked100, Pie, AreaStacked100, Line, Bubble]
  }

  /** `get_all` lists every member. */
  lemma GetAllListsEveryMember(t: ChartType)
    ensures t in GetAll()
  {
    var all := GetAll();
    match t
    case Column => assert all[0] == t;
    case ColumnClustered => assert all[1] == t;
    case ColumnStacked => assert all[2] == t;
    case ColumnStacked100 => assert all[3] == t;
    case Pie => assert all[4] == t;
    case AreaStacked100 => assert all[5] == t;
    case Line => assert all[6] == t;
    case Bubble => assert all[7] == t;
  }

  /** `sub` is `s` with some elements removed and the rest kept in order. */
  predicate IsSubsequence<T(==)>(sub: seq<T>, s: seq<T>)
  {
    if |sub| == 0 then true
    else if |s| == 0 then false
    else if sub[0] == s[0] then IsSubsequence(sub[1..], s[1..])
    else IsSubsequence(sub, s[1..])
  }

  /** The list comprehension `[m for m in members if m.works_with_two_input_columns]`. */
  function KeepTwoColumnCapable(members: seq<ChartType>): seq<ChartType>
  {
    if |members| == 0 then []
    else if WorksWithTwoInputColumns(members[0]) then [members[0]] + KeepTwoColumnCapable(members[1..])
    else KeepTwoColumnCapable(members[1..])
  }

  /** The filter keeps exactly the two-column-capable members, in their order. */
  lemma {:induction false} KeepTwoColumnCapableSpec(members: seq<ChartType>)
    ensures forall t :: t in KeepTwoColumnCapable(members) <==> t in members && WorksWithTwoInputColumns(t)
    ensures IsSubsequence(KeepTwoColumnCapable(members), members)
  {
    if |members| > 0 {
      var rest := KeepTwoColumnCapable(members[1..]);
      KeepTwoColumnCapableSpec(members[1..]);
      assert members == [members[0]] + members[1..];
      if WorksWithTwoInputColumns(members[0]) {
        assert ([members[0]] + rest)[1..] == rest;
      }
    }
  }

  /** `ChartType.get_all_chart_types_with_two_columns_input()`. */
  function GetAllWithTwoColumnsInput(): (r: seq<ChartType>)
    ensures forall t :: t in r <==> WorksWithTwoInputColumns(t)
    ensures IsSubsequence(r, GetAll())
  {
    var all := GetAll();
    assert forall t :: WorksWithTwoInputColumns(t) ==> t in all by {
      assert all[0] == Column && all[4] == Pie && all[6] == Line;
    }
    KeepTwoColumnCapableSpec(all);
    KeepTwoColumnCapable(all)
  }

  /** Looks a value string up among the members (`ChartType(value)`); `None`
      for a string that names no member. */
  function FromValue(s: string): (r: Option<ChartType>)
    ensures r.Some? ==> Value(r.value) == s
  {
    if s == "column_chart" then Some(Column)
    else if s == "clustered_column_chart" then Some(ColumnClustered)
    else if s == "stacked_column_chart" then Some(ColumnStacked)
    else if s == "100_percent_stacked_column_chart" then Some(ColumnStacked100)
    else if s == "pie_chart" then Some(Pie)
    else if s == "100_percent_stacked_area_chart" then Some(AreaStacked100)
    else if s == "line_chart" then Some(Line)
    else if s == "bubble_chart" then Some(Bubble)
    else None
  }

  /** Every member's value string leads back to that member. */
  lemma FromValueRoundTrip(t: ChartType)
    ensures FromValue(Value(t)) == Some(t)
  {
  }

  /** Member value strings are pairwise distinct. */
  lemma ValuesDistinct(a: ChartType, b: ChartType)
    requires a != b
    ensures Value(a) != Value(b)
  {
    FromValueRoundTrip(a);
    FromValueRoundTrip(b);
  }

  /** Column, pie and line charts are exactly the two-column-capable members,
      listed in declaration order. */
  lemma TwoColumnTypesAreColumnPieLine()
    ensures GetAllWithTwoColumnsInput() == [Column, Pie, Line]
  {
    var tail := [Line, Bubble];
    assert KeepTwoColumnCapable(tail[1..]) == [] by { assert tail[1..][1..] == []; }
    assert KeepTwoColumnCapable(tail) == [Line];
    var mid := [Pie, AreaStacked100] + tail;
    assert KeepTwoColumnCapable(mid[1..]) == [Line] by { assert mid[1..][1..] == tail; }
    assert KeepTwoColumnCapable(mid) == [Pie, Line];
    var head := [Column, ColumnClustered, ColumnStacked, ColumnStacked100] + mid;
    assert KeepTwoColumnCapable(head[3..]) == [Pie, Line] by { assert head[3..][1..] == mid; }
    assert KeepTwoColumnCapable(head[2..]) == [Pie, Line] by { assert head[2..][1..] == head[3..]; }
    assert KeepTwoColumnCapable(head[1..]) == [Pie, Line] by { assert head[1..][1..] == head[2..]; }
    assert KeepTwoColumnCapable(head) == [Column, Pie, Line] by { assert head[1..] == head[1..]; }
    assert head == GetAll();
  }
}

=== FILE: formats.dfy ===
/** The number-format code and unit caption derived from a rounding precision
    (`_resolve_number_format` and `_resolve_unit_label` in app/chart_factory.py).
    In the rendering library's format-code language every trailing comma
    divides the displayed value by one thousand, so the code's commas and the
    caption's "k"/"mn"/"bn" have to agree. */
module Formats {
  import opened Results
  import opened Precision
  import Text

  /** How many thousands the magnitude is grouped into: none below 10^3, then
      one per three decades, at most three (billions). */
  function ThousandsGroups(m: int): nat
  {
    if m < 3 then 0 else if m / 3 > 3 then 3 else m / 3
  }

  function Pow1000(n: nat): nat
  {
    if n == 0 then 1 else 1000 * Pow1000(n - 1)
  }

  /** `n` comma characters. */
  function Commas(n: nat): (s: string)
    ensures |s| == n
    ensures forall i :: 0 <= i < n ==> s[i] == ','
  {
    if n == 0 then "" else Commas(n - 1) + ","
  }

  /** What a format code of this family says: whether one decimal is shown and
      by how many thousands the value is divided. */
  datatype FormatSpec = FormatSpec(oneDecimal: bool, groups: nat)

  /** Reads a code of the shape `0`, optional `.0`, then commas only. */
  function ParseNumberFormat(code: string): Option<FormatSpec>
  {
    if |code| == 0 || code[0] != '0' then None
    else
      var hasDecimal := |code| >= 3 && code[1] == '.' && code[2] == '0';
      var tail := if hasDecimal then code[3..] else code[1..];
      if forall i :: 0 <= i < |tail| ==> tail[i] == ',' then Some(FormatSpec(hasDecimal, |tail|))
      else None
  }

  /** `_resolve_number_format`: `"0"`, then `".0"` when a decimal place is
      needed, then one comma per thousands group. */
  function NumberFormat(p: RoundingPrecision): (code: string)
    ensures |code| >= 1 && code[0] == '0'
    ensures ParseNumberFormat(code) == Some(FormatSpec(p.decimalPlace != 0, ThousandsGroups(p.orderOfMagnitude)))
    ensures |code| <= 6
  {
    var base := if p.decimalPlace != 0 then "0.0" else "0";
    var m := p.orderOfMagnitude;
    var code :=
      if m < 3 then base
      else if m < 6 then base + ","
      else if m < 9 then base + ",,"
      else base + ",,,";
    var tail := if p.decimalPlace != 0 then code[3..] else code[1..];
    assert tail == Commas(ThousandsGroups(m));
    code
  }

  /** Wherever the resolver tests for a decimal place, it divides by exactly
      the factor the format code's commas divide the displayed value by: the
      decimal shown is the one that was detected. */
  lemma DivisorMatchesFormatScale(p: RoundingPrecision)
    requires DecimalTested(p.orderOfMagnitude)
    ensures Divisor(p.orderOfMagnitude) == Pow1000(ParseNumberFormat(NumberFormat(p)).value.groups) as real
  {
  }

  /** The caption's magnitude word: "k" for 10^3 to 10^5, "mn" for 10^6 to
      10^8, "bn" above, nothing below 10^3. */
  function MagnitudeSuffix(m: int): string
  {
    if 3 <= m <= 5 then "k"
    else if 6 <= m <= 8 then "mn"
    else if m > 8 then "bn"
    else ""
  }

  /** The caption's word names the same power of one thousand the format
      code divides by, for every magnitude. */
  lemma SuffixMatchesThousandsGroups(m: int)
    ensures MagnitudeSuffix(m) == ["", "k", "mn", "bn"][ThousandsGroups(m)]
  {
  }

  /** The oracle's way of saying there is no unit: `none` or `"none"`, in any
      letter case. */
  predicate IsNoneUnit(unit: string)
  {
    Text.Lower(unit) == "none" || Text.Lower(unit) == "\"none\""
  }

  /** `_resolve_unit_label`: the caption line under the axis label. */
  function UnitLabel(unit: string, m: int): (caption: string)
    ensures caption == "" <==> IsNoneUnit(unit) && MagnitudeSuffix(m) == ""
    ensures caption != "" ==> |caption| >= 3 && caption[..3] == "in "
    ensures !IsNoneUnit(unit) ==> |caption| >= |unit| && caption[|caption| - |unit|..] == unit
    ensures IsNoneUnit(unit) ==> caption == "" || caption == "in " + MagnitudeSuffix(m)
    ensures MagnitudeSuffix(m) != "" ==> |caption| >= 3 + |MagnitudeSuffix(m)| && caption[3..3 + |MagnitudeSuffix(m)|] == MagnitudeSuffix(m)
    ensures !IsNoneUnit(unit) && MagnitudeSuffix(m) != "" ==> |caption| == 4 + |MagnitudeSuffix(m)| + |unit|
    ensures !IsNoneUnit(unit) && MagnitudeSuffix(m) == "" ==> |caption| == 3 + |unit|
    ensures !IsNoneUnit(unit) && MagnitudeSuffix(m) != "" ==> caption == "in " + MagnitudeSuffix(m) + " " + unit
  {
    var magnitude := MagnitudeSuffix(m);
    var unitIsNone := IsNoneUnit(unit);
    if unitIsNone && magnitude == "" then ""
    else if unitIsNone then "in " + magnitude
    else if magnitude == "" then "in " + unit
    else "in " + magnitude + " " + unit
  }
}

=== FILE: grouping.dfy ===
/** `df.groupby(category, as_index=False).sum()` on a projected table: one row
    per distinct category, in ascending key order, holding the column-wise sum
    of every row with that category. */
module Grouping {
  import opened Table

  function Zeros(width: nat): (z: seq<real>)
    ensures |z| == width && forall j :: 0 <= j < width ==> z[j] == 0.0
  {
    seq(width, _ => 0.0)
  }

  /** Column-wise sum of two rows of equal width. */
  function Add(u: seq<real>, v: seq<real>): (w: seq<real>)
    requires |u| == |v|
    ensures |w| == |u| && forall j :: 0 <= j < |u| ==> w[j] == u[j] + v[j]
  {
    seq(|u|, j requires 0 <= j < |u| => u[j] + v[j])
  }

  /** Reference definition: the column-wise total of the rows labelled `key`. */
  function SumFor(rows: seq<CatRow>, key: Value, width: nat): (total: seq<real>)
    requires HasWidth(rows, width)
    ensures |total| == width
  {
    if |rows| == 0 then Zeros(width)
    else
      var n := |rows| - 1;
      var front := SumFor(rows[..n], key, width);
      if rows[n].category == key then Add(front, rows[n].values) else front
  }

  /** The values held for `key`, or zeros when the key is absent. */
  function Lookup(groups: seq<CatRow>, key: Value, width: nat): (v: seq<real>)
    requires HasWidth(groups, width)
    ensures |v| == width
  {
    if |groups| == 0 then Zeros(width)
    else if groups[0].category == key then groups[0].values
    else Lookup(groups[1..], key, width)
  }

  function Keys(rows: seq<CatRow>): set<Value>
  {
    set i | 0 <= i < |rows| :: rows[i].category
  }

  lemma KeysCons(head: CatRow, tail: seq<CatRow>)
    ensures Keys([head] + tail) == {head.category} + Keys(tail)
  {
    var whole := [head] + tail;
    forall k | k in Keys(whole) ensures k in {head.category} + Keys(tail) {
      var i :| 0 <= i < |whole| && whole[i].category == k;
      if i > 0 { assert tail[i - 1] == whole[i]; }
    }
    forall k | k in Keys(tail) ensures k in Keys(whole) {
      var i :| 0 <= i < |tail| && tail[i].category == k;
      assert whole[i + 1] == tail[i];
    }
    assert whole[0] == head;
  }

  /** Keys strictly ascending: sorted and no key twice. */
  predicate StrictlyAscending(groups: seq<CatRow>)
  {
    forall i, j :: 0 <= i < j < |groups| ==> KeyLess(groups[i].category, groups[j].category)
  }

  /** Folds one row into a grouped, ascending table. */
  function Insert(groups: seq<CatRow>, row: CatRow): (r: seq<CatRow>)
    requires HasWidth(groups, |row.values|)
    ensures HasWidth(r, |row.values|)
    ensures Keys(r) == Keys(groups) + {row.category}
  {
    if |groups| == 0 then
      KeysCons(row, groups);
      assert [row] + groups == [row];
      [row]
    else if groups[0].category == row.category then
      KeysCons(groups[0], groups[1..]);
      assert groups == [groups[0]] + groups[1..];
      KeysCons(CatRow(row.category, Add(groups[0].values, row.values)), groups[1..]);
      [CatRow(row.category, Add(groups[0].values, row.values))] + groups[1..]
    else if KeyLess(row.category, groups[0].category) then
      KeysCons(row, groups);
      [row] + groups
    else
      var rest := Insert(groups[1..], row);
      KeysCons(groups[0], groups[1..]);
      assert groups == [groups[0]] + groups[1..];
      KeysCons(groups[0], rest);
      [groups[0]] + rest
  }

  function Group(rows: seq<CatRow>, width: nat): (r: seq<CatRow>)
    requires HasWidth(rows, width)
    ensures HasWidth(r, width)
    ensures Keys(r) == Keys(rows)
    ensures StrictlyAscending(r)
  {
    if |rows| == 0 then []
    else
      var n := |rows| - 1;
      assert Keys(rows) == Keys(rows[..n]) + {rows[n].category};
      InsertKeepsOrder(Group(rows[..n], width), rows[n]);
      Insert(Group(rows[..n], width), rows[n])
  }

  lemma AddZeros(v: seq<real>)
    ensures Add(Zeros(|v|), v) == v
  {
  }

  lemma {:induction false} LookupAbsent(groups: seq<CatRow>, key: Value, width: nat)
    requires HasWidth(groups, width)
    requires key !in Keys(groups)
    ensures Lookup(groups, key, width) == Zeros(width)
  {
    if |groups| > 0 {
      KeysCons(groups[0], groups[1..]);
      assert groups == [groups[0]] + groups[1..];
      LookupAbsent(groups[1..], key, width);
    }
  }

  /** In a table without repeated keys, the lookup finds each row's own values. */
  lemma {:induction false} LookupAt(groups: seq<CatRow>, i: nat, width: nat)
    requires HasWidth(groups, width) && StrictlyAscending(groups)
    requires i < |groups|
    ensures Lookup(groups, groups[i].category, width) == groups[i].values
  {
    if i > 0 {
      assert KeyLess(groups[0].category, groups[i].category);
      KeyLessIrreflexive(groups[0].category);
      assert groups[1..][i - 1] == groups[i];
      LookupAt(groups[1..], i - 1, width);
    }
  }

  lemma {:induction false} InsertKeepsOrder(groups: seq<CatRow>, row: CatRow)
    requires HasWidth(groups, |row.values|) && StrictlyAscending(groups)
    ensures StrictlyAscending(Insert(groups, row))
  {
    if |groups| == 0 {
    } else if groups[0].category == row.category {
    } else if KeyLess(row.category, groups[0].category) {
      forall j | 0 <= j < |groups| ensures KeyLess(row.category, groups[j].category) {
        if j > 0 { KeyLessTransitive(row.category, groups[0].category, groups[j].category); }
      }
      var r := [row] + groups;
      forall i, j | 0 <= i < j < |r| ensures KeyLess(r[i].category, r[j].category) {
        if i == 0 { assert r[j] == groups[j - 1]; }
        else { assert r[i] == groups[i - 1] && r[j] == groups[j - 1]; }
      }
    } else {
      var tail := groups[1..];
      InsertKeepsOrder(tail, row);
      var rest := Insert(tail, row);
      KeyLessTotal(groups[0].category, row.category);
      forall m | 0 <= m < |rest| ensures KeyLess(groups[0].category, rest[m].category) {
        assert rest[m].category in Keys(rest);
        if rest[m].category != row.category {
          var t :| 0 <= t < |tail| && tail[t].category == rest[m].category;
          assert tail[t] == groups[t + 1];
        }
      }
      var r := [groups[0]] + rest;
      forall i, j | 0 <= i < j < |r| ensures KeyLess(r[i].category, r[j].category) {
        if i == 0 { assert r[j] == rest[j - 1]; }
        else { assert r[i] == rest[i - 1] && r[j] == rest[j - 1]; }
      }
    }
  }

  lemma {:induction false} LookupInsert(groups: seq<CatRow>, row: CatRow, key: Value)
    requires HasWidth(groups, |row.values|) && StrictlyAscending(groups)
    ensures Lookup(Insert(groups, row), key, |row.values|) ==
            if key == row.category then Add(Lookup(groups, key, |row.values|), row.values)
            else Lookup(groups, key, |row.values|)
  {
    var w := |row.values|;
    if |groups| == 0 {
      AddZeros(row.values);
    } else if groups[0].category == row.category {
      assert Insert(groups, row)[1..] == groups[1..];
    } else if KeyLess(row.category, groups[0].category) {
      assert Insert(groups, row)[1..] == groups;
      if key == row.category {
        forall j | 0 <= j < |groups| ensures groups[j].category != key {
          if j > 0 { KeyLessTransitive(row.category, groups[0].category, groups[j].category); }
          KeyLessIrreflexive(key);
        }
        LookupAbsent(groups, key, w);
        AddZeros(row.values);
      }
    } else {
      LookupInsert(groups[1..], row, key);
      assert Insert(groups, row)[1..] == Insert(groups[1..], row);
    }
  }

  /** Grouping is ordered and accumulates exactly the reference sums. */
  lemma {:induction false} GroupIsSumFor(rows: seq<CatRow>, width: nat)
    requires HasWidth(rows, width)
    ensures StrictlyAscending(Group(rows, width))
    ensures forall key :: Lookup(Group(rows, width), key, width) == SumFor(rows, key, width)
  {
    if |rows| > 0 {
      var n := |rows| - 1;
      GroupIsSumFor(rows[..n], width);
      var before := Group(rows[..n], width);
      InsertKeepsOrder(before, rows[n]);
      forall key ensures Lookup(Group(rows, width), key, width) == SumFor(rows, key, width) {
        LookupInsert(before, rows[n], key);
      }
    }
  }

  /** `groupby(category, as_index=False).sum()`: one row per distinct category,
      keys in pandas' sort order, each row the column-wise sum of its group. */
  function GroupBySum(rows: seq<CatRow>, width: nat): (r: seq<CatRow>)
    requires HasWidth(rows, width)
    ensures HasWidth(r, width)
    ensures Keys(r) == Keys(rows)
    ensures StrictlyAscending(r)
    ensures forall i :: 0 <= i < |r| ==> r[i].values == SumFor(rows, r[i].category, width)
  {
    var r := Group(rows, width);
    GroupIsSumFor(rows, width);
    assert forall i :: 0 <= i < |r| ==> r[i].values == SumFor(rows, r[i].category, width) by {
      forall i | 0 <= i < |r| ensures r[i].values == SumFor(rows, r[i].category, width) {
        LookupAt(r, i, width);
      }
    }
    r
  }
}

=== FILE: layout.dfy ===
/** The count-dependent styling inside every `create_*` of
    `app/chart_factory.py`, as one pure decision per render call. Colours,
    line widths, gap widths and legend placement are not modelled. */
module Layout {
  import opened Results

  /** One python-pptx render call. */
  datatype Render =
    | ColumnRender | BarRender
    | ClusteredColumnRender | ClusteredBarRender
    | StackedColumnRender | StackedBarRender | StackedColumn100Render
    | PieRender | DoughnutRender
    | LineRender | BubbleRender

  datatype LabelPosition = OutsideEnd | Center | DefaultPosition

  /** Data-label number format: derived from the rounding precision, or fixed. */
  datatype LabelFormat = FromPrecision | Fixed(code: string)

  datatype DataLabels = DataLabels(font: nat, bold: bool, position: LabelPosition, format: LabelFormat)

  /** What a render call decides. `categoryFont` is `None` for charts without
      a category axis; `categoryBold` records that the code sets the category
      labels bold; the two `hides` flags record that the code explicitly
      switches the value axis or its major gridlines off. */
  datatype LayoutDecision = LayoutDecision(
    categoryFont: Option<nat>,
    categoryBold: bool,
    hidesValueAxis: bool,
    hidesGridlines: bool,
    labels: Option<DataLabels>)

  /** Pie and doughnut have no value axis to hide. */
  predicate HasAxes(r: Render)
  {
    !(r.PieRender? || r.DoughnutRender?)
  }

  /** Renders whose value caption is `_set_label`'s axis label and unit line. */
  predicate UsesUnitLabel(r: Render)
  {
    r.ColumnRender? || r.BarRender? || r.ClusteredColumnRender? || r.ClusteredBarRender?
    || r.StackedColumnRender? || r.StackedBarRender?
  }

  /** Below this many series×categories entries a clustered chart trades its
      value axis for data labels (chart_factory.py 150 and 443). */
  function ClusteredThreshold(r: Render): nat
  {
    if r.ClusteredColumnRender? then 20 else 11
  }

  predicate StandardFont(pt: nat)
  {
    pt == 10 || pt == 12 || pt == 14 || pt == 16
  }

  function Decide(r: Render, categories: nat, series: nat): (d: LayoutDecision)
    ensures d.categoryFont.Some? <==> HasAxes(r)
    ensures d.categoryFont.Some? ==> StandardFont(d.categoryFont.value)
    ensures d.labels.Some? ==> StandardFont(d.labels.value.font) && d.labels.value.bold
    ensures HasAxes(r) ==> (d.labels.Some? <==> d.hidesValueAxis)
    ensures !HasAxes(r) ==> d.labels.Some? && !d.hidesValueAxis
    ensures d.hidesGridlines ==> d.hidesValueAxis
    ensures (r.ClusteredColumnRender? || r.ClusteredBarRender?) ==>
              (d.labels.Some? <==> series * categories < ClusteredThreshold(r))
    ensures d.labels.Some? && d.labels.value.format.Fixed? ==> r.StackedColumn100Render? || !HasAxes(r)
    ensures d.labels.Some? && d.labels.value.format.Fixed? ==>
              d.labels.value.format.code == if HasAxes(r) then "0" else "0%"
  {
    match r
    case ColumnRender =>
      LayoutDecision(Some(if categories < 11 then 14 else 12), true, true, true,
                     Some(DataLabels(if categories < 11 then 16 else 12, true, OutsideEnd, FromPrecision)))
    case BarRender =>
      LayoutDecision(Some(if categories < 16 then 14 else 10), categories < 11, true, false,
                     Some(DataLabels(if categories < 11 then 16 else if categories < 16 then 14 else 12,
                                     true, OutsideEnd, FromPrecision)))
    case ClusteredColumnRender =>
      var small := series * categories < 20;
      LayoutDecision(Some(12), true, small, small,
                     if small then Some(DataLabels(12, true, OutsideEnd, FromPrecision)) else None)
    case ClusteredBarRender =>
      var small := series * categories < 11;
      LayoutDecision(Some(12), true, small, small,
                     if small then Some(DataLabels(12, true, OutsideEnd, FromPrecision)) else None)
    case StackedColumnRender =>
      LayoutDecision(Some(14), true, true, true,
                     Some(DataLabels(if series < 4 then 14 else 12, true, Center, FromPrecision)))
    case StackedBarRender =>
      LayoutDecision(Some(14), true, true, true,
                     Some(DataLabels(if series < 4 then 14 else 12, true, Center, FromPrecision)))
    case StackedColumn100Render =>
      LayoutDecision(Some(14), true, true, true,
                     Some(DataLabels(if series < 4 then 14 else 12, true, Center, Fixed("0"))))
    case PieRender =>
      LayoutDecision(None, false, false, false, Some(DataLabels(16, true, DefaultPosition, Fixed("0%"))))
    case DoughnutRender =>
      LayoutDecision(None, false, false, false, Some(DataLabels(16, true, DefaultPosition, Fixed("0%"))))
    case LineRender =>
      LayoutDecision(Some(12), false, false, false, None)
    case BubbleRender =>
      LayoutDecision(Some(12), false, false, false, None)
  }

  /** More categories or more series never make a font larger. */
  lemma FontsNeverGrowWithCounts(r: Render, c1: nat, c2: nat, s1: nat, s2: nat)
    requires c1 <= c2 && s1 <= s2
    requires Decide(r, c1, s1).labels.Some? && Decide(r, c2, s2).labels.Some?
    ensures Decide(r, c2, s2).labels.value.font <= Decide(r, c1, s1).labels.value.font
    ensures Decide(r, c2, s2).categoryFont.Some? ==>
              Decide(r, c2, s2).categoryFont.value <= Decide(r, c1, s1).categoryFont.value
  {
  }

  /** Adding entries can only take a clustered chart's data labels away. */
  lemma ClusteredLabelsOnlyDisappear(r: Render, c1: nat, c2: nat, s1: nat, s2: nat)
    requires r.ClusteredColumnRender? || r.ClusteredBarRender?
    requires c1 <= c2 && s1 <= s2
    ensures Decide(r, c2, s2).labels.Some? ==> Decide(r, c1, s1).labels.Some?
  {
    assert s1 * c1 <= s2 * c1 <= s2 * c2;
  }

  /** The single-series charts label their values at least as large as
      their categories. */
  lemma TwoColumnLabelsDominate(categories: nat)
    ensures Decide(ColumnRender, categories, 1).labels.value.font >= Decide(ColumnRender, categories, 1).categoryFont.value
    ensures Decide(BarRender, categories, 1).labels.value.font >= Decide(BarRender, categories, 1).categoryFont.value
  {
  }

  /** The thresholds at their edges: 10 categories get the large column-chart
      fonts, 11 the small ones; bar chart category labels stop being bold at 11
      and shrink at 16. */
  lemma ThresholdEdges()
    ensures Decide(ColumnRender, 10, 1).categoryFont == Some(14) && Decide(ColumnRender, 11, 1).categoryFont == Some(12)
    ensures Decide(BarRender, 10, 1).categoryBold && !Decide(BarRender, 11, 1).categoryBold
    ensures Decide(BarRender, 15, 1).categoryFont == Some(14) && Decide(BarRender, 16, 1).categoryFont == Some(10)
    ensures Decide(ClusteredColumnRender, 4, 4).labels.Some? && Decide(ClusteredColumnRender, 4, 5).labels.None?
    ensures Decide(ClusteredBarRender, 10, 1).labels.Some? && Decide(ClusteredBarRender, 11, 1).labels.None?
  {
  }

  /** A size ladder: the size of the first step whose bound exceeds `n`,
      and `otherwise` past the last step. The count thresholds of
      `app/chart_factory.py` are all of this shape. */
  function Ladder(steps: seq<(nat, nat)>, otherwise: nat, n: nat): nat
  {
    if |steps| == 0 then otherwise
    else if n < steps[0].0 then steps[0].1
    else Ladder(steps[1..], otherwise, n)
  }

  /** The column chart: bold category labels of 14pt below 11 categories and
      12pt from 11 on; bold data labels of 16pt below 11 categories and 12pt
      from 11 on, outside the bar end, in the precision's format. */
  lemma ColumnLayout(categories: nat, series: nat)
    ensures var d := Decide(ColumnRender, categories, series);
      && d.categoryFont == Some(Ladder([(11, 14)], 12, categories)) && d.categoryBold
      && d.labels == Some(DataLabels(Ladder([(11, 16)], 12, categories), true, OutsideEnd, FromPrecision))
  {
  }

  /** The bar chart: category labels of 14pt below 16 categories and 10pt
      from 16 on, bold only below 11; data labels of 16, 14 and 12pt
      switching at 11 and 16 categories, outside the bar end, in the
      precision's format. The gridlines stay. */
  lemma BarLayout(categories: nat, series: nat)
    ensures var d := Decide(BarRender, categories, series);
      && d.categoryFont == Some(Ladder([(16, 14)], 10, categories))
      && (d.categoryBold <==> categories < 11)
      && d.labels == Some(DataLabels(Ladder([(11, 16), (16, 14)], 12, categories), true, OutsideEnd, FromPrecision))
      && d.hidesValueAxis && !d.hidesGridlines
  {
    var steps: seq<(nat, nat)> := [(11, 16), (16, 14)];
    var rest: seq<(nat, nat)> := [(16, 14)];
    assert steps[1..] == rest && rest[1..] == [];
    assert Ladder(rest, 12, categories) == if categories < 16 then 14 else 12;
    assert Ladder(steps, 12, categories) == if categories < 11 then 16 else Ladder(rest, 12, categories);
  }

  /** The clustered charts: 12pt bold category labels; below the threshold
      12pt bold data labels outside the bar end in the precision's format,
      none from the threshold on. */
  lemma ClusteredLayout(r: Render, categories: nat, series: nat)
    requires r.ClusteredColumnRender? || r.ClusteredBarRender?
    ensures var d := Decide(r, categories, series);
      && d.categoryFont == Some(12) && d.categoryBold
      && d.labels == (if series * categories < ClusteredThreshold(r)
                      then Some(DataLabels(12, true, OutsideEnd, FromPrecision)) else None)
  {
  }

  /** The stacked charts: 14pt bold category labels; centred bold data labels
      of 14pt below 4 series and 12pt from 4 on, in the precision's format,
      except `"0"` for the 100% stacked column chart. */
  lemma StackedLayout(r: Render, categories: nat, series: nat)
    requires r.StackedColumnRender? || r.StackedBarRender? || r.StackedColumn100Render?
    ensures var d := Decide(r, categories, series);
      && d.categoryFont == Some(14) && d.categoryBold
      && d.labels == Some(DataLabels(Ladder([(4, 14)], 12, series), true, Center,
                                     if r.StackedColumn100Render? then Fixed("0") else FromPrecision))
  {
  }

  /** Pie and doughnut: 16pt bold data labels in the fixed format `"0%"`,
      whatever the counts. */
  lemma PieLayout(r: Render, categories: nat, series: nat)
    requires r.PieRender? || r.DoughnutRender?
    ensures Decide(r, categories, series).labels == Some(DataLabels(16, true, DefaultPosition, Fixed("0%")))
  {
  }

  /** Line and bubble charts: 12pt category labels and no data labels. The
      factories leave boldness to the template; the decision records it as
      not set (false). */
  lemma LineBubbleLayout(r: Render, categories: nat, series: nat)
    requires r.LineRender? || r.BubbleRender?
    ensures var d := Decide(r, categories, series);
      d.categoryFont == Some(12) && !d.categoryBold && d.labels.None? && !d.hidesValueAxis
  {
  }
}

=== FILE: orchestrator.dfy ===
/** `create_chart` (app/ppt_service.py 101-387) as a fold. The oracle's
    answers, the pivot of long-format data and the outcome of every
    python-pptx render call are inputs; the iteration order of the Python
    set of selected chart names is an input too. */
module Orchestrator {
  import opened Results
  import opened Table
  import opened Shapes
  import opened Layout
  import Catalogue
  import Precision
  import Formats
  import Pipeline

  /** The chart names `ChartType.get_category_chart_names()` and
      `get_multi_category_chart_names()` return; their definitions are not
      part of this model. */
  datatype Config = Config(categoryCharts: set<string>, multiCategoryCharts: set<string>)

  /** The chart-selection answer: chosen names, long-format flag, total-row flag. */
  datatype ChartSelection = ChartSelection(charts: seq<string>, isLongFormat: bool, lastLineIncludesSum: bool)

  /** A long-format table after `pivot` and `reset_index`, with the labels the
      oracle gave for it. */
  datatype Pivoted = Pivoted(frame: Frame, axisLabel: string, axisUnit: string, natural: bool)

  /** The data-selection answers per shape; `None` where the oracle request
      (or, for long format, the pivot) raised. */
  datatype Oracle = Oracle(
    wide: Option<MultiColumnMapping>,
    long: Option<Pivoted>,
    two: Option<TwoColumnMapping>,
    bubble: Option<BubbleMapping>)

  predicate WellFormed(frame: Frame, oracle: Oracle)
  {
    Rectangular(frame) && (oracle.long.Some? ==> Rectangular(oracle.long.value.frame))
  }

  /** What a shape's preparation left behind: not run, failed (recording
      whether the mapping variable had been bound before the exception), or
      prepared. */
  datatype ShapeState<T> = NotAttempted | Failed(mappingBound: bool) | Ready(value: T)

  /** `bubble_chart` minus `set("bubble_chart")` as written, which removes
      one-character names; the evidently intended removal of the name itself. */
  datatype Mode = AsWritten | Intended

  const BubbleName := Catalogue.Value(Catalogue.Bubble)

  /** `set("bubble_chart")`: the characters of the name, each a string. */
  function CharacterNames(s: string): (r: set<string>)
    ensures forall n :: n in r <==> |n| == 1 && n[0] in s
  {
    var r := set i | 0 <= i < |s| :: [s[i]];
    assert forall n :: |n| == 1 && n[0] in s ==> n in r by {
      forall n | |n| == 1 && n[0] in s ensures n in r {
        var i :| 0 <= i < |s| && s[i] == n[0];
        assert n == [s[i]];
      }
    }
    r
  }

  function BubbleFailureRemoves(mode: Mode): set<string>
  {
    match mode
    case AsWritten => CharacterNames(BubbleName)
    case Intended => {BubbleName}
  }

  /** `list(set(selected) - names)`: the surviving names, once each. */
  function Without(selection: multiset<string>, names: set<string>): (r: multiset<string>)
    ensures forall n :: n in r <==> n in selection && n !in names
    ensures forall n :: r[n] <= 1
  {
    multiset((set n | n in selection) - names)
  }

  /** Some selected name belongs to `names`: the intersection is non-empty. */
  function Touches(charts: seq<string>, names: set<string>): (b: bool)
    ensures b <==> exists n :: n in charts && n in names
  {
    var common := (set n | n in charts) * names;
    assert forall n :: n in charts && n in names ==> n in common;
    if common == {} then false
    else
      var n :| n in common;
      true
  }

  /** The selection after a shape's preparation: unchanged unless it failed. */
  function AfterShape<T>(selection: multiset<string>, shape: ShapeState<T>, names: set<string>): (r: multiset<string>)
    ensures forall n :: n in r <==> n in selection && !(shape.Failed? && n in names)
    ensures forall n :: r[n] <= selection[n]
  {
    if shape.Failed? then Without(selection, names) else selection
  }

  /** The prepared tables have the width of their mapping. */
  predicate PrepValid(p: Prep)
  {
    && (p.multi.Ready? ==> HasWidth(p.multi.value.1.rows, |p.multi.value.0.series|))
    && (p.two.Ready? ==> HasWidth(p.two.value.1.rows, 1))
  }

  datatype Prep = Prep(
    selection: multiset<string>,
    multi: ShapeState<(MultiColumnMapping, Prepared)>,
    two: ShapeState<(TwoColumnMapping, Prepared)>,
    bubble: ShapeState<(BubbleMapping, seq<BubbleRow>)>)

  /** The multi-column shape (ppt_service.py 154-221), wide or long. */
  function PrepareMulti(isLong: bool, frame: Frame, oracle: Oracle): (s: ShapeState<(MultiColumnMapping, Prepared)>)
    requires WellFormed(frame, oracle)
    ensures s != NotAttempted
    ensures s.Ready? && !isLong ==> oracle.wide == Some(s.value.0) && PrepareWide(frame, s.value.0) == Ok(s.value.1)
    ensures s.Ready? && isLong ==>
              && oracle.long.Some?
              && var q := oracle.long.value;
                 PrepareLong(q.frame, q.axisLabel, q.axisUnit, q.natural) == Ok(s.value)
    ensures s.Ready? ==> HasWidth(s.value.1.rows, |s.value.0.series|)
  {
    if isLong then
      match oracle.long
      case None => Failed(false)
      case Some(p) =>
        match PrepareLong(p.frame, p.axisLabel, p.axisUnit, p.natural)
        case Err(NoPivotColumns) => Failed(false)
        case Err(_) => Failed(true)
        case Ok(r) => Ready(r)
    else
      match oracle.wide
      case None => Failed(false)
      case Some(m) =>
        match PrepareWide(frame, m)
        case Err(_) => Failed(true)
        case Ok(p) => Ready((m, p))
  }

  /** The two-column shape (ppt_service.py 223-257). */
  function PrepareTwo(frame: Frame, oracle: Oracle): (s: ShapeState<(TwoColumnMapping, Prepared)>)
    requires Rectangular(frame)
    ensures s != NotAttempted
    ensures s.Ready? ==> oracle.two == Some(s.value.0) && PrepareTwoColumn(frame, s.value.0) == Ok(s.value.1)
    ensures s == Failed(false) <==> oracle.two.None?
    ensures s.Ready? ==> HasWidth(s.value.1.rows, 1)
  {
    match oracle.two
    case None => Failed(false)
    case Some(m) =>
      match PrepareTwoColumn(frame, m)
      case Err(_) => Failed(true)
      case Ok(p) => Ready((m, p))
  }

  /** The bubble shape (ppt_service.py 259-296). */
  function PrepareBubbleShape(frame: Frame, oracle: Oracle): (s: ShapeState<(BubbleMapping, seq<BubbleRow>)>)
    requires Rectangular(frame)
    ensures s != NotAttempted
    ensures s.Ready? ==> oracle.bubble == Some(s.value.0) && PrepareBubble(frame, s.value.0) == Ok(s.value.1)
    ensures s == Failed(false) <==> oracle.bubble.None?
  {
    match oracle.bubble
    case None => Failed(false)
    case Some(m) =>
      match PrepareBubble(frame, m)
      case Err(_) => Failed(true)
      case Ok(rows) => Ready((m, rows))
  }

  /** The preparation phase after the total row is handled: each shape is
      prepared when one of its names was selected, and a failure removes that
      shape's names from the selection. */
  function PrepareShapes(config: Config, choice: ChartSelection, frame: Frame, oracle: Oracle, mode: Mode): (p: Prep)
    requires WellFormed(frame, oracle)
    ensures PrepValid(p)
    ensures p.multi != NotAttempted <==> Touches(choice.charts, config.multiCategoryCharts)
    ensures p.multi != NotAttempted ==> p.multi == PrepareMulti(choice.isLongFormat, frame, oracle)
    ensures p.two != NotAttempted <==> Touches(choice.charts, config.categoryCharts)
    ensures p.two != NotAttempted ==> p.two == PrepareTwo(frame, oracle)
    ensures p.bubble != NotAttempted <==>
              && BubbleName in choice.charts
              && !(p.multi.Failed? && BubbleName in config.multiCategoryCharts)
              && !(p.two.Failed? && BubbleName in config.categoryCharts)
    ensures p.bubble != NotAttempted ==> p.bubble == PrepareBubbleShape(frame, oracle)
    ensures forall n :: n in p.selection <==>
              && n in choice.charts
              && !(p.multi.Failed? && n in config.multiCategoryCharts)
              && !(p.two.Failed? && n in config.categoryCharts)
              && !(p.bubble.Failed? && n in BubbleFailureRemoves(mode))
  {
    var chosen := set n | n in choice.charts;
    var multiNames := chosen * config.multiCategoryCharts;
    var twoNames := chosen * config.categoryCharts;
    var multi := if Touches(choice.charts, config.multiCategoryCharts)
                 then PrepareMulti(choice.isLongFormat, frame, oracle) else NotAttempted;
    var sel1 := AfterShape(multiset(choice.charts), multi, multiNames);
    var two := if Touches(choice.charts, config.categoryCharts) then PrepareTwo(frame, oracle) else NotAttempted;
    var sel2 := AfterShape(sel1, two, twoNames);
    var bubble := if BubbleName in sel2 then PrepareBubbleShape(frame, oracle) else NotAttempted;
    var sel3 := AfterShape(sel2, bubble, BubbleFailureRemoves(mode));
    Prep(sel3, multi, two, bubble)
  }

  /** As written, a failed bubble preparation never removes `bubble_chart`
      itself: the name has more than one character. */
  lemma AsWrittenKeepsBubbleName()
    ensures BubbleName !in BubbleFailureRemoves(AsWritten)
  {
    assert |BubbleName| == 12;
  }

  /** The table a render call is handed. */
  datatype ChartData =
    | Series(rows: seq<CatRow>)                  // the prepared table itself
    | PercentRows(percentages: seq<Pipeline.ShareRow>)  // each row as percentages of its sum
    | PieShares(shares: Option<seq<CatRow>>)     // value shares, largest first unless natural
    | Points(points: seq<BubbleRow>)
    | Missing                                    // no table: `None`, or a half-prepared one left out

  /** One slide as the renderer leaves it. */
  datatype Slide = Slide(render: Render, data: ChartData, layout: LayoutDecision, labelFormat: Option<string>, unitLabel: Option<string>)

  /** How one render call's body goes: it completes, it raises after
      `add_slide`, or `add_slide` itself raises. */
  datatype Outcome = Completes | RaisesAfterSlide | RaisesBeforeSlide

  /** Errors that escape `create_chart`. */
  datatype RunError =
    | TotalRowOnEmpty          // df.drop(df.index[-1]) on an empty table
    | Unbound(name: string)    // a dispatch argument was never assigned or is None
    | DeleteOnEmpty            // _delete_last_slide with no slide left
    | NoSlides                 // "Unable to create chart"

  /** The slide a render call produces when it completes. Its layout is the
      policy's for the counts. Labels carry a number format exactly when the
      layout shows labels and their format is fixed or a precision is at
      hand; a format taken from the precision reads back as that precision's
      decimal place and thousands scale, and then names the same power of one
      thousand as the caption's magnitude word. A caption is set only for the
      factories that take a precision, and is empty or starts with "in ". */
  function SlideFor(r: Render, data: ChartData, categories: nat, series: nat, precision: Option<Precision.RoundingPrecision>, unit: string): (s: Slide)
    ensures s.render == r && s.data == data && s.layout == Decide(r, categories, series)
    ensures s.labelFormat.None? <==> s.layout.labels.None? || (s.layout.labels.value.format.FromPrecision? && precision.None?)
    ensures s.layout.labels.Some? && s.layout.labels.value.format.Fixed? ==> s.labelFormat == Some(s.layout.labels.value.format.code)
    ensures s.layout.labels.Some? && s.layout.labels.value.format.FromPrecision? && precision.Some? ==>
              Formats.ParseNumberFormat(s.labelFormat.value) ==
                Some(Formats.FormatSpec(precision.value.decimalPlace != 0, Formats.ThousandsGroups(precision.value.orderOfMagnitude)))
    ensures s.unitLabel.Some? <==> UsesUnitLabel(r) && precision.Some?
    ensures s.unitLabel.Some? && s.unitLabel.value != "" ==> |s.unitLabel.value| >= 3 && s.unitLabel.value[..3] == "in "
    ensures s.unitLabel.Some? && s.labelFormat.Some? && s.layout.labels.value.format.FromPrecision? ==>
              Formats.MagnitudeSuffix(precision.value.orderOfMagnitude)
                == ["", "k", "mn", "bn"][Formats.ParseNumberFormat(s.labelFormat.value).value.groups]
    ensures s.unitLabel.Some? ==> s.unitLabel.value == Formats.UnitLabel(unit, precision.value.orderOfMagnitude)
  {
    var layout := Decide(r, categories, series);
    var format :=
      match layout.labels
      case None => None
      case Some(dl) =>
        match dl.format
        case Fixed(code) => Some(code)
        case FromPrecision => if precision.Some? then Some(Formats.NumberFormat(precision.value)) else None;
    var caption := if UsesUnitLabel(r) && precision.Some? then Some(Formats.UnitLabel(unit, precision.value.orderOfMagnitude)) else None;
    Slide(r, data, layout, format, caption)
  }

  /** A render call to make: the slide it would leave, and whether its body is
      bound to raise regardless of python-pptx (it was handed `None`). */
  datatype Step = Step(slide: Slide, doomed: bool)

  /** The rounding precision is handed only to the factories that take one. */
  function PrecisionFor(r: Render, precision: Precision.RoundingPrecision): Option<Precision.RoundingPrecision>
  {
    if UsesUnitLabel(r) then Some(precision) else None
  }

  /** The multi-column table as a render is handed it: the 100% stacked
      column chart gets, row by row and in the table's order, each value as a
      percentage of its row's sum, the shares of a row with a non-zero sum
      totalling 100 (ppt_service.py 331-338); every other render gets the
      table untouched. */
  function MultiData(r: Render, rows: seq<CatRow>): (d: ChartData)
    ensures r != StackedColumn100Render ==> d == Series(rows)
    ensures r == StackedColumn100Render ==> d.PercentRows? && |d.percentages| == |rows|
    ensures r == StackedColumn100Render ==> forall i :: 0 <= i < |rows| ==>
              && d.percentages[i].category == rows[i].category
              && (d.percentages[i].shares.Some? <==> Pipeline.RowTotal(rows[i]) != 0.0)
              && (d.percentages[i].shares.Some? ==> Pipeline.Total(d.percentages[i].shares.value) == 100.0)
    ensures r == StackedColumn100Render ==> forall i :: 0 <= i < |rows| && d.percentages[i].shares.Some? ==>
              |d.percentages[i].shares.value| == |rows[i].values| &&
              forall j :: 0 <= j < |rows[i].values| ==>
                d.percentages[i].shares.value[j] * Pipeline.RowTotal(rows[i]) == rows[i].values[j] * 100.0
  {
    if r == StackedColumn100Render then PercentRows(Pipeline.NormalizeRows(rows)) else Series(rows)
  }

  /** The two-column table as a render is handed it: pie and doughnut get
      value shares, sorted largest first unless natural (ppt_service.py
      362-378). */
  function TwoData(r: Render, rows: seq<CatRow>, natural: bool): (d: ChartData)
    requires HasWidth(rows, 1)
    ensures r in {PieRender, DoughnutRender} ==>
              && d.PieShares?
              && (d.shares.None? <==> Pipeline.Total(Pipeline.Column(rows, 0)) == 0.0)
              && (d.shares.Some? ==> multiset(d.shares.value) == multiset(Pipeline.NormalizeColumn(rows).value))
              && (d.shares.Some? && !natural ==> Sorting.Descending(d.shares.value, Pipeline.FirstValue))
              && (natural ==> d.shares == Pipeline.NormalizeColumn(rows))
    ensures r !in {PieRender, DoughnutRender} ==> d == Series(rows)
  {
    if r in {PieRender, DoughnutRender} then
      match Pipeline.NormalizeColumn(rows)
      case None => PieShares(None)
      case Some(shares) => PieShares(Some(Pipeline.SortDescendingUnlessNatural(shares, natural)))
    else Series(rows)
  }

  /** The render calls that read the multi-column shape: each is made, in
      order, with the prepared table as `MultiData` hands it over, laid out
      for the table's categories and the mapping's series, and with the
      precision and the mapping's axis unit going to the factories that take
      them. */
  function MultiSteps(rs: seq<Render>, m: MultiColumnMapping, p: Prepared): (steps: seq<Step>)
    ensures |steps| == |rs|
    ensures forall k :: 0 <= k < |rs| ==> !steps[k].doomed && steps[k].slide.render == rs[k]
    ensures forall k :: 0 <= k < |rs| ==> steps[k].slide.data == MultiData(rs[k], p.rows)
    ensures forall k :: 0 <= k < |rs| ==> steps[k].slide.layout == Decide(rs[k], |p.rows|, |m.series|)
    ensures forall k :: 0 <= k < |rs| ==>
              steps[k].slide.unitLabel == if UsesUnitLabel(rs[k]) then Some(Formats.UnitLabel(m.axisUnit, p.precision.orderOfMagnitude)) else None
  {
    seq(|rs|, k requires 0 <= k < |rs| =>
      Step(SlideFor(rs[k], MultiData(rs[k], p.rows), |p.rows|, |m.series|, PrecisionFor(rs[k], p.precision), m.axisUnit), false))
  }

  /** The render calls that read the two-column shape: each is made, in
      order, with the prepared table as `TwoData` hands it over, laid out for
      the table's categories and one series, and with the precision and the
      mapping's axis unit going to the factories that take them. */
  function TwoSteps(rs: seq<Render>, m: TwoColumnMapping, p: Prepared): (steps: seq<Step>)
    requires HasWidth(p.rows, 1)
    ensures |steps| == |rs|
    ensures forall k :: 0 <= k < |rs| ==> !steps[k].doomed && steps[k].slide.render == rs[k]
    ensures forall k :: 0 <= k < |rs| ==> steps[k].slide.data == TwoData(rs[k], p.rows, m.natural)
    ensures forall k :: 0 <= k < |rs| ==> steps[k].slide.layout == Decide(rs[k], |p.rows|, 1)
    ensures forall k :: 0 <= k < |rs| ==>
              steps[k].slide.unitLabel == if UsesUnitLabel(rs[k]) then Some(Formats.UnitLabel(m.axisUnit, p.precision.orderOfMagnitude)) else None
  {
    seq(|rs|, k requires 0 <= k < |rs| =>
      Step(SlideFor(rs[k], TwoData(rs[k], p.rows, m.natural), |p.rows|, 1, PrecisionFor(rs[k], p.precision), m.axisUnit), false))
  }

  /** The renders `create_chart` dispatches for one chart name. */
  function RendersFor(name: string): seq<Render>
  {
    var t := Catalogue.FromValue(name);
    if t == Some(Catalogue.ColumnClustered) then [ClusteredColumnRender, ClusteredBarRender]
    else if t == Some(Catalogue.ColumnStacked) then [StackedColumnRender, StackedBarRender]
    else if t == Some(Catalogue.ColumnStacked100) then [StackedColumn100Render]
    else if t == Some(Catalogue.Line) then [LineRender]
    else if t == Some(Catalogue.Column) then [ColumnRender, BarRender]
    else if t == Some(Catalogue.Pie) then [PieRender, DoughnutRender]
    else if t == Some(Catalogue.Bubble) then [BubbleRender]
    else []
  }

  /** Chart names whose renders read the multi-column shape. */
  predicate ReadsMulti(name: string)
  {
    Catalogue.FromValue(name) in {Some(Catalogue.ColumnClustered), Some(Catalogue.ColumnStacked), Some(Catalogue.ColumnStacked100), Some(Catalogue.Line)}
  }

  /** Chart names whose renders read the two-column shape. */
  predicate ReadsTwo(name: string)
  {
    Catalogue.FromValue(name) in {Some(Catalogue.Column), Some(Catalogue.Pie)}
  }

  /** A line or bubble branch whose shape failed after its mapping was bound
      still evaluates its arguments; every other branch of a failed shape
      finds its mapping unassigned. The model hands such a branch no table.
      For bubble that is the source's `None`; for line it is `None` only when
      the wide group-by raised, and otherwise a half-prepared table. */
  predicate HandedNoTable<T>(name: string, shape: ShapeState<T>)
  {
    Catalogue.FromValue(name) in {Some(Catalogue.Line), Some(Catalogue.Bubble)} && shape.Failed? && shape.mappingBound
  }

  /** The render calls for one chart name (ppt_service.py 298-385), or the
      error raised while evaluating their arguments: a branch raises exactly
      when the shape it reads is not ready and it is not a line or bubble
      branch handed no table. Each call of a ready shape gets that shape's
      table, as `MultiData` or `TwoData` hands it over, or the bubble points;
      a branch handed no table makes one call, bound to raise, with nothing. */
  function Steps(name: string, p: Prep): (r: Result<seq<Step>, RunError>)
    requires PrepValid(p)
    ensures r.Ok? ==> |r.value| == |RendersFor(name)|
    ensures r.Ok? ==> forall k :: 0 <= k < |r.value| ==> r.value[k].slide.render == RendersFor(name)[k]
    ensures r.Err? ==> r.error == Unbound(name)
    ensures r.Err? <==>
              || (ReadsMulti(name) && !p.multi.Ready? && !HandedNoTable(name, p.multi))
              || (ReadsTwo(name) && !p.two.Ready?)
              || (Catalogue.FromValue(name) == Some(Catalogue.Bubble) && !p.bubble.Ready? && !HandedNoTable(name, p.bubble))
    ensures r.Ok? && ReadsMulti(name) && p.multi.Ready? ==> forall k :: 0 <= k < |r.value| ==>
              && !r.value[k].doomed
              && r.value[k].slide.data == MultiData(RendersFor(name)[k], p.multi.value.1.rows)
              && r.value[k].slide.layout == Decide(RendersFor(name)[k], |p.multi.value.1.rows|, |p.multi.value.0.series|)
    ensures r.Ok? && ReadsTwo(name) ==> forall k :: 0 <= k < |r.value| ==>
              && !r.value[k].doomed
              && r.value[k].slide.data == TwoData(RendersFor(name)[k], p.two.value.1.rows, p.two.value.0.natural)
              && r.value[k].slide.layout == Decide(RendersFor(name)[k], |p.two.value.1.rows|, 1)
    ensures r.Ok? && Catalogue.FromValue(name) == Some(Catalogue.Bubble) && p.bubble.Ready? ==>
              |r.value| == 1 && !r.value[0].doomed && r.value[0].slide.data == Points(p.bubble.value.1)
    ensures r.Ok? && ReadsMulti(name) && HandedNoTable(name, p.multi) ==>
              |r.value| == 1 && r.value[0].doomed && r.value[0].slide.data == Missing
    ensures r.Ok? && Catalogue.FromValue(name) == Some(Catalogue.Bubble) && HandedNoTable(name, p.bubble) ==>
              |r.value| == 1 && r.value[0].doomed && r.value[0].slide.data == Missing
  {
    var rs := RendersFor(name);
    var t := Catalogue.FromValue(name);
    if t in {Some(Catalogue.ColumnClustered), Some(Catalogue.ColumnStacked), Some(Catalogue.ColumnStacked100)} then
      if p.multi.Ready? then Ok(MultiSteps(rs, p.multi.value.0, p.multi.value.1)) else Err(Unbound(name))
    else if t == Some(Catalogue.Line) then
      match p.multi
      case Ready((m, q)) => Ok(MultiSteps(rs, m, q))
      case Failed(true) => Ok([Step(SlideFor(LineRender, Missing, 0, 0, None, ""), true)])
      case _ => Err(Unbound(name))
    else if t in {Some(Catalogue.Column), Some(Catalogue.Pie)} then
      if p.two.Ready? then Ok(TwoSteps(rs, p.two.value.0, p.two.value.1)) else Err(Unbound(name))
    else if t == Some(Catalogue.Bubble) then
      match p.bubble
      case Ready((m, rows)) => Ok([Step(SlideFor(BubbleRender, Points(rows), |rows|, 1, None, ""), false)])
      case Failed(true) => Ok([Step(SlideFor(BubbleRender, Missing, 0, 0, None, ""), true)])
      case _ => Err(Unbound(name))
    else Ok([])
  }

  /** One render call with its `try`/`except` (chart_factory.py 85-87,
      808-810): a completed call adds its slide; a call that raises after
      `add_slide` removes the slide it added; a call whose `add_slide` raises
      removes the slide before it, and raises when there is none. */
  function Call(slides: seq<Slide>, step: Step, outcome: Outcome): (r: Result<seq<Slide>, RunError>)
    ensures outcome == Completes && !step.doomed ==> r == Ok(slides + [step.slide])
    ensures (outcome == RaisesAfterSlide || (step.doomed && outcome != RaisesBeforeSlide)) ==> r == Ok(slides)
    ensures outcome == RaisesBeforeSlide ==>
              if |slides| == 0 then r == Err(DeleteOnEmpty) else r == Ok(slides[..|slides| - 1])
    ensures r.Ok? ==> forall s :: s in r.value ==> s in slides || s == step.slide
  {
    var effective := if step.doomed && outcome == Completes then RaisesAfterSlide else outcome;
    match effective
    case Completes => Ok(slides + [step.slide])
    case RaisesAfterSlide =>
      var added := slides + [step.slide];
      Ok(added[..|added| - 1])
    case RaisesBeforeSlide =>
      if |slides| == 0 then Err(DeleteOnEmpty) else Ok(slides[..|slides| - 1])
  }

  function Apply(slides: seq<Slide>, steps: seq<Step>, outcomes: Render -> Outcome): Result<seq<Slide>, RunError>
    decreases |steps|
  {
    if |steps| == 0 then Ok(slides)
    else
      match Call(slides, steps[0], outcomes(steps[0].slide.render))
      case Err(e) => Err(e)
      case Ok(next) => Apply(next, steps[1..], outcomes)
  }

  /** The render calls of each name in iteration order, or the error its
      dispatch branch raises. */
  function Plan(order: seq<string>, p: Prep): (plan: seq<Result<seq<Step>, RunError>>)
    requires PrepValid(p)
    ensures |plan| == |order| && forall i :: 0 <= i < |order| ==> plan[i] == Steps(order[i], p)
  {
    seq(|order|, i requires 0 <= i < |order| => Steps(order[i], p))
  }

  /** The dispatch loop: each name's render calls in turn; an error escapes. */
  function Dispatch(slides: seq<Slide>, plan: seq<Result<seq<Step>, RunError>>, outcomes: Render -> Outcome): Result<seq<Slide>, RunError>
    decreases |plan|
  {
    if |plan| == 0 then Ok(slides)
    else
      match plan[0]
      case Err(e) => Err(e)
      case Ok(steps) =>
        match Apply(slides, steps, outcomes)
        case Err(e) => Err(e)
        case Ok(next) => Dispatch(next, plan[1..], outcomes)
  }

  /** The table the shapes are prepared from: without its total row when the
      oracle says the last line is a sum. */
  function Input(choice: ChartSelection, frame: Frame): (r: Result<Frame, RunError>)
    requires Rectangular(frame)
    ensures r.Err? <==> choice.lastLineIncludesSum && |frame.rows| == 0
    ensures r.Ok? ==> Rectangular(r.value) && r.value.headers == frame.headers
    ensures r.Ok? && !choice.lastLineIncludesSum ==> r.value == frame
    ensures r.Ok? && choice.lastLineIncludesSum ==> r.value.rows + [frame.rows[|frame.rows| - 1]] == frame.rows
  {
    if !choice.lastLineIncludesSum then Ok(frame)
    else
      match Pipeline.DropTotalRow(frame.rows)
      case None => Err(TotalRowOnEmpty)
      case Some(rows) =>
        assert forall i :: 0 <= i < |rows| ==> rows[i] == frame.rows[i];
        Ok(Frame(frame.headers, rows))
  }

  /** The selection left after preparation, whose names the dispatch loop
      visits in some order. */
  function FinalSelection(config: Config, choice: ChartSelection, frame: Frame, oracle: Oracle, mode: Mode): multiset<string>
    requires WellFormed(frame, oracle)
  {
    match Input(choice, frame)
    case Err(_) => multiset{}
    case Ok(df) => PrepareShapes(config, choice, df, oracle, mode).selection
  }

  /** `create_chart` up to saving the presentation: the slides produced, or
      the exception that escapes. */
  function CreateCharts(config: Config, choice: ChartSelection, frame: Frame, oracle: Oracle,
                        outcomes: Render -> Outcome, order: seq<string>, mode: Mode): (r: Result<seq<Slide>, RunError>)
    requires WellFormed(frame, oracle)
    requires multiset(order) == FinalSelection(config, choice, frame, oracle, mode)
    ensures r.Ok? ==> |r.value| >= 1
    ensures choice.lastLineIncludesSum && |frame.rows| == 0 ==> r == Err(TotalRowOnEmpty)
    ensures r.Ok? ==> forall s :: s in r.value ==> Listed(order, s.render)
  {
    match Input(choice, frame)
    case Err(e) => Err(e)
    case Ok(df) =>
      var p := PrepareShapes(config, choice, df, oracle, mode);
      match Dispatch([], Plan(order, p), outcomes)
      case Err(e) => Err(e)
      case Ok(slides) =>
        if |slides| < 1 then Err(NoSlides)
        else
          DispatchRendersOnlyPlanned([], Plan(order, p), outcomes);
          PlannedIsListed(order, p, slides);
          Ok(slides)
  }

  /** Some chart name of `order` dispatches render `r`. */
  predicate Listed(order: seq<string>, r: Render)
  {
    exists n :: n in order && r in RendersFor(n)
  }

  lemma {:induction false} ApplyKeeps(slides: seq<Slide>, steps: seq<Step>, outcomes: Render -> Outcome)
    ensures var r := Apply(slides, steps, outcomes);
      r.Ok? ==> forall s :: s in r.value ==> s in slides || exists k :: 0 <= k < |steps| && s == steps[k].slide
    decreases |steps|
  {
    if |steps| > 0 {
      var c := Call(slides, steps[0], outcomes(steps[0].slide.render));
      if c.Ok? {
        ApplyKeeps(c.value, steps[1..], outcomes);
        var r := Apply(slides, steps, outcomes);
        if r.Ok? {
          forall s | s in r.value
            ensures s in slides || exists k :: 0 <= k < |steps| && s == steps[k].slide
          {
            if s !in c.value {
              var k :| 0 <= k < |steps[1..]| && s == steps[1..][k].slide;
              assert s == steps[k + 1].slide;
            } else if s !in slides {
              assert s == steps[0].slide;
            }
          }
        }
      }
    }
  }

  /** A slide some planned render call produces. */
  predicate Planned(plan: seq<Result<seq<Step>, RunError>>, s: Slide)
  {
    exists i, k :: 0 <= i < |plan| && plan[i].Ok? && 0 <= k < |plan[i].value| && s == plan[i].value[k].slide
  }

  /** Every slide a dispatch loop adds comes from one of its planned calls. */
  lemma {:induction false} DispatchRendersOnlyPlanned(slides: seq<Slide>, plan: seq<Result<seq<Step>, RunError>>, outcomes: Render -> Outcome)
    ensures var r := Dispatch(slides, plan, outcomes);
      r.Ok? ==> forall s :: s in r.value ==> s in slides || Planned(plan, s)
    decreases |plan|
  {
    if |plan| > 0 && plan[0].Ok? {
      var steps := plan[0].value;
      ApplyKeeps(slides, steps, outcomes);
      var a := Apply(slides, steps, outcomes);
      if a.Ok? {
        DispatchRendersOnlyPlanned(a.value, plan[1..], outcomes);
        var r := Dispatch(slides, plan, outcomes);
        if r.Ok? {
          forall s | s in r.value
            ensures s in slides || Planned(plan, s)
          {
            if s !in a.value {
              var i, k :| 0 <= i < |plan[1..]| && plan[1..][i].Ok? && 0 <= k < |plan[1..][i].value| && s == plan[1..][i].value[k].slide;
              assert plan[1..][i] == plan[i + 1];
            } else if s !in slides {
              var k :| 0 <= k < |steps| && s == steps[k].slide;
              assert 0 < |plan| && plan[0].Ok? && 0 <= k < |plan[0].value| && s == plan[0].value[k].slide;
            }
          }
        }
      }
    }
  }

  /** A planned slide renders a chart kind its name dispatches. */
  lemma PlannedIsListed(order: seq<string>, p: Prep, slides: seq<Slide>)
    requires PrepValid(p)
    requires forall s :: s in slides ==> Planned(Plan(order, p), s)
    ensures forall s :: s in slides ==> Listed(order, s.render)
  {
    var plan := Plan(order, p);
    forall s | s in slides ensures Listed(order, s.render) {
      var i, k :| 0 <= i < |plan| && plan[i].Ok? && 0 <= k < |plan[i].value| && s == plan[i].value[k].slide;
      assert plan[i] == Steps(order[i], p);
      assert s.render == RendersFor(order[i])[k];
      assert order[i] in order;
    }
  }

  /** The slides of the completed calls, in call order. */
  function Kept(steps: seq<Step>, outcomes: Render -> Outcome): seq<Slide>
  {
    if |steps| == 0 then []
    else
      (if !steps[0].doomed && outcomes(steps[0].slide.render) == Completes then [steps[0].slide] else [])
      + Kept(steps[1..], outcomes)
  }

  /** Without a failing `add_slide`, a failed render only loses its own slide:
      every completed call keeps its slide, in call order. */
  lemma {:induction false} ApplyIsolatesFailures(slides: seq<Slide>, steps: seq<Step>, outcomes: Render -> Outcome)
    requires forall r :: outcomes(r) != RaisesBeforeSlide
    ensures Apply(slides, steps, outcomes) == Ok(slides + Kept(steps, outcomes))
    decreases |steps|
  {
    if |steps| > 0 {
      var o := outcomes(steps[0].slide.render);
      var c := Call(slides, steps[0], o);
      var head := if !steps[0].doomed && o == Completes then [steps[0].slide] else [];
      if !steps[0].doomed && o == Completes {
        assert c == Ok(slides + head);
      } else {
        assert o == Completes || o == RaisesAfterSlide;
        assert c == Ok(slides);
        assert slides + head == slides;
      }
      ApplyIsolatesFailures(slides + head, steps[1..], outcomes);
      assert Apply(slides, steps, outcomes) == Apply(slides + head, steps[1..], outcomes);
      assert Kept(steps, outcomes) == head + Kept(steps[1..], outcomes);
      assert slides + head + Kept(steps[1..], outcomes) == slides + (head + Kept(steps[1..], outcomes));
    } else {
      assert slides + [] == slides;
    }
  }

  /** The slides a dispatch loop keeps when no render argument is unbound. */
  function KeptAll(plan: seq<Result<seq<Step>, RunError>>, outcomes: Render -> Outcome): seq<Slide>
  {
    if |plan| == 0 then []
    else
      (match plan[0] case Ok(steps) => Kept(steps, outcomes) case Err(_) => [])
      + KeptAll(plan[1..], outcomes)
  }

  lemma {:induction false} DispatchIsolatesFailures(slides: seq<Slide>, plan: seq<Result<seq<Step>, RunError>>, outcomes: Render -> Outcome)
    requires forall r :: outcomes(r) != RaisesBeforeSlide
    requires forall i :: 0 <= i < |plan| ==> plan[i].Ok?
    ensures Dispatch(slides, plan, outcomes) == Ok(slides + KeptAll(plan, outcomes))
    decreases |plan|
  {
    if |plan| > 0 {
      var steps := plan[0].value;
      var rest := KeptAll(plan[1..], outcomes);
      ApplyIsolatesFailures(slides, steps, outcomes);
      var next := slides + Kept(steps, outcomes);
      DispatchIsolatesFailures(next, plan[1..], outcomes);
      assert next + rest == slides + (Kept(steps, outcomes) + rest);
    } else {
      assert slides + [] == slides;
    }
  }

  /** A render call only ever raises out of `create_chart` from a failing
      `_delete_last_slide`. */
  lemma {:induction false} ApplyFailsOnlyOnDelete(slides: seq<Slide>, steps: seq<Step>, outcomes: Render -> Outcome)
    ensures var r := Apply(slides, steps, outcomes);
      r.Err? ==> r.error == DeleteOnEmpty
    decreases |steps|
  {
    if |steps| > 0 {
      var c := Call(slides, steps[0], outcomes(steps[0].slide.render));
      if c.Ok? {
        ApplyFailsOnlyOnDelete(c.value, steps[1..], outcomes);
      }
    }
  }

  /** The dispatch loop raises only from `_delete_last_slide` or with the
      error of a branch whose render arguments are unbound. */
  lemma {:induction false} DispatchFailures(slides: seq<Slide>, plan: seq<Result<seq<Step>, RunError>>, outcomes: Render -> Outcome)
    ensures var r := Dispatch(slides, plan, outcomes);
      r.Err? ==> r.error == DeleteOnEmpty || exists i :: 0 <= i < |plan| && plan[i] == Err(r.error)
    decreases |plan|
  {
    if |plan| > 0 && plan[0].Ok? {
      ApplyFailsOnlyOnDelete(slides, plan[0].value, outcomes);
      var a := Apply(slides, plan[0].value, outcomes);
      if a.Ok? {
        DispatchFailures(a.value, plan[1..], outcomes);
        var r := Dispatch(slides, plan, outcomes);
        if r.Err? && r.error != DeleteOnEmpty {
          var i :| 0 <= i < |plan[1..]| && plan[1..][i] == Err(r.error);
          assert plan[i + 1] == Err(r.error);
        }
      }
    }
  }

  /** A branch whose render arguments are unbound stops the dispatch loop
      with an error, wherever it comes in the order. */
  lemma {:induction false} UnboundBranchFailsDispatch(slides: seq<Slide>, plan: seq<Result<seq<Step>, RunError>>, outcomes: Render -> Outcome, i: nat)
    requires i < |plan| && plan[i].Err?
    ensures Dispatch(slides, plan, outcomes).Err?
    decreases i
  {
    if i > 0 && plan[0].Ok? {
      var a := Apply(slides, plan[0].value, outcomes);
      if a.Ok? {
        UnboundBranchFailsDispatch(a.value, plan[1..], outcomes, i - 1);
      }
    }
  }

  /** The configured name sets send every dispatched name to the shape its
      branch reads. */
  predicate Covers(config: Config)
  {
    && (forall t :: t in MultiKinds ==> Catalogue.Value(t) in config.multiCategoryCharts)
    && (forall t :: t in TwoKinds ==> Catalogue.Value(t) in config.categoryCharts)
  }

  /** The chart kinds whose branch reads the multi-column shape. */
  const MultiKinds := {Catalogue.ColumnClustered, Catalogue.ColumnStacked, Catalogue.ColumnStacked100, Catalogue.Line}
  /** The chart kinds whose branch reads the two-column shape. */
  const TwoKinds := {Catalogue.Column, Catalogue.Pie}

  /** A name's render arguments are bound once the shape its branch reads is
      prepared. */
  lemma StepsBound(n: string, p: Prep)
    requires PrepValid(p)
    requires var t := Catalogue.FromValue(n);
      && (t.Some? && t.value in MultiKinds ==> p.multi.Ready?)
      && (t.Some? && t.value in TwoKinds ==> p.two.Ready?)
      && (t == Some(Catalogue.Bubble) ==> p.bubble.Ready?)
    ensures Steps(n, p).Ok?
  {
  }

  /** With the bubble failure removing the name itself, a name that
      survives preparation has its render arguments bound. */
  lemma NameIsBound(config: Config, choice: ChartSelection, frame: Frame, oracle: Oracle, n: string)
    requires WellFormed(frame, oracle) && Covers(config)
    requires n in PrepareShapes(config, choice, frame, oracle, Intended).selection
    ensures Steps(n, PrepareShapes(config, choice, frame, oracle, Intended)).Ok?
  {
    var p := PrepareShapes(config, choice, frame, oracle, Intended);
    var t := Catalogue.FromValue(n);
    if t.Some? {
      var c := t.value;
      assert Catalogue.Value(c) == n;
      if c in MultiKinds {
        assert n in choice.charts && n in config.multiCategoryCharts;
        assert p.multi.Ready?;
      } else if c in TwoKinds {
        assert n in choice.charts && n in config.categoryCharts;
        assert p.two.Ready?;
      } else if c == Catalogue.Bubble {
        assert n == BubbleName;
        assert p.bubble.Ready?;
      }
    }
    StepsBound(n, p);
  }

  /** Under the intended bubble removal, `create_chart` never fails on an
      unbound render argument, whichever order the names come in. */
  lemma IntendedNeverUnbound(config: Config, choice: ChartSelection, frame: Frame, oracle: Oracle,
                             outcomes: Render -> Outcome, order: seq<string>)
    requires WellFormed(frame, oracle) && Covers(config)
    requires multiset(order) == FinalSelection(config, choice, frame, oracle, Intended)
    ensures var r := CreateCharts(config, choice, frame, oracle, outcomes, order, Intended);
      r.Err? ==> !r.error.Unbound?
  {
    var input := Input(choice, frame);
    if input.Ok? {
      var df := input.value;
      var p := PrepareShapes(config, choice, df, oracle, Intended);
      var plan := Plan(order, p);
      forall i | 0 <= i < |plan| ensures plan[i].Ok? {
        assert order[i] in multiset(order);
        NameIsBound(config, choice, df, oracle, order[i]);
      }
      DispatchFailures([], plan, outcomes);
    }
  }

  /** Under the intended bubble removal and without a failing `add_slide`,
      a chart whose render raises costs only its own slide: `create_chart`
      keeps every completed slide in dispatch order, and raises only when
      none completed (or on an empty table with a total row). */
  lemma IntendedRunKeepsCompletedSlides(config: Config, choice: ChartSelection, frame: Frame, oracle: Oracle,
                                        outcomes: Render -> Outcome, order: seq<string>)
    requires WellFormed(frame, oracle) && Covers(config)
    requires multiset(order) == FinalSelection(config, choice, frame, oracle, Intended)
    requires forall r :: outcomes(r) != RaisesBeforeSlide
    requires !(choice.lastLineIncludesSum && |frame.rows| == 0)
    ensures var df := Input(choice, frame).value;
      var kept := KeptAll(Plan(order, PrepareShapes(config, choice, df, oracle, Intended)), outcomes);
      CreateCharts(config, choice, frame, oracle, outcomes, order, Intended) ==
        if |kept| == 0 then Err(NoSlides) else Ok(kept)
  {
    var df := Input(choice, frame).value;
    var p := PrepareShapes(config, choice, df, oracle, Intended);
    var plan := Plan(order, p);
    forall i | 0 <= i < |plan| ensures plan[i].Ok? {
      assert order[i] in multiset(order);
      NameIsBound(config, choice, df, oracle, order[i]);
    }
    DispatchIsolatesFailures([], plan, outcomes);
    assert [] + KeptAll(plan, outcomes) == KeptAll(plan, outcomes);
  }

  /** The written and the corrected bubble removal differ only after a
      failed bubble preparation: otherwise both prepare the same shapes and
      keep the same selection. */
  lemma ModesAgreeWithoutBubbleFailure(config: Config, choice: ChartSelection, frame: Frame, oracle: Oracle)
    requires WellFormed(frame, oracle)
    requires !PrepareShapes(config, choice, frame, oracle, AsWritten).bubble.Failed?
    ensures PrepareShapes(config, choice, frame, oracle, AsWritten) == PrepareShapes(config, choice, frame, oracle, Intended)
  {
  }

  /** As written, a run whose bubble preparation does not fail and whose
      `add_slide` calls all succeed gives every completed slide in dispatch
      order, or "Unable to create chart" when none completed. */
  lemma AsWrittenRunKeepsCompletedSlides(config: Config, choice: ChartSelection, frame: Frame, oracle: Oracle,
                                         outcomes: Render -> Outcome, order: seq<string>)
    requires WellFormed(frame, oracle) && Covers(config)
    requires multiset(order) == FinalSelection(config, choice, frame, oracle, AsWritten)
    requires forall r :: outcomes(r) != RaisesBeforeSlide
    requires !(choice.lastLineIncludesSum && |frame.rows| == 0)
    requires !PrepareShapes(config, choice, Input(choice, frame).value, oracle, AsWritten).bubble.Failed?
    ensures var df := Input(choice, frame).value;
      var kept := KeptAll(Plan(order, PrepareShapes(config, choice, df, oracle, AsWritten)), outcomes);
      CreateCharts(config, choice, frame, oracle, outcomes, order, AsWritten) ==
        if |kept| == 0 then Err(NoSlides) else Ok(kept)
  {
    var df := Input(choice, frame).value;
    ModesAgreeWithoutBubbleFailure(config, choice, df, oracle);
    SameSelection(config, choice, frame, oracle);
    IntendedRunKeepsCompletedSlides(config, choice, frame, oracle, outcomes, order);
    SameRun(config, choice, frame, oracle, outcomes, order);
  }

  /** Equal preparations give equal final selections. */
  lemma SameSelection(config: Config, choice: ChartSelection, frame: Frame, oracle: Oracle)
    requires WellFormed(frame, oracle)
    requires Input(choice, frame).Ok? ==>
               var df := Input(choice, frame).value;
               PrepareShapes(config, choice, df, oracle, AsWritten) == PrepareShapes(config, choice, df, oracle, Intended)
    ensures FinalSelection(config, choice, frame, oracle, AsWritten) == FinalSelection(config, choice, frame, oracle, Intended)
  {
  }

  /** Equal preparations give equal runs. */
  lemma SameRun(config: Config, choice: ChartSelection, frame: Frame, oracle: Oracle,
                outcomes: Render -> Outcome, order: seq<string>)
    requires WellFormed(frame, oracle)
    requires multiset(order) == FinalSelection(config, choice, frame, oracle, AsWritten)
    requires multiset(order) == FinalSelection(config, choice, frame, oracle, Intended)
    requires Input(choice, frame).Ok? ==>
               var df := Input(choice, frame).value;
               PrepareShapes(config, choice, df, oracle, AsWritten) == PrepareShapes(config, choice, df, oracle, Intended)
    ensures CreateCharts(config, choice, frame, oracle, outcomes, order, AsWritten) ==
            CreateCharts(config, choice, frame, oracle, outcomes, order, Intended)
  {
  }

  /** As written, a bubble chart whose data selection failed stays selected
      with its render argument unbound. */
  lemma AsWrittenBubbleStaysSelected(config: Config, choice: ChartSelection, frame: Frame, oracle: Oracle)
    requires WellFormed(frame, oracle)
    requires BubbleName in choice.charts && oracle.bubble.None?
    requires BubbleName !in config.multiCategoryCharts && BubbleName !in config.categoryCharts
    ensures var p := PrepareShapes(config, choice, frame, oracle, AsWritten);
      BubbleName in p.selection && Steps(BubbleName, p).Err?
  {
    var p := PrepareShapes(config, choice, frame, oracle, AsWritten);
    assert p.bubble == Failed(false);
    AsWrittenKeepsBubbleName();
    assert BubbleName in p.selection;
    BubbleBranchUnbound(p);
  }

  lemma BubbleBranchUnbound(p: Prep)
    requires PrepValid(p)
    requires p.bubble.Failed? && !p.bubble.mappingBound
    ensures Steps(BubbleName, p).Err?
  {
    Catalogue.FromValueRoundTrip(Catalogue.Bubble);
  }

  /** Hence, as written, `create_chart` raises whichever order the names
      come in. */
  lemma AsWrittenBubbleFailureRaises(config: Config, choice: ChartSelection, frame: Frame, oracle: Oracle,
                                     outcomes: Render -> Outcome, order: seq<string>)
    requires WellFormed(frame, oracle)
    requires multiset(order) == FinalSelection(config, choice, frame, oracle, AsWritten)
    requires BubbleName in choice.charts && oracle.bubble.None?
    requires !(choice.lastLineIncludesSum && |frame.rows| == 0)
    requires BubbleName !in config.multiCategoryCharts && BubbleName !in config.categoryCharts
    ensures CreateCharts(config, choice, frame, oracle, outcomes, order, AsWritten).Err?
  {
    var df := Input(choice, frame).value;
    var p := PrepareShapes(config, choice, df, oracle, AsWritten);
    AsWrittenBubbleStaysSelected(config, choice, df, oracle);
    assert BubbleName in multiset(order);
    var i :| 0 <= i < |order| && order[i] == BubbleName;
    UnboundBranchFailsDispatch([], Plan(order, p), outcomes, i);
  }

  /** Preparation never adds a name nor repeats one more often than chosen. */
  lemma SelectionWithinChoice(config: Config, choice: ChartSelection, frame: Frame, oracle: Oracle, mode: Mode)
    requires WellFormed(frame, oracle)
    ensures forall n :: PrepareShapes(config, choice, frame, oracle, mode).selection[n] <= multiset(choice.charts)[n]
  {
  }

  lemma SingletonMultiset(sel: multiset<string>, x: string)
    requires x in sel && sel[x] <= 1
    requires forall n :: n in sel ==> n == x
    ensures sel == multiset{x}
  {
    forall n ensures sel[n] == multiset{x}[n] {
      if n != x {
        assert n !in sel;
      }
    }
  }

  /** When `bubble_chart` is the only name chosen, no name group holds it
      and its data selection fails, it is, as written, all that is left. */
  lemma SoleBubbleSelection(config: Config, choice: ChartSelection, frame: Frame, oracle: Oracle)
    requires WellFormed(frame, oracle)
    requires choice.charts == [BubbleName] && oracle.bubble.None?
    requires BubbleName !in config.multiCategoryCharts && BubbleName !in config.categoryCharts
    ensures PrepareShapes(config, choice, frame, oracle, AsWritten).selection == multiset{BubbleName}
  {
    var sel := PrepareShapes(config, choice, frame, oracle, AsWritten).selection;
    SoleBubbleKept(config, choice, frame, oracle);
    SoleBubbleOnly(config, choice, frame, oracle);
    SoleBubbleOnce(config, choice, frame, oracle);
    SingletonMultiset(sel, BubbleName);
  }

  lemma SoleBubbleKept(config: Config, choice: ChartSelection, frame: Frame, oracle: Oracle)
    requires WellFormed(frame, oracle)
    requires choice.charts == [BubbleName] && oracle.bubble.None?
    requires BubbleName !in config.multiCategoryCharts && BubbleName !in config.categoryCharts
    ensures BubbleName in PrepareShapes(config, choice, frame, oracle, AsWritten).selection
  {
    AsWrittenKeepsBubbleName();
  }

  lemma SoleBubbleOnly(config: Config, choice: ChartSelection, frame: Frame, oracle: Oracle)
    requires WellFormed(frame, oracle)
    requires choice.charts == [BubbleName]
    ensures forall n :: n in PrepareShapes(config, choice, frame, oracle, AsWritten).selection ==> n == BubbleName
  {
  }

  lemma SoleBubbleOnce(config: Config, choice: ChartSelection, frame: Frame, oracle: Oracle)
    requires WellFormed(frame, oracle)
    requires choice.charts == [BubbleName]
    ensures PrepareShapes(config, choice, frame, oracle, AsWritten).selection[BubbleName] <= 1
  {
    SelectionWithinChoice(config, choice, frame, oracle, AsWritten);
    assert multiset(choice.charts)[BubbleName] == 1;
  }

  /** On that instance, as written, `create_chart` raises, whatever the
      renderers do. */
  lemma AsWrittenSoleBubbleRaises(config: Config, choice: ChartSelection, frame: Frame, oracle: Oracle,
                                  outcomes: Render -> Outcome)
    requires WellFormed(frame, oracle)
    requires choice.charts == [BubbleName] && oracle.bubble.None?
    requires !(choice.lastLineIncludesSum && |frame.rows| == 0)
    requires BubbleName !in config.multiCategoryCharts && BubbleName !in config.categoryCharts
    ensures FinalSelection(config, choice, frame, oracle, AsWritten) == multiset(choice.charts)
    ensures CreateCharts(config, choice, frame, oracle, outcomes, choice.charts, AsWritten).Err?
  {
    SoleBubbleFinal(config, choice, frame, oracle);
    AsWrittenBubbleFailureRaises(config, choice, frame, oracle, outcomes, choice.charts);
  }

  lemma SoleBubbleFinal(config: Config, choice: ChartSelection, frame: Frame, oracle: Oracle)
    requires WellFormed(frame, oracle)
    requires choice.charts == [BubbleName] && oracle.bubble.None?
    requires !(choice.lastLineIncludesSum && |frame.rows| == 0)
    requires BubbleName !in config.multiCategoryCharts && BubbleName !in config.categoryCharts
    ensures FinalSelection(config, choice, frame, oracle, AsWritten) == multiset(choice.charts)
  {
    var df := Input(choice, frame).value;
    SoleBubbleSelection(config, choice, df, oracle);
    assert multiset(choice.charts) == multiset{BubbleName};
  }
}

=== FILE: pipeline.dfy ===
/** The data transformations of `app/ppt_service.py`: dropping the total row,
    the ascending sorts, the percentage normalisations and the conditional
    descending sort, over projected tables of `CatRow`s. */
module Pipeline {
  import opened Results
  import opened Table
  import opened Sorting

  /** `df.drop(df.index[-1])`: every row but the last. An empty table has no
      last index, so the source raises (None here). */
  function DropTotalRow<T>(rows: seq<T>): (r: Option<seq<T>>)
    ensures r.None? <==> |rows| == 0
    ensures r.Some? ==> |r.value| == |rows| - 1 && r.value + [rows[|rows| - 1]] == rows
  {
    if |rows| == 0 then None else Some(rows[..|rows| - 1])
  }

  /** Sum of a sequence of numbers, first element first. */
  function Total(v: seq<real>): real
  {
    if |v| == 0 then 0.0 else v[0] + Total(v[1..])
  }

  /** Column `j` of a table. */
  function Column(rows: seq<CatRow>, j: nat): (c: seq<real>)
    requires HasWidth(rows, j + 1) || (forall i :: 0 <= i < |rows| ==> j < |rows[i].values|)
    ensures |c| == |rows| && forall i :: 0 <= i < |rows| ==> c[i] == rows[i].values[j]
  {
    seq(|rows|, i requires 0 <= i < |rows| => rows[i].values[j])
  }

  /** All columns of a table of the given width, in order. */
  function Columns(rows: seq<CatRow>, width: nat): (cs: seq<seq<real>>)
    requires HasWidth(rows, width)
    ensures |cs| == width
    ensures forall j :: 0 <= j < width ==> cs[j] == Column(rows, j)
  {
    seq(width, j requires 0 <= j < width => Column(rows, j))
  }

  /** Every element multiplied by `c`. */
  function Scale(v: seq<real>, c: real): (w: seq<real>)
    ensures |w| == |v| && forall j :: 0 <= j < |v| ==> w[j] == v[j] * c
  {
    if |v| == 0 then []
    else
      var rest := Scale(v[1..], c);
      assert forall j :: 1 <= j < |v| ==> v[1..][j - 1] == v[j];
      [v[0] * c] + rest
  }

  lemma Distributes(a: real, b: real, c: real)
    ensures a * c + b * c == (a + b) * c
  {
  }

  lemma ScaledBack(x: real, t: real, y: real)
    requires t != 0.0 && y == x * (1.0 / t)
    ensures y * t == x
  {
  }

  /** Scaling every element by `c` scales the total by `c`. */
  lemma {:induction false} TotalScales(v: seq<real>, c: real)
    ensures Total(Scale(v, c)) == Total(v) * c
  {
    if |v| > 0 {
      var rest := Total(v[1..]);
      TotalScales(v[1..], c);
      assert Scale(v, c)[1..] == Scale(v[1..], c);
      assert Total(Scale(v, c)) == v[0] * c + rest * c;
      Distributes(v[0], rest, c);
    }
  }

  function FirstValue(row: CatRow): real
  {
    if |row.values| > 0 then row.values[0] else 0.0
  }

  function RowTotal(row: CatRow): real
  {
    Total(row.values)
  }

  /** A row of percentage shares; `None` where the series sum is zero, which
      pandas turns into NaN or infinity rather than raising. */
  datatype ShareRow = ShareRow(category: Value, shares: Option<seq<real>>)

  function RowShares(row: CatRow): (r: ShareRow)
    ensures r.category == row.category
    ensures r.shares.None? <==> RowTotal(row) == 0.0
    ensures r.shares.Some? ==> |r.shares.value| == |row.values|
    ensures r.shares.Some? ==> Total(r.shares.value) == 100.0
    ensures r.shares.Some? ==> forall j :: 0 <= j < |row.values| ==> r.shares.value[j] * RowTotal(row) == row.values[j] * 100.0
  {
    var t := RowTotal(row);
    if t == 0.0 then ShareRow(row.category, None)
    else
      var c := 100.0 / t;
      var shares := Scale(row.values, c);
      TotalScales(row.values, c);
      ShareRow(row.category, Some(shares))
  }

  /** `_normalize_values_to_percentages_multi_columns`: each row's series
      values as percentages of the row's series sum. Categories and row order
      are kept. */
  function NormalizeRows(rows: seq<CatRow>): (r: seq<ShareRow>)
    ensures |r| == |rows|
    ensures forall i :: 0 <= i < |rows| ==> r[i].category == rows[i].category
    ensures forall i :: 0 <= i < |rows| ==> (r[i].shares.Some? <==> RowTotal(rows[i]) != 0.0)
    ensures forall i :: 0 <= i < |rows| && r[i].shares.Some? ==> Total(r[i].shares.value) == 100.0
    ensures forall i :: 0 <= i < |rows| && r[i].shares.Some? ==>
              |r[i].shares.value| == |rows[i].values| &&
              forall j :: 0 <= j < |rows[i].values| ==> r[i].shares.value[j] * RowTotal(rows[i]) == rows[i].values[j] * 100.0
  {
    seq(|rows|, i requires 0 <= i < |rows| => RowShares(rows[i]))
  }

  /** Every row's single value multiplied by `c`. */
  function ScaleColumn(rows: seq<CatRow>, c: real): (out: seq<CatRow>)
    requires HasWidth(rows, 1)
    ensures |out| == |rows| && HasWidth(out, 1)
    ensures forall i :: 0 <= i < |rows| ==> out[i].category == rows[i].category
    ensures Column(out, 0) == Scale(Column(rows, 0), c)
  {
    var scaled := Scale(Column(rows, 0), c);
    var out := seq(|rows|, i requires 0 <= i < |rows| => CatRow(rows[i].category, [scaled[i]]));
    assert forall i :: 0 <= i < |rows| ==> Column(out, 0)[i] == scaled[i];
    assert Column(out, 0) == scaled;
    out
  }

  lemma Reciprocal(t: real)
    requires t != 0.0
    ensures t * (1.0 / t) == 1.0
  {
  }

  /** `_normalize_values_to_percentages_single_column`: the value column
      divided by its total. A zero total gives pandas' NaN/infinity column,
      `None` here. */
  function NormalizeColumn(rows: seq<CatRow>): (r: Option<seq<CatRow>>)
    requires HasWidth(rows, 1)
    ensures r.None? <==> Total(Column(rows, 0)) == 0.0
    ensures r.Some? ==> |r.value| == |rows| && HasWidth(r.value, 1)
    ensures r.Some? ==> forall i :: 0 <= i < |rows| ==> r.value[i].category == rows[i].category
  {
    var t := Total(Column(rows, 0));
    if t == 0.0 then None else Some(ScaleColumn(rows, 1.0 / t))
  }

  /** The normalised column sums to one. */
  lemma NormalizeColumnSumsToOne(rows: seq<CatRow>)
    requires HasWidth(rows, 1) && NormalizeColumn(rows).Some?
    ensures Total(Column(NormalizeColumn(rows).value, 0)) == 1.0
  {
    var col := Column(rows, 0);
    var t := Total(col);
    assert Column(NormalizeColumn(rows).value, 0) == Scale(col, 1.0 / t);
    TotalScales(col, 1.0 / t);
    Reciprocal(t);
  }

  /** Row `i` keeps its proportion of the total. */
  lemma NormalizeColumnKeepsShare(rows: seq<CatRow>, i: nat)
    requires HasWidth(rows, 1) && NormalizeColumn(rows).Some? && i < |rows|
    ensures NormalizeColumn(rows).value[i].values[0] * Total(Column(rows, 0)) == rows[i].values[0]
  {
    var col := Column(rows, 0);
    var t := Total(col);
    var out := NormalizeColumn(rows).value;
    var share := out[i].values[0];
    var x := rows[i].values[0];
    assert share == Column(out, 0)[i] == Scale(col, 1.0 / t)[i];
    assert col[i] == x;
    ScaledBack(x, t, share);
  }

  /** `sort_values(by=value)` of a two-column table. */
  function SortByValue(rows: seq<CatRow>): (r: seq<CatRow>)
    ensures Ascending(r, FirstValue) && multiset(r) == multiset(rows)
  {
    SortAscending(rows, FirstValue)
  }

  /** `df.loc[row_sums.sort_values(ascending=True).index]`: rows reordered by
      their series sum. */
  function SortByRowTotal(rows: seq<CatRow>): (r: seq<CatRow>)
    ensures Ascending(r, RowTotal) && multiset(r) == multiset(rows)
  {
    SortAscending(rows, RowTotal)
  }

  /** `_sort_descending`: untouched when the categories have a natural order,
      otherwise sorted by value, largest first. */
  function SortDescendingUnlessNatural(rows: seq<CatRow>, natural: bool): (r: seq<CatRow>)
    ensures natural ==> r == rows
    ensures !natural ==> Descending(r, FirstValue) && multiset(r) == multiset(rows)
  {
    if natural then rows else SortDescending(rows, FirstValue)
  }
}

=== FILE: precision.dfy ===
/** The rounding-precision resolver (`_determine_rounding_precision` in
    app/ppt_service.py): from the value columns of a prepared table it derives
    the order of magnitude of the largest column median and whether one
    decimal place is needed once values are divided by the magnitude's
    thousands divisor. */
module Precision {
  import opened Results
  import opened Sorting

  datatype RoundingPrecision = RoundingPrecision(orderOfMagnitude: int, decimalPlace: int)

  /** Raised by the resolver: `int(np.floor(np.log10(nan)))` fails for the
      median of an empty column. */
  datatype PrecisionError = MedianUndefined(column: nat)

  function Abs(x: real): real
  {
    if x < 0.0 then -x else x
  }

  function Pow10(n: nat): (p: real)
    ensures p >= 1.0
  {
    if n == 0 then 1.0 else 10.0 * Pow10(n - 1)
  }

  lemma {:induction false} Pow10Monotone(i: nat, j: nat)
    requires i <= j
    ensures Pow10(i) <= Pow10(j)
    decreases j
  {
    if i < j { Pow10Monotone(i, j - 1); }
  }

  /** `k` is `max(0, floor(log10(|x|)))`: zero for `|x| < 1`, otherwise the
      decade `10^k <= |x| < 10^(k+1)`. The resolver's running maximum starts
      at 0, so a negative logarithm never reaches its result; this is the
      only form of it the model needs. */
  ghost predicate IsClampedFloorLog10(x: real, k: int)
  {
    if Abs(x) < 1.0 then k == 0 else k >= 0 && Pow10(k) <= Abs(x) < Pow10(k + 1)
  }

  /** The clamped floor logarithm is unique. */
  lemma ClampedFloorLog10Unique(x: real, k1: int, k2: int)
    requires IsClampedFloorLog10(x, k1) && IsClampedFloorLog10(x, k2)
    ensures k1 == k2
  {
    if Abs(x) >= 1.0 {
      if k1 < k2 { Pow10Monotone(k1 + 1, k2); }
      if k2 < k1 { Pow10Monotone(k2 + 1, k1); }
    }
  }

  /** One decade down: `floor(y / 10) < floor(y)` for `y >= 1`. */
  lemma FloorShrinks(y: real)
    requires y >= 1.0
    ensures (y / 10.0).Floor < y.Floor
  {
    var f := y.Floor;
    assert f >= 1;
    assert y < f as real + 1.0;
    assert y / 10.0 < (f as real + 1.0) / 10.0;
    assert (f as real + 1.0) / 10.0 <= f as real;
  }

  /** `floor(log10(a))` for `a >= 1`, by counting decades down. */
  function FloorLog10Large(a: real): (k: nat)
    requires a >= 1.0
    ensures Pow10(k) <= a < Pow10(k + 1)
    decreases a.Floor
  {
    if a < 10.0 then 0
    else
      FloorShrinks(a);
      var k := FloorLog10Large(a / 10.0);
      assert Pow10(k + 1) == 10.0 * Pow10(k);
      k + 1
  }

  /** `max(0, int(np.floor(np.log10(abs(x)))))`. */
  function ClampedFloorLog10(x: real): (k: nat)
    ensures IsClampedFloorLog10(x, k)
  {
    if Abs(x) < 1.0 then 0 else FloorLog10Large(Abs(x))
  }

  /** The magnitudes at which the source tests for a decimal place; 2, 5, 8
      and 11 upwards are deliberately absent, so those never get one. */
  predicate DecimalTested(m: int)
  {
    m == 0 || m == 1 || m == 3 || m == 4 || m == 6 || m == 7 || m == 9 || m == 10
  }

  /** The divisor values are tested against: 1, one thousand, one million or
      one billion. */
  function Divisor(m: int): (d: real)
    requires DecimalTested(m)
    ensures d >= 1.0
  {
    if m == 3 || m == 4 then 1000.0
    else if m == 6 || m == 7 then 1000000.0
    else if m == 9 || m == 10 then 1000000000.0
    else 1.0
  }

  /** Python's `x % 1 == 0`. */
  predicate IsWhole(x: real)
  {
    x.Floor as real == x
  }

  /** Every column has a median: none is empty. */
  predicate AllColumnsNonEmpty(columns: seq<seq<real>>)
  {
    forall i :: 0 <= i < |columns| ==> |columns[i]| > 0
  }

  /** One step of the first loop: `None` for a zero median (the column is
      skipped), else the clamped floor logarithm of the median. */
  function ColumnDecade(column: seq<real>): (r: Option<nat>)
    requires |column| > 0
    ensures r.None? <==> Median(column) == 0.0
    ensures r.Some? ==> IsClampedFloorLog10(Median(column), r.value)
  {
    var median := Median(column);
    if median == 0.0 then None else Some(ClampedFloorLog10(median))
  }

  /** `m` is the largest decade over the columns whose median is non-zero, and
      0 when there is none. */
  ghost predicate IsResolvedMagnitude(columns: seq<seq<real>>, m: int)
    requires AllColumnsNonEmpty(columns)
  {
    && m >= 0
    && (forall i :: 0 <= i < |columns| && ColumnDecade(columns[i]).Some? ==> ColumnDecade(columns[i]).value <= m)
    && (m == 0 || exists i :: 0 <= i < |columns| && ColumnDecade(columns[i]) == Some(m))
  }

  /** Some value of some column is not a whole multiple of `d`. */
  ghost predicate HasFraction(columns: seq<seq<real>>, d: real)
    requires d != 0.0
  {
    exists i, j :: 0 <= i < |columns| && 0 <= j < |columns[i]| && !IsWhole(columns[i][j] / d)
  }

  /** The first loop of the resolver: the running maximum over the columns,
      starting at 0 and skipping zero medians. */
  function MaxMagnitude(columns: seq<seq<real>>): nat
    requires AllColumnsNonEmpty(columns)
  {
    if |columns| == 0 then 0
    else
      var n := |columns| - 1;
      var rest := MaxMagnitude(columns[..n]);
      match ColumnDecade(columns[n])
      case None => rest
      case Some(k) => if k > rest then k else rest
  }

  /** The running maximum is the largest decade among the non-zero-median
      columns, and 0 when every median is zero. */
  lemma {:induction false} MaxMagnitudeIsLargestDecade(columns: seq<seq<real>>)
    requires AllColumnsNonEmpty(columns)
    ensures IsResolvedMagnitude(columns, MaxMagnitude(columns))
  {
    if |columns| > 0 {
      var n := |columns| - 1;
      var front := columns[..n];
      assert AllColumnsNonEmpty(front);
      MaxMagnitudeIsLargestDecade(front);
      var rest := MaxMagnitude(front);
      var m := MaxMagnitude(columns);
      var last := ColumnDecade(columns[n]);
      assert m == (if last.Some? && last.value > rest then last.value else rest);
      forall i | 0 <= i < |columns| && ColumnDecade(columns[i]).Some? ensures ColumnDecade(columns[i]).value <= m {
        if i < n {
          assert front[i] == columns[i];
          assert ColumnDecade(front[i]).value <= rest;
        } else {
          assert i == n;
        }
      }
      if m != 0 && m == rest {
        var i :| 0 <= i < n && ColumnDecade(front[i]) == Some(m);
        assert front[i] == columns[i];
      }
    }
  }

  /** `(column / d) % 1 == 0` fails somewhere in the column. */
  function ColumnHasFraction(column: seq<real>, d: real): (b: bool)
    requires d != 0.0
    ensures b <==> exists j :: 0 <= j < |column| && !IsWhole(column[j] / d)
  {
    if |column| == 0 then false
    else
      assert forall j :: 1 <= j < |column| ==> column[1..][j - 1] == column[j];
      !IsWhole(column[0] / d) || ColumnHasFraction(column[1..], d)
  }

  /** The second loop of the resolver, over every listed column (zero-median
      ones included). */
  function AnyColumnHasFraction(columns: seq<seq<real>>, d: real): (b: bool)
    requires d != 0.0
    ensures b <==> HasFraction(columns, d)
  {
    if |columns| == 0 then false
    else
      var rest := AnyColumnHasFraction(columns[1..], d);
      assert forall i :: 1 <= i < |columns| ==> columns[1..][i - 1] == columns[i];
      assert rest ==> HasFraction(columns, d) by {
        if rest {
          var i, j :| 0 <= i < |columns[1..]| && 0 <= j < |columns[1..][i]| && !IsWhole(columns[1..][i][j] / d);
          assert columns[1..][i] == columns[i + 1];
        }
      }
      ColumnHasFraction(columns[0], d) || rest
  }

  /** Index of the first empty column, whose median is NaN. */
  function FirstEmptyColumn(columns: seq<seq<real>>): (r: Option<nat>)
    ensures r.None? <==> AllColumnsNonEmpty(columns)
    ensures r.Some? ==> r.value < |columns| && |columns[r.value]| == 0
    ensures r.Some? ==> forall i :: 0 <= i < r.value ==> |columns[i]| > 0
  {
    if |columns| == 0 then None
    else if |columns[0]| == 0 then Some(0)
    else
      match FirstEmptyColumn(columns[1..])
      case None =>
        assert forall i :: 1 <= i < |columns| ==> columns[1..][i - 1] == columns[i];
        None
      case Some(i) =>
        assert columns[1..][i] == columns[i + 1];
        assert forall c :: 1 <= c <= i ==> columns[1..][c - 1] == columns[c];
        Some(i + 1)
  }

  /** `_determine_rounding_precision(df, columns)`, given the listed columns'
      values. It raises at the first empty column; otherwise the magnitude is
      the largest clamped floor logarithm of a non-zero column median, and a
      decimal place is needed exactly when the magnitude is one the source
      tests and some value in any listed column is not a whole multiple of the
      magnitude's divisor. */
  function ResolvePrecision(columns: seq<seq<real>>): (r: Result<RoundingPrecision, PrecisionError>)
    ensures r.Err? <==> exists i :: 0 <= i < |columns| && |columns[i]| == 0
    ensures r.Err? ==> r.error.column < |columns| && |columns[r.error.column]| == 0
    ensures r.Ok? ==> AllColumnsNonEmpty(columns) && IsResolvedMagnitude(columns, r.value.orderOfMagnitude)
    ensures r.Ok? ==> r.value.decimalPlace == 0 || r.value.decimalPlace == 1
    ensures r.Ok? ==> (r.value.decimalPlace == 1 <==>
                        DecimalTested(r.value.orderOfMagnitude)
                        && HasFraction(columns, Divisor(r.value.orderOfMagnitude)))
  {
    match FirstEmptyColumn(columns)
    case Some(i) => Err(MedianUndefined(i))
    case None =>
      var m := MaxMagnitude(columns);
      MaxMagnitudeIsLargestDecade(columns);
      var dp := if DecimalTested(m) && AnyColumnHasFraction(columns, Divisor(m)) then 1 else 0;
      Ok(RoundingPrecision(m, dp))
  }
}

=== FILE: results.dfy ===
/** Option and Result values used wherever the source either returns nothing
    or raises: an exception becomes an `Err` carrying what went wrong. */
module Results {

  datatype Option<+T> = None | Some(value: T)

  datatype Result<+T, +E> = Ok(value: T) | Err(error: E)
}

=== FILE: shapes.dfy ===
/** Preparing the three chart shapes of `create_chart` from the uploaded frame
    and the oracle's column mapping: two-column (category + one value),
    multi-column (category + series, wide or pivoted from long format) and
    bubble (label, x, y, size). Each returns the error the source would catch
    in that shape's `except` block. */
module Shapes {
  import opened Results
  import opened Table
  import opened Grouping
  import opened Pipeline
  import opened Sorting
  import Precision

  datatype TwoColumnMapping = TwoColumnMapping(
    category: string, value: string, axisLabel: string, axisUnit: string, natural: bool)

  datatype MultiColumnMapping = MultiColumnMapping(
    category: string, series: seq<string>, axisLabel: string, axisUnit: string, natural: bool)

  datatype BubbleMapping = BubbleMapping(
    labels: string, x: string, y: string, size: string, xIsPercentage: bool, yIsPercentage: bool)

  /** A prepared category table with the precision its charts are labelled with. */
  datatype Prepared = Prepared(rows: seq<CatRow>, precision: Precision.RoundingPrecision)

  function PrecisionOf(rows: seq<CatRow>, width: nat): (r: Result<Precision.RoundingPrecision, PrepError>)
    requires HasWidth(rows, width)
    ensures r.Err? <==> width > 0 && |rows| == 0
    ensures r.Ok? ==> Precision.ResolvePrecision(Columns(rows, width)) == Ok(r.value)
  {
    match Precision.ResolvePrecision(Columns(rows, width))
    case Err(e) => Err(NoMedian(e.column))
    case Ok(p) => Ok(p)
  }

  /** A permutation of grouped rows still carries each group's sum. */
  lemma PermutedGroupsKeepSums(sorted: seq<CatRow>, rows: seq<CatRow>, width: nat)
    requires HasWidth(rows, width)
    requires multiset(sorted) == multiset(GroupBySum(rows, width))
    ensures HasWidth(sorted, width)
    ensures forall i :: 0 <= i < |sorted| ==> sorted[i].values == SumFor(rows, sorted[i].category, width)
    ensures Keys(sorted) == Keys(rows)
  {
    var g := GroupBySum(rows, width);
    forall i | 0 <= i < |sorted|
      ensures |sorted[i].values| == width && sorted[i].values == SumFor(rows, sorted[i].category, width)
      ensures sorted[i].category in Keys(rows)
    {
      assert sorted[i] in multiset(g);
    }
    forall k | k in Keys(rows) ensures k in Keys(sorted) {
      var i :| 0 <= i < |g| && g[i].category == k;
      assert g[i] in multiset(sorted);
    }
  }

  /** The two-column shape (ppt_service.py 223-253): group by the category
      summing the value, sort ascending by value unless the order is natural,
      then resolve the precision of the value column. */
  function PrepareTwoColumn(f: Frame, m: TwoColumnMapping): (r: Result<Prepared, PrepError>)
    requires Rectangular(f)
    ensures r.Err? <==> Project(f, m.category, [m.value]).Err? || |f.rows| == 0
    ensures r.Ok? ==>
      var projected := Project(f, m.category, [m.value]).value;
      && HasWidth(r.value.rows, 1)
      && Keys(r.value.rows) == Keys(projected)
      && (forall i :: 0 <= i < |r.value.rows| ==> r.value.rows[i].values == SumFor(projected, r.value.rows[i].category, 1))
      && multiset(r.value.rows) == multiset(GroupBySum(projected, 1))
      && (m.natural ==> StrictlyAscending(r.value.rows))
      && (!m.natural ==> Ascending(r.value.rows, FirstValue))
      && Precision.ResolvePrecision([Column(r.value.rows, 0)]) == Ok(r.value.precision)
  {
    match Project(f, m.category, [m.value])
    case Err(e) => Err(e)
    case Ok(projected) =>
      var grouped := GroupBySum(projected, 1);
      var ordered := if m.natural then grouped else SortByValue(grouped);
      PermutedGroupsKeepSums(ordered, projected, 1);
      assert |grouped| == 0 <==> |f.rows| == 0 by {
        if |f.rows| > 0 { assert projected[0].category in Keys(grouped); }
      }
      match PrecisionOf(ordered, 1)
      case Err(e) => Err(e)
      case Ok(p) =>
        assert Columns(ordered, 1) == [Column(ordered, 0)];
        Ok(Prepared(ordered, p))
  }

  /** The wide multi-column shape (ppt_service.py 188-217): group by the
      category summing every series, order by row sum unless natural, then
      resolve the precision over the series columns. */
  function PrepareWide(f: Frame, m: MultiColumnMapping): (r: Result<Prepared, PrepError>)
    requires Rectangular(f)
    ensures r.Err? <==> Project(f, m.category, m.series).Err? || (|m.series| > 0 && |f.rows| == 0)
    ensures r.Ok? ==>
      var projected := Project(f, m.category, m.series).value;
      && HasWidth(r.value.rows, |m.series|)
      && Keys(r.value.rows) == Keys(projected)
      && (forall i :: 0 <= i < |r.value.rows| ==> r.value.rows[i].values == SumFor(projected, r.value.rows[i].category, |m.series|))
      && multiset(r.value.rows) == multiset(GroupBySum(projected, |m.series|))
      && (m.natural ==> StrictlyAscending(r.value.rows))
      && (!m.natural ==> Ascending(r.value.rows, RowTotal))
      && Precision.ResolvePrecision(Columns(r.value.rows, |m.series|)) == Ok(r.value.precision)
  {
    match Project(f, m.category, m.series)
    case Err(e) => Err(e)
    case Ok(projected) =>
      var width := |m.series|;
      var grouped := GroupBySum(projected, width);
      var ordered := if m.natural then grouped else SortByRowTotal(grouped);
      PermutedGroupsKeepSums(ordered, projected, width);
      assert |grouped| == 0 <==> |f.rows| == 0 by {
        if |f.rows| > 0 { assert projected[0].category in Keys(grouped); }
      }
      match PrecisionOf(ordered, width)
      case Err(e) => Err(e)
      case Ok(p) => Ok(Prepared(ordered, p))
  }

  /** Category and series read off a pivoted table's headers (ppt_service.py
      173-184): the first header is the reset index, the rest are the series.
      Indexing an empty header list raises. */
  function MappingFromPivot(headers: seq<string>, axisLabel: string, axisUnit: string, natural: bool): (r: Result<MultiColumnMapping, PrepError>)
    ensures r.Err? <==> |headers| == 0
    ensures r.Ok? ==> [r.value.category] + r.value.series == headers
    ensures r.Ok? ==> r.value.axisLabel == axisLabel && r.value.axisUnit == axisUnit && r.value.natural == natural
  {
    if |headers| == 0 then Err(NoPivotColumns)
    else Ok(MultiColumnMapping(headers[0], headers[1..], axisLabel, axisUnit, natural))
  }

  /** The long-format multi-column shape (ppt_service.py 156-184, 210-217),
      starting from the already pivoted table: no grouping, rows ordered by
      row sum unless natural. */
  function PrepareLong(pivoted: Frame, axisLabel: string, axisUnit: string, natural: bool): (r: Result<(MultiColumnMapping, Prepared), PrepError>)
    requires Rectangular(pivoted)
    ensures r.Ok? ==> [r.value.0.category] + r.value.0.series == pivoted.headers
    ensures r.Ok? ==>
      var m := r.value.0;
      Project(pivoted, m.category, m.series).Ok? &&
      var projected := Project(pivoted, m.category, m.series).value;
      && HasWidth(r.value.1.rows, |m.series|)
      && multiset(r.value.1.rows) == multiset(projected)
      && (natural ==> r.value.1.rows == projected)
      && (!natural ==> Ascending(r.value.1.rows, RowTotal))
      && Precision.ResolvePrecision(Columns(r.value.1.rows, |m.series|)) == Ok(r.value.1.precision)
    ensures |pivoted.headers| == 0 ==> r == Err(NoPivotColumns)
    ensures r.Err? <==> |pivoted.headers| == 0
                        || Project(pivoted, pivoted.headers[0], pivoted.headers[1..]).Err?
                        || (|pivoted.headers| > 1 && |pivoted.rows| == 0)
  {
    match MappingFromPivot(pivoted.headers, axisLabel, axisUnit, natural)
    case Err(e) => Err(e)
    case Ok(m) =>
      match Project(pivoted, m.category, m.series)
      case Err(e) => Err(e)
      case Ok(projected) =>
        var ordered := if natural then projected else SortByRowTotal(projected);
        assert HasWidth(ordered, |m.series|) by {
          forall i | 0 <= i < |ordered| ensures |ordered[i].values| == |m.series| {
            assert ordered[i] in multiset(projected);
          }
        }
        match PrecisionOf(ordered, |m.series|)
        case Err(e) => Err(e)
        case Ok(p) => Ok((m, Prepared(ordered, p)))
  }

  lemma {:induction false} MulGrows(a: int, d: int)
    requires a > 0 && d >= 1
    ensures a * d >= a
  {
    if d > 1 {
      MulGrows(a, d - 1);
      assert a * d == a * (d - 1) + a;
    }
  }

  lemma Distribute(a: int, q: int, p: int)
    ensures a * q - a * p == a * (q - p)
  {
  }

  lemma DivModUnique(x: int, a: int, q: int, r: int)
    requires a > 0 && 0 <= r < a && x == a * q + r
    ensures x % a == r
  {
    var q0 := x / a;
    var r0 := x % a;
    assert x == a * q0 + r0;
    if q > q0 {
      Distribute(a, q, q0);
      MulGrows(a, q - q0);
    } else if q < q0 {
      Distribute(a, q0, q);
      MulGrows(a, q0 - q);
    }
  }

  lemma ModShift(i: int, a: int)
    requires a > 0 && i >= a
    ensures (i - a) % a == i % a
  {
    var q := i / a;
    assert i == a * q + i % a;
    Distribute(a, q, 1);
    DivModUnique(i - a, a, q - 1, i % a);
  }

  /** Python's `text * n`: `n` copies of `s`, one after the other. */
  function Repeat(s: string, n: nat): (r: string)
    ensures |r| == |s| * n
    ensures forall i :: 0 <= i < |r| ==> r[i] == s[i % |s|]
  {
    if n == 0 then []
    else
      var rest := Repeat(s, n - 1);
      assert |rest| + |s| == |s| * n;
      var r := s + rest;
      assert forall i :: 0 <= i < |r| ==> r[i] == s[i % |s|] by {
        forall i | 0 <= i < |r| ensures r[i] == s[i % |s|] {
          if i >= |s| {
            assert r[i] == rest[i - |s|];
            ModShift(i, |s|);
          }
        }
      }
      r
  }

  /** `column *= 100` on one cell: numbers scale, text repeats. */
  function Hundredfold(v: Value): (r: Value)
    ensures v.Num? ==> r == Num(v.x * 100.0)
    ensures v.Str? ==> r.Str? && |r.s| == 100 * |v.s|
    ensures v.Str? ==> forall i :: 0 <= i < |r.s| ==> r.s[i] == v.s[i % |v.s|]
  {
    match v
    case Num(x) => Num(x * 100.0)
    case Str(s) => Str(Repeat(s, 100))
  }

  /** One bubble: label (`tag`), x, y and size cells. */
  datatype BubbleRow = BubbleRow(tag: Value, x: Value, y: Value, size: Value)

  /** The bubble shape (ppt_service.py 282-293): the four mapped columns, with
      the axes flagged as percentages multiplied by 100. A missing or repeated
      column raises; nothing else does. */
  function PrepareBubble(f: Frame, m: BubbleMapping): (r: Result<seq<BubbleRow>, PrepError>)
    requires Rectangular(f)
    ensures r.Err? <==> ColumnIndices(f.headers, [m.labels, m.x, m.y, m.size]).Err?
    ensures r.Ok? ==>
      var idx := ColumnIndices(f.headers, [m.labels, m.x, m.y, m.size]).value;
      && |r.value| == |f.rows|
      && forall i :: 0 <= i < |f.rows| ==>
           && r.value[i].tag == f.rows[i][idx[0]]
           && r.value[i].x == (if m.xIsPercentage then Hundredfold(f.rows[i][idx[1]]) else f.rows[i][idx[1]])
           && r.value[i].y == (if m.yIsPercentage then Hundredfold(f.rows[i][idx[2]]) else f.rows[i][idx[2]])
           && r.value[i].size == f.rows[i][idx[3]]
  {
    match ColumnIndices(f.headers, [m.labels, m.x, m.y, m.size])
    case Err(e) => Err(e)
    case Ok(idx) =>
      Ok(seq(|f.rows|, i requires 0 <= i < |f.rows| =>
        var row := f.rows[i];
        BubbleRow(row[idx[0]],
                  if m.xIsPercentage then Hundredfold(row[idx[1]]) else row[idx[1]],
                  if m.yIsPercentage then Hundredfold(row[idx[2]]) else row[idx[2]],
                  row[idx[3]])))
  }

  /** The coordinate `create_bubble_chart` plots (chart_factory.py 763-767):
      taken as is when flagged as a percentage, otherwise multiplied by 100. */
  function PlotCoordinate(v: Value, isPercentage: bool): Value
  {
    if isPercentage then v else Hundredfold(v)
  }

  /** Preparation and plotting together multiply every numeric coordinate by
      100, whichever way the axis is flagged. */
  function PlottedPoints(f: Frame, m: BubbleMapping): (r: Result<seq<(Value, Value)>, PrepError>)
    requires Rectangular(f)
    ensures r.Err? <==> ColumnIndices(f.headers, [m.labels, m.x, m.y, m.size]).Err?
    ensures r.Ok? ==>
      var idx := ColumnIndices(f.headers, [m.labels, m.x, m.y, m.size]).value;
      && |r.value| == |f.rows|
      && forall i :: 0 <= i < |f.rows| ==>
           && (f.rows[i][idx[1]].Num? ==> r.value[i].0 == Num(f.rows[i][idx[1]].x * 100.0))
           && (f.rows[i][idx[2]].Num? ==> r.value[i].1 == Num(f.rows[i][idx[2]].x * 100.0))
  {
    match PrepareBubble(f, m)
    case Err(e) => Err(e)
    case Ok(rows) =>
      Ok(seq(|rows|, i requires 0 <= i < |rows| =>
        (PlotCoordinate(rows[i].x, m.xIsPercentage), PlotCoordinate(rows[i].y, m.yIsPercentage))))
  }
}

=== FILE: sorting.dfy ===
/** Sorting rows by a numeric key and the median of a column, the two pieces
    of `sort_values` and `Series.median` the pipeline relies on. The source's
    sorts are not stable (pandas' default quicksort), so only ordering and
    permutation are promised; this model happens to sort stably. */
module Sorting {

  /** Keys never decrease along `s`. */
  ghost predicate Ascending<T>(s: seq<T>, key: T -> real)
  {
    forall i, j :: 0 <= i < j < |s| ==> key(s[i]) <= key(s[j])
  }

  /** Keys never increase along `s`. */
  ghost predicate Descending<T>(s: seq<T>, key: T -> real)
  {
    forall i, j :: 0 <= i < j < |s| ==> key(s[i]) >= key(s[j])
  }

  /** Inserts `x` into an ascending sequence, before the first larger-or-equal key. */
  function InsertAscending<T(==)>(x: T, s: seq<T>, key: T -> real): (r: seq<T>)
    requires Ascending(s, key)
    ensures Ascending(r, key)
    ensures multiset(r) == multiset(s) + multiset{x}
    ensures |r| == |s| + 1
  {
    if |s| == 0 then [x]
    else if key(x) <= key(s[0]) then [x] + s
    else
      var rest := InsertAscending(x, s[1..], key);
      assert s == [s[0]] + s[1..];
      assert forall k :: 0 <= k < |rest| ==> key(s[0]) <= key(rest[k]) by {
        forall k | 0 <= k < |rest| ensures key(s[0]) <= key(rest[k]) {
          assert rest[k] in multiset(rest);
          assert rest[k] == x || rest[k] in multiset(s[1..]);
        }
      }
      [s[0]] + rest
  }

  /** `sort_values(by=key, ascending=True)`: a permutation with ascending keys. */
  function SortAscending<T(==)>(s: seq<T>, key: T -> real): (r: seq<T>)
    ensures Ascending(r, key)
    ensures multiset(r) == multiset(s)
    ensures |r| == |s|
  {
    if |s| == 0 then []
    else
      assert s == [s[0]] + s[1..];
      InsertAscending(s[0], SortAscending(s[1..], key), key)
  }

  /** `sort_values(by=key, ascending=False)`: a permutation with descending keys. */
  function SortDescending<T(==)>(s: seq<T>, key: T -> real): (r: seq<T>)
    ensures Descending(r, key)
    ensures multiset(r) == multiset(s)
    ensures |r| == |s|
  {
    var negated := (x: T) => -key(x);
    var r := SortAscending(s, negated);
    assert forall i, j :: 0 <= i < j < |r| ==> negated(r[i]) <= negated(r[j]);
    r
  }

  /** Which side of a value an element is counted on. */
  datatype Side = Below | NotAbove | NotBelow

  predicate OnSide(x: real, side: Side, v: real)
  {
    match side
    case Below => x < v
    case NotAbove => x <= v
    case NotBelow => x >= v
  }

  /** How many elements of `s` lie on `side` of `v`. */
  function Count(s: seq<real>, side: Side, v: real): nat
  {
    if |s| == 0 then 0
    else (if OnSide(s[0], side, v) then 1 else 0) + Count(s[1..], side, v)
  }

  /** `v` is the `k`-th smallest element of `s` (counting from one): fewer
      than `k` elements lie below it and at least `k` are not above it. */
  ghost predicate OrderStatistic(s: seq<real>, k: nat, v: real)
  {
    v in s && Count(s, Below, v) < k <= Count(s, NotAbove, v)
  }

  lemma {:induction false} CountConcat(a: seq<real>, b: seq<real>, side: Side, v: real)
    ensures Count(a + b, side, v) == Count(a, side, v) + Count(b, side, v)
  {
    if |a| == 0 {
      assert a + b == b;
    } else {
      assert (a + b)[0] == a[0];
      assert (a + b)[1..] == a[1..] + b;
      CountConcat(a[1..], b, side, v);
    }
  }

  /** Taking out the element at `k` lowers the count by its own share. */
  lemma CountRemove(b: seq<real>, k: nat, side: Side, v: real)
    requires k < |b|
    ensures Count(b, side, v) == Count(b[..k] + b[k + 1..], side, v) + (if OnSide(b[k], side, v) then 1 else 0)
  {
    assert b == b[..k] + ([b[k]] + b[k + 1..]);
    CountConcat(b[..k], [b[k]] + b[k + 1..], side, v);
    CountConcat([b[k]], b[k + 1..], side, v);
    CountConcat(b[..k], b[k + 1..], side, v);
    assert Count([b[k]], side, v) == if OnSide(b[k], side, v) then 1 else 0 by {
      assert [b[k]][1..] == [];
    }
  }

  /** Counting does not depend on the order of the elements. */
  lemma {:induction false} CountPermutation(a: seq<real>, b: seq<real>, side: Side, v: real)
    requires multiset(a) == multiset(b)
    ensures Count(a, side, v) == Count(b, side, v)
  {
    if |a| == 0 {
      assert |b| == |multiset(b)| == 0;
    } else {
      assert a[0] in multiset(b);
      var k :| 0 <= k < |b| && b[k] == a[0];
      var rest := b[..k] + b[k + 1..];
      assert multiset(a[1..]) == multiset(rest) by {
        assert b == b[..k] + [b[k]] + b[k + 1..];
        assert multiset(b) == multiset(b[..k]) + multiset{b[k]} + multiset(b[k + 1..]);
        assert multiset(rest) == multiset(b[..k]) + multiset(b[k + 1..]);
        assert a == [a[0]] + a[1..];
        assert multiset(a) == multiset{a[0]} + multiset(a[1..]);
        forall x ensures multiset(a[1..])[x] == multiset(rest)[x] {
          assert multiset(a)[x] == multiset{a[0]}[x] + multiset(a[1..])[x];
          assert multiset(b)[x] == multiset(b[..k])[x] + multiset{b[k]}[x] + multiset(b[k + 1..])[x];
        }
      }
      CountPermutation(a[1..], rest, side, v);
      CountRemove(b, k, side, v);
    }
  }

  function Identity(x: real): real
  {
    x
  }

  /** In an ascending sequence, an element at index `k` or earlier that is
      not above `v` puts at least `k + 1` elements not above `v`. */
  lemma {:induction false} NotAboveBound(s: seq<real>, k: nat, v: real)
    requires Ascending(s, Identity) && k < |s| && s[k] <= v
    ensures Count(s, NotAbove, v) >= k + 1
  {
    assert s[0] <= s[k];
    if k > 0 {
      assert Ascending(s[1..], Identity) by {
        forall i, j | 0 <= i < j < |s| - 1 ensures s[1..][i] <= s[1..][j] {
          assert Identity(s[i + 1]) <= Identity(s[j + 1]);
        }
      }
      assert s[1..][k - 1] == s[k];
      NotAboveBound(s[1..], k - 1, v);
    }
  }

  /** ... and at least `|s| - k` elements not below `v` when `s[k]` is not
      below it. */
  lemma {:induction false} NotBelowBound(s: seq<real>, k: nat, v: real)
    requires Ascending(s, Identity) && k < |s| && s[k] >= v
    ensures Count(s, NotBelow, v) >= |s| - k
  {
    assert Ascending(s[1..], Identity) by {
      forall i, j | 0 <= i < j < |s| - 1 ensures s[1..][i] <= s[1..][j] {
        assert Identity(s[i + 1]) <= Identity(s[j + 1]);
      }
    }
    if k > 0 {
      assert s[1..][k - 1] == s[k];
      NotBelowBound(s[1..], k - 1, v);
    } else if |s| > 1 {
      assert Identity(s[0]) <= Identity(s[1]);
      assert s[1..][0] == s[1];
      NotBelowBound(s[1..], 0, v);
    }
  }

  /** ... and at most `j` elements below `v` when `s[j]` is not below it. */
  lemma {:induction false} BelowBound(s: seq<real>, j: nat, v: real)
    requires Ascending(s, Identity) && j < |s| && v <= s[j]
    ensures Count(s, Below, v) <= j
  {
    assert Ascending(s[1..], Identity) by {
      forall a, b | 0 <= a < b < |s| - 1 ensures s[1..][a] <= s[1..][b] {
        assert Identity(s[a + 1]) <= Identity(s[b + 1]);
      }
    }
    if j > 0 {
      assert s[1..][j - 1] == s[j];
      BelowBound(s[1..], j - 1, v);
    } else {
      if |s| > 1 {
        assert Identity(s[0]) <= Identity(s[1]);
        assert s[1..][0] == s[1];
        BelowBound(s[1..], 0, v);
      }
    }
  }

  /** The element at index `k` of an ascending permutation of `column` is
      the column's `(k + 1)`-th smallest value. */
  lemma SortedOrderStatistic(column: seq<real>, sorted: seq<real>, k: nat)
    requires Ascending(sorted, Identity) && multiset(sorted) == multiset(column) && k < |sorted|
    ensures OrderStatistic(column, k + 1, sorted[k])
  {
    var v := sorted[k];
    NotAboveBound(sorted, k, v);
    BelowBound(sorted, k, v);
    CountPermutation(sorted, column, NotAbove, v);
    CountPermutation(sorted, column, Below, v);
    assert v in multiset(column);
  }

  /** The two middle elements of an ascending permutation are the column's
      middle order statistics, and at least half the values lie on either
      side of anything between them. */
  lemma MiddleOfSorted(column: seq<real>, sorted: seq<real>, m: real)
    requires Ascending(sorted, Identity) && multiset(sorted) == multiset(column) && |sorted| > 0
    requires sorted[(|sorted| - 1) / 2] <= m <= sorted[|sorted| / 2]
    ensures 2 * Count(column, NotAbove, m) >= |column| && 2 * Count(column, NotBelow, m) >= |column|
  {
    var n := |sorted|;
    assert |column| == |multiset(column)| == n;
    NotAboveBound(sorted, (n - 1) / 2, m);
    NotBelowBound(sorted, n / 2, m);
    CountPermutation(sorted, column, NotAbove, m);
    CountPermutation(sorted, column, NotBelow, m);
  }

  /** For an even length, the two middle order statistics, found at
      indices of the column. */
  lemma MeanOfStatistics(column: seq<real>, lo: real, hi: real)
    requires |column| % 2 == 0 ==>
               OrderStatistic(column, |column| / 2, lo) && OrderStatistic(column, |column| / 2 + 1, hi)
    ensures |column| % 2 == 0 ==>
              exists i, j :: 0 <= i < |column| && 0 <= j < |column|
                             && OrderStatistic(column, |column| / 2, column[i])
                             && OrderStatistic(column, |column| / 2 + 1, column[j])
                             && (lo + hi) / 2.0 == (column[i] + column[j]) / 2.0
  {
    if |column| % 2 == 0 {
      var i :| 0 <= i < |column| && column[i] == lo;
      var j :| 0 <= j < |column| && column[j] == hi;
      assert OrderStatistic(column, |column| / 2, column[i]) && OrderStatistic(column, |column| / 2 + 1, column[j]);
    }
  }

  /** `Series.median()` of a non-empty column: the middle value of the sorted
      column, or the mean of the two middle values when the length is even.
      At least half the values lie on either side of it. */
  function Median(column: seq<real>): (m: real)
    requires |column| > 0
    ensures exists i :: 0 <= i < |column| && column[i] <= m
    ensures exists j :: 0 <= j < |column| && m <= column[j]
    ensures |column| % 2 == 1 ==> OrderStatistic(column, (|column| + 1) / 2, m)
    ensures |column| % 2 == 0 ==>
              exists i, j :: 0 <= i < |column| && 0 <= j < |column|
                             && OrderStatistic(column, |column| / 2, column[i])
                             && OrderStatistic(column, |column| / 2 + 1, column[j])
                             && m == (column[i] + column[j]) / 2.0
    ensures 2 * Count(column, NotAbove, m) >= |column| && 2 * Count(column, NotBelow, m) >= |column|
  {
    var sorted := SortAscending(column, Identity);
    var n := |sorted|;
    var lo := sorted[(n - 1) / 2];
    var hi := sorted[n / 2];
    assert Identity(lo) <= Identity(hi);
    SortedOrderStatistic(column, sorted, (n - 1) / 2);
    SortedOrderStatistic(column, sorted, n / 2);
    MeanOfStatistics(column, lo, hi);
    var m := if n % 2 == 1 then lo else (lo + hi) / 2.0;
    MiddleOfSorted(column, sorted, m);
    m
  }
}

=== FILE: table.dfy ===
/** The tabular data the pipeline works on. A `Frame` is the uploaded sheet
    (string headers, rows of cells); a prepared table is a sequence of
    `CatRow`s, one category label with the values of the chosen numeric
    columns in mapping order. */
module Table {
  import opened Results
  import Text

  /** A cell: a number (ints and booleans included) or text. */
  datatype Value = Num(x: real) | Str(s: string)

  datatype Frame = Frame(headers: seq<string>, rows: seq<seq<Value>>)

  /** Every row has one cell per header, as in any pandas frame. */
  predicate Rectangular(f: Frame)
  {
    forall r :: 0 <= r < |f.rows| ==> |f.rows[r]| == |f.headers|
  }

  /** The order pandas sorts group keys in: numbers by value, text in code-point
      order, and in a mixed column every number before every text. */
  predicate KeyLess(a: Value, b: Value)
  {
    match (a, b)
    case (Num(x), Num(y)) => x < y
    case (Str(s), Str(t)) => Text.StrLess(s, t)
    case (Num(_), Str(_)) => true
    case (Str(_), Num(_)) => false
  }

  lemma KeyLessIrreflexive(a: Value)
    ensures !KeyLess(a, a)
  {
    if a.Str? { Text.StrLessIrreflexive(a.s); }
  }

  lemma KeyLessTransitive(a: Value, b: Value, c: Value)
    requires KeyLess(a, b) && KeyLess(b, c)
    ensures KeyLess(a, c)
  {
    if a.Str? { Text.StrLessTransitive(a.s, b.s, c.s); }
  }

  lemma KeyLessTotal(a: Value, b: Value)
    ensures a == b || KeyLess(a, b) || KeyLess(b, a)
  {
    if a.Str? && b.Str? && a.s != b.s { Text.StrLessTotal(a.s, b.s); }
  }

  datatype CatRow = CatRow(category: Value, values: seq<real>)

  /** Every row carries exactly `width` values. */
  predicate HasWidth(rows: seq<CatRow>, width: nat)
  {
    forall i :: 0 <= i < |rows| ==> |rows[i].values| == width
  }

  /** Why preparing one chart shape failed (the exceptions caught per shape). */
  datatype PrepError =
    | MissingColumn(name: string)        // KeyError: the oracle named a column that is not there
    | AmbiguousColumn(name: string)      // ValueError: the header occurs more than once
    | NonNumeric(name: string)           // TypeError: arithmetic on a text cell
    | NoPivotColumns                     // IndexError: the pivoted header list is empty
    | NoMedian(column: nat)              // ValueError: the median of an empty column is NaN
    | OracleFailed                       // the oracle request itself raised

  /** Positions of `name` among the headers, in increasing order. */
  function Occurrences(headers: seq<string>, name: string): (r: seq<nat>)
    ensures |r| == multiset(headers)[name]
    ensures forall k :: 0 <= k < |r| ==> r[k] < |headers| && headers[r[k]] == name
  {
    if |headers| == 0 then []
    else
      var n := |headers| - 1;
      assert headers == headers[..n] + [headers[n]];
      var front := Occurrences(headers[..n], name);
      if headers[n] == name then front + [n] else front
  }

  /** `df[name]`: the single column with that header, or the error pandas raises. */
  function ColumnIndex(headers: seq<string>, name: string): (r: Result<nat, PrepError>)
    ensures r.Ok? <==> multiset(headers)[name] == 1
    ensures r.Ok? ==> r.value < |headers| && headers[r.value] == name
    ensures r.Err? ==> r.error == (if name in headers then AmbiguousColumn(name) else MissingColumn(name))
  {
    var occ := Occurrences(headers, name);
    if |occ| == 0 then Err(MissingColumn(name))
    else if |occ| > 1 then Err(AmbiguousColumn(name))
    else Ok(occ[0])
  }

  /** Indices of several headers, failing at the first bad one. */
  function ColumnIndices(headers: seq<string>, names: seq<string>): (r: Result<seq<nat>, PrepError>)
    ensures r.Ok? <==> forall k :: 0 <= k < |names| ==> multiset(headers)[names[k]] == 1
    ensures r.Ok? ==> |r.value| == |names|
    ensures r.Ok? ==> forall k :: 0 <= k < |names| ==> r.value[k] < |headers| && headers[r.value[k]] == names[k]
  {
    if |names| == 0 then Ok([])
    else
      match ColumnIndex(headers, names[0])
      case Err(e) => Err(e)
      case Ok(i) =>
        assert forall k :: 1 <= k < |names| ==> names[1..][k - 1] == names[k];
        match ColumnIndices(headers, names[1..])
        case Err(e) => Err(e)
        case Ok(rest) => Ok([i] + rest)
  }

  /** The numbers of a row at the given positions, or `NonNumeric` for text. */
  function NumbersAt(row: seq<Value>, idx: seq<nat>, names: seq<string>): (r: Result<seq<real>, PrepError>)
    requires |idx| == |names|
    requires forall k :: 0 <= k < |idx| ==> idx[k] < |row|
    ensures r.Ok? <==> forall k :: 0 <= k < |idx| ==> row[idx[k]].Num?
    ensures r.Ok? ==> |r.value| == |idx| && forall k :: 0 <= k < |idx| ==> r.value[k] == row[idx[k]].x
  {
    if |idx| == 0 then Ok([])
    else if row[idx[0]].Str? then Err(NonNumeric(names[0]))
    else
      match NumbersAt(row, idx[1..], names[1..])
      case Err(e) =>
        assert forall k :: 1 <= k < |idx| ==> idx[1..][k - 1] == idx[k];
        Err(e)
      case Ok(rest) =>
        assert forall k :: 1 <= k < |idx| ==> idx[1..][k - 1] == idx[k];
        Ok([row[idx[0]].x] + rest)
  }

  /** A name found at two different positions occurs at least twice, so a
      header that occurs once names one position only. */
  lemma UniquePosition(headers: seq<string>, name: string, a: nat, b: nat)
    requires a < |headers| && b < |headers| && headers[a] == name && headers[b] == name
    ensures a != b ==> multiset(headers)[name] >= 2
  {
    if a != b {
      var lo := if a < b then a else b;
      var hi := if a < b then b else a;
      assert headers == headers[..lo] + [headers[lo]] + headers[lo + 1..hi] + [headers[hi]] + headers[hi + 1..];
    }
  }

  /** Every cell under a header named in `names` is a number. */
  predicate NumericColumns(f: Frame, names: seq<string>)
    requires Rectangular(f)
  {
    forall i, k, c :: 0 <= i < |f.rows| && 0 <= k < |names| && 0 <= c < |f.headers| && f.headers[c] == names[k]
      ==> f.rows[i][c].Num?
  }

  /** Selects the category column and the numeric value columns of a frame:
      it succeeds exactly when every named header occurs once and every cell
      under a value header is a number, and then row `i` carries the row's
      category cell and, as value `k`, the number under `valueColumns[k]`. */
  function Project(f: Frame, category: string, valueColumns: seq<string>): (r: Result<seq<CatRow>, PrepError>)
    requires Rectangular(f)
    ensures r.Ok? <==>
              && multiset(f.headers)[category] == 1
              && (forall k :: 0 <= k < |valueColumns| ==> multiset(f.headers)[valueColumns[k]] == 1)
              && NumericColumns(f, valueColumns)
    ensures r.Ok? ==> |r.value| == |f.rows| && HasWidth(r.value, |valueColumns|)
    ensures r.Ok? ==> forall i :: 0 <= i < |f.rows| ==>
                exists c :: 0 <= c < |f.headers| && f.headers[c] == category && r.value[i].category == f.rows[i][c]
    ensures r.Ok? ==> forall i, c :: 0 <= i < |f.rows| && 0 <= c < |f.headers| && f.headers[c] == category ==>
                r.value[i].category == f.rows[i][c]
    ensures r.Ok? ==> forall i, k, c ::
                0 <= i < |f.rows| && 0 <= k < |valueColumns| && 0 <= c < |f.headers| && f.headers[c] == valueColumns[k]
                ==> r.value[i].values[k] == f.rows[i][c].x
  {
    match ColumnIndex(f.headers, category)
    case Err(e) => Err(e)
    case Ok(c) =>
      match ColumnIndices(f.headers, valueColumns)
      case Err(e) => Err(e)
      case Ok(idx) =>
        var r := ProjectRows(f.rows, |f.headers|, c, idx, valueColumns);
        ProjectedColumns(f, category, valueColumns, c, idx, r);
        r
  }

  /** The projection read through positions agrees with the projection read
      through header names. */
  lemma ProjectedColumns(f: Frame, category: string, names: seq<string>, c: nat, idx: seq<nat>,
                         r: Result<seq<CatRow>, PrepError>)
    requires Rectangular(f)
    requires multiset(f.headers)[category] == 1 && c < |f.headers| && f.headers[c] == category
    requires forall k :: 0 <= k < |names| ==> multiset(f.headers)[names[k]] == 1
    requires |idx| == |names| && forall k :: 0 <= k < |names| ==> idx[k] < |f.headers| && f.headers[idx[k]] == names[k]
    requires r.Ok? <==> forall i, k :: 0 <= i < |f.rows| && 0 <= k < |idx| ==> f.rows[i][idx[k]].Num?
    requires r.Ok? ==> |r.value| == |f.rows| && HasWidth(r.value, |idx|)
    requires r.Ok? ==> forall i :: 0 <= i < |f.rows| ==> r.value[i].category == f.rows[i][c]
    requires r.Ok? ==> forall i, k :: 0 <= i < |f.rows| && 0 <= k < |idx| ==> r.value[i].values[k] == f.rows[i][idx[k]].x
    ensures r.Ok? <==> NumericColumns(f, names)
    ensures r.Ok? ==> forall i, c' :: 0 <= i < |f.rows| && 0 <= c' < |f.headers| && f.headers[c'] == category ==>
              r.value[i].category == f.rows[i][c']
    ensures r.Ok? ==> forall i, k, c' ::
              0 <= i < |f.rows| && 0 <= k < |names| && 0 <= c' < |f.headers| && f.headers[c'] == names[k]
              ==> r.value[i].values[k] == f.rows[i][c'].x
  {
    forall k, c' | 0 <= k < |names| && 0 <= c' < |f.headers| && f.headers[c'] == names[k]
      ensures c' == idx[k]
    {
      UniquePosition(f.headers, names[k], c', idx[k]);
    }
    forall c' | 0 <= c' < |f.headers| && f.headers[c'] == category ensures c' == c {
      UniquePosition(f.headers, category, c', c);
    }
  }

  /** The rows at the given category and value positions: it succeeds exactly
      when every value cell is a number. */
  function ProjectRows(rows: seq<seq<Value>>, width: nat, c: nat, idx: seq<nat>, names: seq<string>): (r: Result<seq<CatRow>, PrepError>)
    requires forall i :: 0 <= i < |rows| ==> |rows[i]| == width
    requires c < width && |idx| == |names| && forall k :: 0 <= k < |idx| ==> idx[k] < width
    ensures r.Ok? <==> forall i, k :: 0 <= i < |rows| && 0 <= k < |idx| ==> rows[i][idx[k]].Num?
    ensures r.Ok? ==> |r.value| == |rows| && HasWidth(r.value, |idx|)
    ensures r.Ok? ==> forall i :: 0 <= i < |rows| ==> r.value[i].category == rows[i][c]
    ensures r.Ok? ==> forall i, k :: 0 <= i < |rows| && 0 <= k < |idx| ==> r.value[i].values[k] == rows[i][idx[k]].x
  {
    if |rows| == 0 then Ok([])
    else
      assert forall i :: 1 <= i < |rows| ==> rows[1..][i - 1] == rows[i];
      match NumbersAt(rows[0], idx, names)
      case Err(e) => Err(e)
      case Ok(vals) =>
        match ProjectRows(rows[1..], width, c, idx, names)
        case Err(e) => Err(e)
        case Ok(rest) => Ok([CatRow(rows[0][c], vals)] + rest)
  }
}

=== FILE: text.dfy ===
/** String helpers with the semantics of the Python built-ins the source
    relies on: `str(int)`, `str.lower`, `str.strip`, `in` on strings,
    `str.join` and the ordering of `<` on strings. */
module Text {

  /** The character for one decimal digit. */
  function DigitChar(d: nat): (c: char)
    requires d < 10
    ensures '0' <= c <= '9'
    ensures c as int - '0' as int == d
  {
    (d + '0' as int) as char
  }

  /** Python's `str(n)` for a non-negative integer: decimal digits, no leading zero. */
  function NatToString(n: nat): (s: string)
    ensures |s| >= 1
    ensures forall i :: 0 <= i < |s| ==> '0' <= s[i] <= '9'
    ensures |s| > 1 ==> s[0] != '0'
    decreases n
  {
    if n < 10 then [DigitChar(n)] else NatToString(n / 10) + [DigitChar(n % 10)]
  }

  /** Reads a string of decimal digits back as a number (the reference for `NatToString`). */
  function DigitsValue(s: string): nat
    requires forall i :: 0 <= i < |s| ==> '0' <= s[i] <= '9'
  {
    if |s| == 0 then 0 else 10 * DigitsValue(s[..|s| - 1]) + (s[|s| - 1] as int - '0' as int)
  }

  /** Rendering a number and reading it back gives the number. */
  lemma {:induction false} NatToStringRoundTrip(n: nat)
    ensures DigitsValue(NatToString(n)) == n
    decreases n
  {
    var s := NatToString(n);
    if n >= 10 {
      NatToStringRoundTrip(n / 10);
      assert s[..|s| - 1] == NatToString(n / 10);
    }
  }

  /** `NatToString` is injective: distinct numbers print differently. */
  lemma NatToStringInjective(m: nat, n: nat)
    requires NatToString(m) == NatToString(n)
    ensures m == n
  {
    NatToStringRoundTrip(m);
    NatToStringRoundTrip(n);
  }

  /** ASCII `str.lower` on one character. */
  function LowerChar(c: char): (d: char)
    ensures 'A' <= c <= 'Z' ==> 'a' <= d <= 'z' && d as int - c as int == 32
    ensures !('A' <= c <= 'Z') ==> d == c
  {
    if 'A' <= c <= 'Z' then (c as int + 32) as char else c
  }

  /** `str.lower` on the ASCII letters; every other character is kept. */
  function Lower(s: string): (r: string)
    ensures |r| == |s|
    ensures forall i :: 0 <= i < |s| ==> r[i] == LowerChar(s[i])
  {
    seq(|s|, i requires 0 <= i < |s| => LowerChar(s[i]))
  }

  /** The characters Python's `str.strip()` removes (`str.isspace`). */
  predicate IsPyWhitespace(c: char)
  {
    var n := c as int;
    || (0x09 <= n <= 0x0D) || (0x1C <= n <= 0x20) || n == 0x85 || n == 0xA0
    || n == 0x1680 || (0x2000 <= n <= 0x200A) || n == 0x2028 || n == 0x2029
    || n == 0x202F || n == 0x205F || n == 0x3000
  }

  /** `s.strip() == ""`: the string holds whitespace only (or nothing). */
  predicate IsBlank(s: string)
  {
    forall i :: 0 <= i < |s| ==> IsPyWhitespace(s[i])
  }

  /** `r` is `s` with a blank prefix and a blank suffix cut off. */
  ghost predicate TrimmedFrom(s: string, r: string)
  {
    exists i, j :: 0 <= i <= j <= |s| && r == s[i..j] && IsBlank(s[..i]) && IsBlank(s[j..])
  }

  lemma TrimmedWhole(s: string)
    ensures TrimmedFrom(s, s)
  {
    assert s == s[0..|s|] && s[..0] == [] && s[|s|..] == [];
  }

  /** A leading whitespace character joins the blank prefix. */
  lemma TrimmedDropFirst(s: string, r: string)
    requires |s| > 0 && IsPyWhitespace(s[0]) && TrimmedFrom(s[1..], r)
    ensures TrimmedFrom(s, r)
  {
    var t := s[1..];
    var i, j :| 0 <= i <= j <= |t| && r == t[i..j] && IsBlank(t[..i]) && IsBlank(t[j..]);
    BlankPrefixGrows(s, i);
    assert r == s[i + 1..j + 1];
    assert s[j + 1..] == t[j..];
  }

  lemma BlankPrefixGrows(s: string, i: nat)
    requires i < |s| && IsPyWhitespace(s[0]) && IsBlank(s[1..][..i])
    ensures IsBlank(s[..i + 1])
  {
    var front := s[..i + 1];
    forall k | 0 <= k < i + 1 ensures IsPyWhitespace(front[k]) {
      if k > 0 {
        assert front[k] == s[1..][..i][k - 1];
      }
    }
  }

  /** A trailing whitespace character joins the blank suffix. */
  lemma TrimmedDropLast(s: string, r: string)
    requires |s| > 0 && IsPyWhitespace(s[|s| - 1]) && TrimmedFrom(s[..|s| - 1], r)
    ensures TrimmedFrom(s, r)
  {
    var n := |s| - 1;
    var t := s[..n];
    var i, j :| 0 <= i <= j <= n && r == t[i..j] && IsBlank(t[..i]) && IsBlank(t[j..]);
    assert r == s[i..j];
    assert s[..i] == t[..i];
    assert IsBlank(s[j..]) by {
      forall k | j <= k < |s| ensures IsPyWhitespace(s[k]) {
        if k < n { assert s[k] == t[j..][k - j]; }
      }
    }
  }

  /** `s.strip()`: drop leading and trailing whitespace. The result is `s`
      less blank ends, and starts and ends with a non-whitespace character,
      so exactly the outer whitespace is gone. */
  function Strip(s: string): (r: string)
    ensures |r| <= |s|
    ensures r == "" || (!IsPyWhitespace(r[0]) && !IsPyWhitespace(r[|r| - 1]))
    ensures TrimmedFrom(s, r)
    decreases |s|
  {
    if |s| == 0 then
      TrimmedWhole(s);
      s
    else if IsPyWhitespace(s[0]) then
      var r := Strip(s[1..]);
      TrimmedDropFirst(s, r);
      r
    else if IsPyWhitespace(s[|s| - 1]) then
      var r := Strip(s[..|s| - 1]);
      TrimmedDropLast(s, r);
      r
    else
      TrimmedWhole(s);
      s
  }

  /** Stripping yields the empty string exactly for blank strings. */
  lemma {:induction false} StripEmptyIffBlank(s: string)
    ensures Strip(s) == "" <==> IsBlank(s)
    decreases |s|
  {
    if |s| == 0 {
    } else if IsPyWhitespace(s[0]) {
      StripEmptyIffBlank(s[1..]);
      assert IsBlank(s) <==> IsBlank(s[1..]) by {
        if IsBlank(s[1..]) {
          forall i | 0 <= i < |s| ensures IsPyWhitespace(s[i]) {
            if i > 0 { assert s[i] == s[1..][i - 1]; }
          }
        }
      }
    } else if IsPyWhitespace(s[|s| - 1]) {
      // the first character is not whitespace, so neither side is blank
      StripEmptyIffBlank(s[..|s| - 1]);
      assert s[..|s| - 1][0] == s[0];
    } else {
      assert !IsBlank(s) by { assert !IsPyWhitespace(s[0]); }
    }
  }

  /** `sub` occurs in `s` at position `i`. */
  predicate OccursAt(s: string, sub: string, i: int)
  {
    0 <= i && i + |sub| <= |s| && s[i..i + |sub|] == sub
  }

  /** Python's `sub in s`. */
  function Contains(s: string, sub: string): (r: bool)
    ensures r <==> exists i :: OccursAt(s, sub, i)
    decreases |s|
  {
    if |sub| > |s| then false
    else if s[..|sub|] == sub then assert OccursAt(s, sub, 0); true
    else
      var rest := Contains(s[1..], sub);
      assert rest ==> exists i :: OccursAt(s, sub, i) by {
        if rest {
          var j :| OccursAt(s[1..], sub, j);
          assert s[1..][j..j + |sub|] == s[j + 1..j + 1 + |sub|];
          assert OccursAt(s, sub, j + 1);
        }
      }
      assert (exists i :: OccursAt(s, sub, i)) ==> rest by {
        if exists i :: OccursAt(s, sub, i) {
          var i :| OccursAt(s, sub, i);
          assert i != 0;
          assert s[1..][i - 1..i - 1 + |sub|] == s[i..i + |sub|];
          assert OccursAt(s[1..], sub, i - 1);
        }
      }
      rest
  }

  /** Python's `sep.join(parts)`. */
  function Join(parts: seq<string>, sep: string): string
  {
    if |parts| == 0 then ""
    else if |parts| == 1 then parts[0]
    else Join(parts[..|parts| - 1], sep) + sep + parts[|parts| - 1]
  }

  /** Python's `<` on strings: lexicographic by code point, a proper prefix first. */
  predicate StrLess(a: string, b: string)
  {
    if |a| == 0 then |b| > 0
    else if |b| == 0 then false
    else if a[0] != b[0] then a[0] < b[0]
    else StrLess(a[1..], b[1..])
  }

  lemma {:induction false} StrLessIrreflexive(a: string)
    ensures !StrLess(a, a)
    decreases |a|
  {
    if |a| > 0 { StrLessIrreflexive(a[1..]); }
  }

  lemma {:induction false} StrLessTransitive(a: string, b: string, c: string)
    requires StrLess(a, b) && StrLess(b, c)
    ensures StrLess(a, c)
    decreases |a|
  {
    if |a| > 0 && |b| > 0 && |c| > 0 && a[0] == b[0] && b[0] == c[0] {
      StrLessTransitive(a[1..], b[1..], c[1..]);
    }
  }

  lemma {:induction false} StrLessTotal(a: string, b: string)
    requires a != b
    ensures StrLess(a, b) || StrLess(b, a)
    decreases |a|
  {
    if |a| > 0 && |b| > 0 && a[0] == b[0] {
      assert a == [a[0]] + a[1..] && b == [b[0]] + b[1..];
      StrLessTotal(a[1..], b[1..]);
    }
  }

  lemma {:induction false} StrLessAsymmetric(a: string, b: string)
    requires StrLess(a, b)
    ensures !StrLess(b, a)
  {
    if StrLess(b, a) {
      StrLessTransitive(a, b, a);
      StrLessIrreflexive(a);
    }
  }
}

=== FILE: validation.dfy ===
/** `fun_validate` (app/data_validation_service.py): checks an uploaded sheet
    and returns a validity flag with an ordered list of hints for the user. */
module Validation {
  import Text

  /** The Python type of a non-null cell, as `type(value)` reports it. */
  datatype PyType = IntType | FloatType | BoolType | StrType | OtherType(name: string)

  datatype Cell = Null | Present(ty: PyType)

  /** Headers already converted to strings, and the cells by row. */
  datatype Sheet = Sheet(headers: seq<string>, rows: seq<seq<Cell>>)

  predicate Rectangular(s: Sheet)
  {
    forall i :: 0 <= i < |s.rows| ==> |s.rows[i]| == |s.headers|
  }

  datatype Verdict = Verdict(isValid: bool, hints: seq<string>)

  /** One failed check, in the order the source runs the checks. */
  datatype Hint =
    | EmptyHeaders
    | DuplicatedHeaders
    | MissingValues(locations: seq<(nat, nat)>)
    | InconsistentColumns(names: seq<string>)
    | NoNumbers

  /** Position of a check in the source's sequence of checks. */
  function Rank(h: Hint): nat
  {
    match h
    case EmptyHeaders => 0
    case DuplicatedHeaders => 1
    case MissingValues(_) => 2
    case InconsistentColumns(_) => 3
    case NoNumbers => 4
  }

  /** `issubclass(t, (int, float))`; `bool` is a subclass of `int`. */
  predicate IsNumeric(t: PyType)
  {
    t.IntType? || t.FloatType? || t.BoolType?
  }

  /** A header holding `_EMPTY` or nothing but whitespace. */
  predicate IsEmptyHeader(h: string)
  {
    Text.Contains(h, "_EMPTY") || Text.Strip(h) == ""
  }

  predicate HasEmptyHeader(headers: seq<string>)
  {
    exists i | 0 <= i < |headers| :: IsEmptyHeader(headers[i])
  }

  /** Reference definition of unique headers. */
  predicate Distinct(headers: seq<string>)
  {
    forall i, j :: 0 <= i < j < |headers| ==> headers[i] != headers[j]
  }

  function ToSet(headers: seq<string>): set<string>
  {
    set i | 0 <= i < |headers| :: headers[i]
  }

  /** The source's `len(headers) != len(set(headers))` detects exactly the
      sequences with a repeated header. */
  lemma {:induction false} SetSizeDetectsDuplicates(headers: seq<string>)
    ensures |ToSet(headers)| <= |headers|
    ensures |ToSet(headers)| == |headers| <==> Distinct(headers)
  {
    if |headers| > 0 {
      var n := |headers| - 1;
      var front := headers[..n];
      SetSizeDetectsDuplicates(front);
      assert ToSet(headers) == ToSet(front) + {headers[n]} by {
        forall h | h in ToSet(headers) ensures h in ToSet(front) + {headers[n]} {
          var i :| 0 <= i < |headers| && headers[i] == h;
          if i < n { assert front[i] == h; }
        }
        forall h | h in ToSet(front) ensures h in ToSet(headers) {
          var i :| 0 <= i < n && front[i] == h;
          assert headers[i] == h;
        }
      }
      if headers[n] in ToSet(front) {
        var i :| 0 <= i < n && front[i] == headers[n];
        assert headers[i] == headers[n];
        assert !Distinct(headers);
      } else {
        assert Distinct(headers) <==> Distinct(front) by {
          if Distinct(front) {
            forall i, j | 0 <= i < j < |headers| ensures headers[i] != headers[j] {
              if j == n { assert front[i] == headers[i]; }
              else { assert front[i] == headers[i] && front[j] == headers[j]; }
            }
          }
          if Distinct(headers) {
            forall i, j | 0 <= i < j < n ensures front[i] != front[j] {
              assert front[i] == headers[i] && front[j] == headers[j];
            }
          }
        }
      }
    }
  }

  /** Row-major order of cell positions, the order `stack()` lists them in. */
  predicate Before(a: (nat, nat), b: (nat, nat))
  {
    a.0 < b.0 || (a.0 == b.0 && a.1 < b.1)
  }

  /** Null positions `(r, c)` of one row `r`, by column. */
  function NullsInRow(row: seq<Cell>, r: nat): (locs: seq<(nat, nat)>)
    ensures forall k :: 0 <= k < |locs| ==> locs[k].0 == r && locs[k].1 < |row| && row[locs[k].1].Null?
    ensures forall c :: 0 <= c < |row| && row[c].Null? ==> (r, c) in locs
    ensures forall a, b :: 0 <= a < b < |locs| ==> locs[a].1 < locs[b].1
  {
    if |row| == 0 then []
    else
      var n := |row| - 1;
      var front := NullsInRow(row[..n], r);
      assert forall c :: 0 <= c < n ==> row[..n][c] == row[c];
      if row[n].Null? then front + [(r, n)] else front
  }

  /** `locs` lists exactly the null cells of `rows`, in row-major order. */
  /** Every listed position holds a null cell. */
  predicate OnlyNulls(rows: seq<seq<Cell>>, locs: seq<(nat, nat)>)
  {
    forall k :: 0 <= k < |locs| ==> locs[k].0 < |rows| && locs[k].1 < |rows[locs[k].0]| && rows[locs[k].0][locs[k].1].Null?
  }

  /** Every null cell is listed. */
  predicate AllNulls(rows: seq<seq<Cell>>, locs: seq<(nat, nat)>)
  {
    forall r, c :: 0 <= r < |rows| && 0 <= c < |rows[r]| && rows[r][c].Null? ==> (r, c) in locs
  }

  /** Positions appear in row-major order. */
  predicate RowMajor(locs: seq<(nat, nat)>)
  {
    forall a, b :: 0 <= a < b < |locs| ==> Before(locs[a], locs[b])
  }

  lemma OnlyNullsAppend(rows: seq<seq<Cell>>, front: seq<(nat, nat)>, tail: seq<(nat, nat)>)
    requires |rows| > 0
    requires OnlyNulls(rows[..|rows| - 1], front)
    requires tail == NullsInRow(rows[|rows| - 1], |rows| - 1)
    ensures OnlyNulls(rows, front + tail)
  {
    var n := |rows| - 1;
    var locs := front + tail;
    forall k | 0 <= k < |locs|
      ensures locs[k].0 < |rows| && locs[k].1 < |rows[locs[k].0]| && rows[locs[k].0][locs[k].1].Null?
    {
      if k < |front| {
        assert locs[k] == front[k];
        assert rows[..n][locs[k].0] == rows[locs[k].0];
      } else {
        assert locs[k] == tail[k - |front|];
      }
    }
  }

  lemma AllNullsAppendEarlier(rows: seq<seq<Cell>>, front: seq<(nat, nat)>, r: nat, c: nat)
    requires |rows| > 0
    requires AllNulls(rows[..|rows| - 1], front)
    requires r < |rows| - 1 && c < |rows[r]| && rows[r][c].Null?
    ensures (r, c) in front
  {
    var earlier := rows[..|rows| - 1];
    assert earlier[r] == rows[r];
  }

  lemma AllNullsAppend(rows: seq<seq<Cell>>, front: seq<(nat, nat)>, tail: seq<(nat, nat)>)
    requires |rows| > 0
    requires AllNulls(rows[..|rows| - 1], front)
    requires tail == NullsInRow(rows[|rows| - 1], |rows| - 1)
    ensures AllNulls(rows, front + tail)
  {
    forall r, c | 0 <= r < |rows| && 0 <= c < |rows[r]| && rows[r][c].Null?
      ensures (r, c) in front + tail
    {
      if r < |rows| - 1 {
        AllNullsAppendEarlier(rows, front, r, c);
      } else {
        assert rows[|rows| - 1][c].Null?;
      }
    }
  }

  lemma RowMajorAppend(rows: seq<seq<Cell>>, front: seq<(nat, nat)>, tail: seq<(nat, nat)>)
    requires |rows| > 0
    requires OnlyNulls(rows[..|rows| - 1], front) && RowMajor(front)
    requires tail == NullsInRow(rows[|rows| - 1], |rows| - 1)
    ensures RowMajor(front + tail)
  {
    var locs := front + tail;
    forall a, b | 0 <= a < b < |locs| ensures Before(locs[a], locs[b]) {
      if b < |front| {
        assert locs[a] == front[a] && locs[b] == front[b];
      } else if a >= |front| {
        assert locs[a] == tail[a - |front|] && locs[b] == tail[b - |front|];
      } else {
        assert locs[a] == front[a] && locs[b] == tail[b - |front|];
      }
    }
  }

  /** Every null cell, in row-major order. */
  function NullLocations(rows: seq<seq<Cell>>): (locs: seq<(nat, nat)>)
    ensures OnlyNulls(rows, locs) && AllNulls(rows, locs) && RowMajor(locs)
  {
    if |rows| == 0 then []
    else
      var n := |rows| - 1;
      var front := NullLocations(rows[..n]);
      var tail := NullsInRow(rows[n], n);
      OnlyNullsAppend(rows, front, tail);
      AllNullsAppend(rows, front, tail);
      RowMajorAppend(rows, front, tail);
      front + tail
  }

  /** `[row number: {r + 2}, column header: {h}]`: the sheet's own row number,
      counting the header line and starting at one. */
  function LocationText(headers: seq<string>, loc: (nat, nat)): string
    requires loc.1 < |headers|
  {
    "[row number: " + Text.NatToString(loc.0 + 2) + ", column header: " + headers[loc.1] + "]"
  }

  function LocationTexts(headers: seq<string>, locs: seq<(nat, nat)>): (texts: seq<string>)
    requires forall k :: 0 <= k < |locs| ==> locs[k].1 < |headers|
    ensures |texts| == |locs| && forall k :: 0 <= k < |locs| ==> texts[k] == LocationText(headers, locs[k])
  {
    seq(|locs|, k requires 0 <= k < |locs| => LocationText(headers, locs[k]))
  }

  /** Types of the non-null cells of column `c`. */
  function ColumnTypes(s: Sheet, c: nat): set<PyType>
    requires Rectangular(s) && c < |s.headers|
  {
    set i | 0 <= i < |s.rows| && s.rows[i][c].Present? :: s.rows[i][c].ty
  }

  predicate Inconsistent(s: Sheet, c: nat)
    requires Rectangular(s) && c < |s.headers|
  {
    |ColumnTypes(s, c)| > 1
  }

  /** Indices of the inconsistent columns among the first `n`, in order. */
  function InconsistentAmong(s: Sheet, n: nat): (cols: seq<nat>)
    requires Rectangular(s) && n <= |s.headers|
    ensures forall k :: 0 <= k < |cols| ==> cols[k] < n && Inconsistent(s, cols[k])
    ensures forall c :: 0 <= c < n && Inconsistent(s, c) ==> c in cols
    ensures forall a, b :: 0 <= a < b < |cols| ==> cols[a] < cols[b]
  {
    if n == 0 then []
    else
      var front := InconsistentAmong(s, n - 1);
      if Inconsistent(s, n - 1) then front + [n - 1] else front
  }

  function HeadersAt(headers: seq<string>, cols: seq<nat>): (names: seq<string>)
    requires forall k :: 0 <= k < |cols| ==> cols[k] < |headers|
    ensures |names| == |cols| && forall k :: 0 <= k < |cols| ==> names[k] == headers[cols[k]]
  {
    seq(|cols|, k requires 0 <= k < |cols| => headers[cols[k]])
  }

  /** Some non-null cell is a number. */
  predicate HasNumbers(s: Sheet)
    requires Rectangular(s)
  {
    exists i, c | 0 <= i < |s.rows| && 0 <= c < |s.headers| :: s.rows[i][c].Present? && IsNumeric(s.rows[i][c].ty)
  }

  /** The user-facing text of a hint, character for character. */
  function HintText(headers: seq<string>, h: Hint): string
    requires h.MissingValues? ==> forall k :: 0 <= k < |h.locations| ==> h.locations[k].1 < |headers|
  {
    match h
    case EmptyHeaders => "Data contains empty headers. Please provide valid headers."
    case DuplicatedHeaders => "Excel contains duplicated headers. Please ensure your headers are unique"
    case MissingValues(locs) =>
      "Excel contains missing values. Please fill missing values at: "
      + Text.Join(LocationTexts(headers, locs), "")
    case InconsistentColumns(names) =>
      "The following columns are formatted inconsistently (e.g. contain text and numbers): "
      + Text.Join(names, ", ")
    case NoNumbers =>
      "Could not find any numbers in your data - please check your formatting (e.g. remove Units from entries)"
  }

  /** The failed checks, in the order `fun_validate` appends their hints. */
  function Hints(s: Sheet): seq<Hint>
    requires Rectangular(s)
  {
    var emptyHeader := HasEmptyHeader(s.headers);
    var locs := NullLocations(s.rows);
    var cols := InconsistentAmong(s, |s.headers|);
    (if emptyHeader then [EmptyHeaders] else [])
    + (if |s.headers| != |ToSet(s.headers)| && !emptyHeader then [DuplicatedHeaders] else [])
    + (if |locs| > 0 then [MissingValues(locs)] else [])
    + (if |cols| > 0 then [InconsistentColumns(HeadersAt(s.headers, cols))] else [])
    + (if HasNumbers(s) then [] else [NoNumbers])
  }

  /** At most one hint per check, each of its check's rank: concatenating
      the checks in source order gives strictly increasing ranks. */
  lemma {:induction false} ConcatenatedRanks(p0: seq<Hint>, p1: seq<Hint>, p2: seq<Hint>, p3: seq<Hint>, p4: seq<Hint>)
    requires |p0| <= 1 && |p1| <= 1 && |p2| <= 1 && |p3| <= 1 && |p4| <= 1
    requires forall x :: x in p0 ==> Rank(x) == 0
    requires forall x :: x in p1 ==> Rank(x) == 1
    requires forall x :: x in p2 ==> Rank(x) == 2
    requires forall x :: x in p3 ==> Rank(x) == 3
    requires forall x :: x in p4 ==> Rank(x) == 4
    ensures var h := p0 + p1 + p2 + p3 + p4;
            forall a, b :: 0 <= a < b < |h| ==> Rank(h[a]) < Rank(h[b])
  {
    var h := p0 + p1 + p2 + p3 + p4;
    var n0, n1, n2, n3 := |p0|, |p0| + |p1|, |p0| + |p1| + |p2|, |p0| + |p1| + |p2| + |p3|;
    forall k | 0 <= k < |h|
      ensures Rank(h[k]) == if k < n0 then 0 else if k < n1 then 1 else if k < n2 then 2 else if k < n3 then 3 else 4
    {
      if k < n0 { assert h[k] in p0; }
      else if k < n1 { assert h[k] == p1[k - n0]; }
      else if k < n2 { assert h[k] == p2[k - n1]; }
      else if k < n3 { assert h[k] == p3[k - n2]; }
      else { assert h[k] == p4[k - n3]; }
    }
  }

  /** `Hints` as its five optional parts. */
  function HintParts(s: Sheet): (parts: seq<seq<Hint>>)
    requires Rectangular(s)
    ensures |parts| == 5 && Hints(s) == parts[0] + parts[1] + parts[2] + parts[3] + parts[4]
  {
    var emptyHeader := HasEmptyHeader(s.headers);
    var locs := NullLocations(s.rows);
    var cols := InconsistentAmong(s, |s.headers|);
    [ if emptyHeader then [EmptyHeaders] else [],
      if |s.headers| != |ToSet(s.headers)| && !emptyHeader then [DuplicatedHeaders] else [],
      if |locs| > 0 then [MissingValues(locs)] else [],
      if |cols| > 0 then [InconsistentColumns(HeadersAt(s.headers, cols))] else [],
      if HasNumbers(s) then [] else [NoNumbers] ]
  }

  /** The hints come out in the source's order, at most one per check. */
  lemma HintsOrdered(s: Sheet)
    requires Rectangular(s)
    ensures forall a, b :: 0 <= a < b < |Hints(s)| ==> Rank(Hints(s)[a]) < Rank(Hints(s)[b])
  {
    var p := HintParts(s);
    ConcatenatedRanks(p[0], p[1], p[2], p[3], p[4]);
  }

  /** Membership in `Hints` is membership in one of its parts. */
  lemma InHints(s: Sheet, h: Hint)
    requires Rectangular(s)
    ensures h in Hints(s) <==> h in HintParts(s)[0] || h in HintParts(s)[1] || h in HintParts(s)[2]
                               || h in HintParts(s)[3] || h in HintParts(s)[4]
  {
    var p := HintParts(s);
    InFiveParts(p[0], p[1], p[2], p[3], p[4], h);
  }

  /** The header hints: the empty-header hint exactly when a header is empty,
      the duplicate hint exactly when headers repeat and none is empty. */
  lemma HeaderHintsPresent(s: Sheet)
    requires Rectangular(s)
    ensures EmptyHeaders in Hints(s) <==> HasEmptyHeader(s.headers)
    ensures DuplicatedHeaders in Hints(s) <==> !Distinct(s.headers) && !HasEmptyHeader(s.headers)
    ensures !(EmptyHeaders in Hints(s) && DuplicatedHeaders in Hints(s))
  {
    SetSizeDetectsDuplicates(s.headers);
    InHints(s, EmptyHeaders);
    InHints(s, DuplicatedHeaders);
  }

  /** The missing-values hint appears exactly when a cell is null, listing
      every null cell in row-major order. */
  lemma MissingHintPresent(s: Sheet)
    requires Rectangular(s)
    ensures MissingValues(NullLocations(s.rows)) in Hints(s) <==>
              exists r, c :: 0 <= r < |s.rows| && 0 <= c < |s.headers| && s.rows[r][c].Null?
    ensures forall h :: h in Hints(s) && h.MissingValues? ==> h.locations == NullLocations(s.rows)
  {
    var locs := NullLocations(s.rows);
    if |locs| > 0 {
      var r, c := locs[0].0, locs[0].1;
      assert |s.rows[r]| == |s.headers|;
      assert s.rows[r][c].Null?;
    }
    if exists r, c :: 0 <= r < |s.rows| && 0 <= c < |s.headers| && s.rows[r][c].Null? {
      var r, c :| 0 <= r < |s.rows| && 0 <= c < |s.headers| && s.rows[r][c].Null?;
      assert |s.rows[r]| == |s.headers|;
      assert (r, c) in locs;
    }
    InHints(s, MissingValues(locs));
    MissingHintCarriesLocations(s);
  }

  lemma MissingHintCarriesLocations(s: Sheet)
    requires Rectangular(s)
    ensures forall h :: h in Hints(s) && h.MissingValues? ==> h.locations == NullLocations(s.rows)
  {
    forall h | h in Hints(s) && h.MissingValues? ensures h.locations == NullLocations(s.rows) {
      InHints(s, h);
    }
  }

  /** The inconsistent-columns hint appears exactly when a column mixes types,
      naming those columns in column order. */
  lemma InconsistentHintPresent(s: Sheet)
    requires Rectangular(s)
    ensures InconsistentColumns(HeadersAt(s.headers, InconsistentAmong(s, |s.headers|))) in Hints(s) <==>
              exists c :: 0 <= c < |s.headers| && Inconsistent(s, c)
    ensures forall h :: h in Hints(s) && h.InconsistentColumns? ==>
              h.names == HeadersAt(s.headers, InconsistentAmong(s, |s.headers|))
  {
    var cols := InconsistentAmong(s, |s.headers|);
    assert |cols| > 0 <==> exists c :: 0 <= c < |s.headers| && Inconsistent(s, c) by {
      if |cols| > 0 { assert Inconsistent(s, cols[0]); }
    }
    InHints(s, InconsistentColumns(HeadersAt(s.headers, cols)));
    forall h | h in Hints(s) && h.InconsistentColumns? ensures h.names == HeadersAt(s.headers, cols) {
      InHints(s, h);
    }
  }

  /** The no-numbers hint appears exactly when no cell holds a number. */
  lemma NoNumbersHintPresent(s: Sheet)
    requires Rectangular(s)
    ensures NoNumbers in Hints(s) <==> !HasNumbers(s)
  {
    InHints(s, NoNumbers);
  }

  lemma InFiveParts(p0: seq<Hint>, p1: seq<Hint>, p2: seq<Hint>, p3: seq<Hint>, p4: seq<Hint>, h: Hint)
    ensures h in p0 + p1 + p2 + p3 + p4 <==> h in p0 || h in p1 || h in p2 || h in p3 || h in p4
  {
  }

  /** Each hint that carries data carries the source's: the missing-value
      hint lists exactly the null cells, in row-major order, each naming an
      existing column; the formatting hint names exactly the mixed-type
      columns, in column order; neither list is empty. */
  predicate HintsWellFormedFor(s: Sheet)
    requires Rectangular(s)
  {
    forall k :: 0 <= k < |Hints(s)| ==>
      && (Hints(s)[k].MissingValues? ==>
            && Hints(s)[k].locations == NullLocations(s.rows)
            && |Hints(s)[k].locations| > 0
            && forall j :: 0 <= j < |Hints(s)[k].locations| ==> Hints(s)[k].locations[j].1 < |s.headers|)
      && (Hints(s)[k].InconsistentColumns? ==>
            && Hints(s)[k].names == HeadersAt(s.headers, InconsistentAmong(s, |s.headers|))
            && |Hints(s)[k].names| > 0)
  }

  /** Every hint carries the payload its check computed. */
  lemma HintsWellFormed(s: Sheet)
    requires Rectangular(s)
    ensures HintsWellFormedFor(s)
  {
    var p := HintParts(s);
    forall k | 0 <= k < |Hints(s)|
      ensures Hints(s)[k].MissingValues? ==> Hints(s)[k].locations == NullLocations(s.rows) && |Hints(s)[k].locations| > 0
      ensures Hints(s)[k].InconsistentColumns? ==>
                Hints(s)[k].names == HeadersAt(s.headers, InconsistentAmong(s, |s.headers|)) && |Hints(s)[k].names| > 0
    {
      InFiveParts(p[0], p[1], p[2], p[3], p[4], Hints(s)[k]);
    }
  }

  /** No hint exactly when every check passes. */
  lemma NoHintsIffClean(s: Sheet)
    requires Rectangular(s)
    ensures |Hints(s)| == 0 <==> !HasEmptyHeader(s.headers) && Distinct(s.headers)
                                 && NullLocations(s.rows) == []
                                 && InconsistentAmong(s, |s.headers|) == []
                                 && HasNumbers(s)
    ensures |Hints(s)| <= 5
  {
    var p := HintParts(s);
    SetSizeDetectsDuplicates(s.headers);
  }

  /** The hint texts, one per hint. */
  function Texts(headers: seq<string>, hints: seq<Hint>): (texts: seq<string>)
    requires forall k :: 0 <= k < |hints| && hints[k].MissingValues? ==>
               forall j :: 0 <= j < |hints[k].locations| ==> hints[k].locations[j].1 < |headers|
    ensures |texts| == |hints|
    ensures forall k :: 0 <= k < |hints| ==> texts[k] == HintText(headers, hints[k])
  {
    seq(|hints|, k requires 0 <= k < |hints| => HintText(headers, hints[k]))
  }

  /** `fun_validate`: the hint texts of the failed checks, and validity
      exactly when no check failed. */
  function Validate(s: Sheet): (v: Verdict)
    requires Rectangular(s)
    ensures v.isValid <==> |v.hints| == 0
    ensures v.isValid <==> !HasEmptyHeader(s.headers) && Distinct(s.headers)
                           && NullLocations(s.rows) == []
                           && InconsistentAmong(s, |s.headers|) == []
                           && HasNumbers(s)
    ensures |v.hints| == |Hints(s)| <= 5
    ensures HintsWellFormedFor(s) && v.hints == Texts(s.headers, Hints(s))
  {
    var hints := Hints(s);
    NoHintsIffClean(s);
    HintsWellFormed(s);
    Verdict(|hints| == 0, Texts(s.headers, hints))
  }
}
